=== FILE: README.md ===
# pulumi-kit, modelled in Dafny

A model of the core of `pulumi-kit`, a TypeScript helper kit for Pulumi programs. The kit
turns a small context into cloud resource declarations:
- the environment, derived from the stack name;
- the package metadata;
- the GCP project and region;
- the parsed `iam.yml` / `gcp.yml` data.

The modelled builders cover GCP projects, service accounts, folders, buckets, Cloud SQL,
Artifact Registry, Cloud Run backends, the global HTTPS load balancer, public IPs, Cloud
Scheduler jobs and a workload identity pool for GitHub. They also cover Cloudflare DNS
records and GitHub teams, repositories, variables and secrets.

Pulumi itself is not modelled. Every `new X(name, args, opts)` becomes a value
`Decl(identity, spec, options)` (module `Resources`):
- `identity` is the logical Pulumi name;
- `spec` is the resource kind with the arguments the source passes;
- `options` holds `dependsOn`, `ignoreChanges` and `deleteBeforeReplace`.

A Pulumi output read from another resource (`x.id`, `x.selfLink`, an interpolation around
`x.name`) is a `Value.Out(prefix, Ref(owner, output), suffix)` that names the owning resource.
A builder is a pure function from its inputs to the declarations it makes, in creation order.

Two kinds of property are proved about every builder that declares resources:
- **contents**: names, arguments, the environment rules and the error cases of each declaration;
- **ordering**: `Resources.WellOrdered`. Every resource a declaration reads through an output
  or a `dependsOn` is in scope or declared earlier, so no builder reads a resource it has not
  made yet.

Exceptions become `Result` values (`Errors.Error` mirrors each `throw`). Inputs the source reads
from disk or from the Pulumi runtime are parameters: the stack name, `package.json`, the YAML
files, and `gcp.getProject`.

Files are one module each:
- `wrappers`, `seqs` and `strings` hold the generic pieces. `strings` covers JavaScript string
  operations on ASCII.
- `env`, `context`, `resource_names`, `description` and `services` model the helpers.
- `resources` holds the declaration model and the ordering predicate.
- One file per builder source file.

## Model

| member | source | states |
|---|---|---|
| Env.Suffix | src/env.ts:21-31 | production gives the empty suffix; stage with `skipStage` gives the empty suffix; every other environment gives the separator followed by the environment |
| Env.DefaultSuffix | src/env.ts:21-31 | with the default arguments the suffix is `-env`, or empty in production |
| Env.SuffixEmptyIff | src/env.ts:21-31 | the suffix is empty exactly for production, a skipped stage, or an empty separator with an empty environment |
| Env.ProdSuffixIsEmpty | src/env.ts:22-24 | the production suffix ignores the separator and `skipStage` |
| Env.DevIgnoresSkipStage | src/env.ts:26-30 | `skipStage` affects only stage; development keeps its suffix either way |
| Env.DocumentedExamples | src/env.ts:17-19 | the three documented examples (`''`, `-stage`, `_dev`) hold |
| Context.EnvOfStack | src/context.ts:101-105 | the `master` stack is production; any other stack name is taken verbatim as the environment |
| Context.ProdStacks | src/context.ts:101-105 | production is reached from exactly two stacks, `master` and `prod`, and only `master` is renamed |
| Context.BaseContext | src/context.ts:100-117 | the context's environment follows the stack rule and the package configuration is passed through; the GCP settings are the caller's `ContextWithGcp` (src/context.ts:71-73), joined unchanged |
| Context.Rn | src/context.ts:112 | `rn`: the parts joined by `/`, plus `:env` outside production; the joined parts are always a prefix |
| Context.Srn | src/context.ts:113-115 | `srn`: the parts joined by `-`, plus `-env` outside production |
| Context.FactoriesAgreeOnProdSingleton | src/context.ts:112-115 | in production a one-segment name is the same under both factories |
| Context.FactoriesShareEnvironment | src/context.ts:112-115 | both factories append the environment suffix that `useEnvSuffix` computes, each with its own separator |
| ResourceNames.ResourceName | src/helpers/resource-names.ts:7-20 | the name before the suffix is always a prefix; nothing is appended in production; elsewhere the environment separator and the environment are appended |
| ResourceNames.SuffixAgreesWithEnvSuffix | src/helpers/resource-names.ts:15-17 | the factory's suffix is `useEnvSuffix(env, envSeparator)` |
| ResourceNames.PlainIsOneSegment | src/helpers/resource-names.ts:14 | a plain string is named like a one-element array |
| ResourceNames.HierarchicalInjective | src/helpers/resource-names.ts:11-19 | hierarchical names are collision-free: segment lists free of `/` that give the same name in one environment are equal |
| ResourceNames.FlatFormHasNoHierarchyCharacters | src/helpers/resource-names.ts:11-19 | a safe name contains no `/` and no `:` when its segments and the environment do not |
| ResourceNames.FlatFormMayCollide | src/helpers/resource-names.ts:11-14 | safe names are not injective: `["a-b"]` and `["a","b"]` collide |
| ResourceNames.ProdNamesHaveNoSuffix | src/helpers/resource-names.ts:15-19 | in production `my-resource` stays `my-resource` and never becomes the `my-resource:prod` of the doc example |
| ResourceNames.BoundariesAtEveryCasePair | src/helpers/resource-names.ts:24 | the left-to-right regex pass equals the reference "dash after every lower-case letter followed by an upper-case one" |
| ResourceNames.BoundariesWithoutUpper | src/helpers/resource-names.ts:24 | text without upper-case letters has no boundary to mark |
| ResourceNames.BoundariesKeepNoSpace | src/helpers/resource-names.ts:24 | boundary marking introduces no whitespace |
| ResourceNames.DropSpacesShape | src/helpers/resource-names.ts:25 | what is skipped is whitespace, and what is kept is a suffix that does not start with whitespace |
| ResourceNames.CollapseLeavesNoSpace | src/helpers/resource-names.ts:25 | `replace(/\s+/g,'-')` leaves no whitespace |
| ResourceNames.CollapseWithoutSpace | src/helpers/resource-names.ts:25 | text without whitespace is unchanged |
| ResourceNames.CollapseRun | src/helpers/resource-names.ts:25 | a maximal whitespace run between two texts becomes exactly one dash, and each side is collapsed on its own |
| ResourceNames.ToDashCase | src/helpers/resource-names.ts:22-27 | the result of `toDashCase` has no upper-case letter and no whitespace |
| ResourceNames.DashCaseFixpoint | src/helpers/resource-names.ts:22-27 | a string is its own dash-case exactly when it has no upper-case letter and no whitespace, so `toDashCase` is idempotent |
| ResourceNames.FixpointWhenClean | src/helpers/resource-names.ts:22-27 | text already lower-case and without whitespace is left alone |
| Description.ManagedByDescription | src/helpers/description.ts:3-5 | the text is `Managed by DeepOps [`, the description (or `undefined`), `/`, the version, and `]` |
| Description.ManagedByInjective | src/helpers/description.ts:3-5 | when the description has no `/`, the text determines both the description and the version |
| Description.MissingDescriptionRendersUndefined | src/helpers/description.ts:4 | a missing description renders as the word `undefined` |
| Description.Capitalize | src/helpers/description.ts:11 | only the first character is upper-cased; the length is kept and the empty word stays empty |
| Description.TitleCaseAt | src/helpers/description.ts:7-13 | the word-start walk puts `TitleChar` at every position |
| Description.TitleCaseIsJoin | src/helpers/description.ts:10-12 | split on `-`, capitalise each piece and join with a space equals the word-start walk |
| Description.DashToCamelWithSpaces | src/helpers/description.ts:7-13 | position by position: a dash becomes a space, a word start is upper-cased, the rest is lower-cased; the length is kept and no dash remains |
| Description.WordCount | src/helpers/description.ts:7-13 | the result has one word per dash or space of the input, plus one |
| Description.ConsecutiveDashesGiveAdjacentSpaces | src/helpers/description.ts:10-12 | two adjacent dashes give an empty word, that is, two adjacent spaces |
| Description.WebAppExample | src/helpers/description.ts:7-13 | `web-app` reads `Web App` |
| Services.GetServiceByName | src/helpers/services.ts:4-6 | `find`: the result is the first service with that name, and it is absent exactly when no service has the name |
| Services.BuildServiceEndpoint | src/helpers/services.ts:13-27 | the endpoint is `name.domain` in production and `name.env.domain` elsewhere |
| Services.EndpointUsesEnvSuffix | src/helpers/services.ts:20-26 | the middle of the endpoint is `useEnvSuffix(env, '.')` |
| Services.EndpointFrame | src/helpers/services.ts:20-26 | the endpoint starts with the name and a dot, and ends with a dot and the domain |
| Services.EndpointFirstLabel | src/helpers/services.ts:20-26 | for a name without dots, the first label of the endpoint is the name |
| Iam.GetUserById | src/iam.ts:125-127 | `find` by id: the result is the first user with the id, and it is absent exactly when no user has it |
| Iam.LowerPrefix | src/iam.ts:132 | the `[a-z]+` group: the longest prefix of lower-case letters |
| Iam.ParseSecretRef | src/iam.ts:132-138 | whatever `/^(?<source>[a-z]+)::(?<id>.+)$/` accepts is a well-formed reference whose text is the input |
| Iam.ParseFormat | src/iam.ts:132-138 | a well-formed reference is read back from its own text |
| Iam.LowerPrefixStops | src/iam.ts:132 | the source group ends at the first character that is not a lower-case letter |
| Iam.ParseIff | src/iam.ts:132-136 | a string matches the reference pattern exactly when it is the text of a well-formed reference |
| Iam.ParseExamples | src/iam.ts:130-132 | the two example references in the comment, `local::…` and `gcs::…`, parse into source and id |
| Iam.ParseRejects | src/iam.ts:132-136 | a bare id and an upper-case source do not match |
| Iam.GetSecretValue | src/iam.ts:129-146 | not a reference gives nothing; a source other than `local` throws, naming the source; a local reference gives the value of the first secret with that id, and nothing exactly when no secret has the id |
| Iam.LocalReferenceReads | src/iam.ts:139-145 | `local::<id>` of a stored secret reads that secret's value |
| Iam.ResolveTeams | src/iam.ts:170-186 | every member id is replaced by the first user with that id, in order; the load fails exactly when some id names no user, reporting the first such team and id |
| Iam.FirstDanglingUnique | src/iam.ts:172-178 | the reported dangling member is determined by the input |
| Iam.UseIamContext | src/iam.ts:152-197 | the users and secrets are kept as loaded, and the teams are resolved or the first dangling member is reported |
| Zone.RecordSegment | src/cloudflare/zone.ts:48 | the identity segment is `_root` for the apex `@` and the name otherwise |
| Zone.RecordSegmentCollisions | src/cloudflare/zone.ts:48 | two names share a segment exactly when they are equal or are `@` and `_root` |
| Zone.RecordFullName | src/cloudflare/zone.ts:50 | the DNS name is the zone for `@` and `name.zone` otherwise |
| Zone.FullNameIsZoneIff | src/cloudflare/zone.ts:50 | the DNS name is the bare zone exactly for `@`, and it always ends with the zone |
| Zone.UseDnsRecord | src/cloudflare/zone.ts:36-55 | the record's identity, zone id, full name, value and type are as given, and `proxied` is true only when it is given as true |
| Zone.DnsRecordWellOrdered | src/cloudflare/zone.ts:48-54 | a record reads only the resource its value comes from |
| Zone.RecordIdentities | src/cloudflare/zone.ts:48 | in one zone and type, two records share an identity exactly when their segments agree, so `@` and `_root` collide |
| GcpProject.FolderId | src/gcp/project.ts:79 | `folderId` is the parent folder's `name` output exactly when a parent folder is given |
| GcpProject.ServiceDecl | src/gcp/project.ts:86-95 | each service is enabled as `<service>.googleapis.com` with dependent services disabled, and depends only on the project |
| GcpProject.UseProject | src/gcp/project.ts:64-98 | the project carries the id, name, billing account, folder and organisation and ignores `orgId` changes; exactly one service declaration per listed service, in order (none by default) |
| GcpProject.ProjectWellOrdered | src/gcp/project.ts:75-95 | the project reads at most the parent folder, and every service comes after the project it depends on |
| GcpProject.ServiceNameRecoverable | src/gcp/project.ts:90 | the API name is the service followed by `.googleapis.com`, so the service can be read back |
| GcpProject.ServiceIdentitiesDistinct | src/gcp/project.ts:87 | on one project, services free of `/` share an identity exactly when they are equal |
| GcpProject.LocalPart | src/gcp/project.ts:135 | `userEmail.split('@')[0]` is a prefix of the address without `@` |
| GcpProject.LocalPartOf | src/gcp/project.ts:135 | the local part of `name@domain` is `name` |
| GcpProject.UserRoleDecl | src/gcp/project.ts:138-142 | a grant binds `roles/<role>` on the project to `user:<email>`, keyed by the local part of the address |
| GcpProject.GrantUserRoles | src/gcp/project.ts:127-144 | one grant per role, in order, each as `UserRoleDecl` describes |
| GcpProject.GrantsKeyedByLocalPart | src/gcp/project.ts:135-138 | two addresses with the same local part get the same grant identities |
| GcpProject.UserGrantSharesAccountRoleIdentity | src/gcp/project.ts:138 | a grant to `name@domain` has the identity of the service account `name`'s binding of the same role (src/gcp/service-account.ts:66) |
| GcpProject.GrantUserRolesWellOrdered | src/gcp/project.ts:137-143 | the grants read no other resource |
| GcpProject.MemberDecl | src/gcp/project.ts:171-175 | a member binds `roles/<role>` on the entry's project to `user:<email>` of the user found by id |
| GcpProject.UserGrants | src/gcp/project.ts:165-176 | a user entry fails, naming the id, exactly when no user has the id or the user's address is empty; otherwise it gives one binding per role, in order |
| GcpProject.ProjectGrants | src/gcp/project.ts:164-177 | a project entry succeeds exactly when every listed user has an address, and otherwise fails with the first one that has none |
| GcpProject.FirstFailure | src/gcp/project.ts:163-168 | the first failing project entry reports its first user without an address |
| GcpProject.UseProjectIam | src/gcp/project.ts:156-179 | `useProjectIam` succeeds exactly when every listed user of every project has an address; otherwise it throws for the first such user in file order |
| GcpProject.UserGrantsContent | src/gcp/project.ts:170-176 | a user entry's declarations are exactly the bindings of its roles to that user |
| GcpProject.ProjectGrantsContent | src/gcp/project.ts:164-177 | a project entry's declarations are exactly its users' role bindings |
| GcpProject.UseProjectIamContent | src/gcp/project.ts:163-178 | on success the declarations are exactly the role bindings of every listed user on every listed project |
| GcpProject.UseProjectIamWellOrdered | src/gcp/project.ts:163-178 | on success the bindings read no other resource |
| ServiceAccount.DefaultDisplayName | src/gcp/service-account.ts:50 | the default display name is the name in title case, with spaces for dashes, followed by ` Service`, and contains no dash |
| ServiceAccount.DefaultDisplayNameExample | src/gcp/service-account.ts:14-21 | `web-app` is shown as `Web App Service` |
| ServiceAccount.AccountRoleDecl | src/gcp/service-account.ts:66-70 | each role binding grants `roles/<role>` to `serviceAccount:` followed by the account's email output, so it reads the account; no options |
| ServiceAccount.UseServiceAccount | src/gcp/service-account.ts:47-74 | the account is named after `name` with the managed-by description and the given or default display name, and depends on `deps`; one binding per role, in order |
| ServiceAccount.ServiceAccountWellOrdered | src/gcp/service-account.ts:56-71 | the account needs only its dependencies, and every binding comes after the account it reads |
| ServiceAccount.GrantName | src/gcp/service-account.ts:114-117 | a non-empty custom name is used as given; otherwise the local part of the email |
| ServiceAccount.GrantRoleDecl | src/gcp/service-account.ts:120-124 | a binding grants `roles/<role>` to `serviceAccount:<email>`, reads no other resource and has no options |
| ServiceAccount.GrantServiceAccountRoles | src/gcp/service-account.ts:105-126 | one binding per role, in order, under the resolved name |
| ServiceAccount.GrantServiceAccountRolesWellOrdered | src/gcp/service-account.ts:119-125 | the bindings read no other resource |
| ServiceAccount.GrantSharesIdentities | src/gcp/service-account.ts:120 | granting by email to account `name` reuses the identities `useServiceAccount` (line 66) gives that account's own bindings |
| Folder.NameParts | src/gcp/folder.ts:31-39 | the identity is `root/gcp/folder`, then the dash-cased path only when it is non-empty, then the dash-cased name |
| Folder.UseFolder | src/gcp/folder.ts:13-47 | it throws exactly when neither a parent folder nor a non-empty organisation is given; the parent is the folder's `name` output, or else `organizations/<org>`; the display name is the name as given |
| Folder.FolderNeedsOnlyParent | src/gcp/folder.ts:23-46 | a folder reads and depends on its parent folder and nothing else |
| Folder.NestedFoldersWellOrdered | src/gcp/folder.ts:41-46 | a child declared after its parent folder is well ordered, and a child with a parent folder never throws |
| Folder.CleanNamesKept | src/gcp/folder.ts:36-39 | a path and a name already in dash case appear in the identity verbatim |
| StorageBucket.BucketDecl | src/gcp/storage-bucket.ts:85-104 | the bucket is named by the custom name or else `srn([prefix, name])`; its location is the given one or the region, upper-cased; CORS and the seven-day soft delete apply exactly when enabled; uniform access is always on; no options |
| StorageBucket.PublicAccessDecl | src/gcp/storage-bucket.ts:106-114 | public access grants `roles/storage.objectViewer` on the bucket's name to `allUsers` and depends on the bucket |
| StorageBucket.BackendDecl | src/gcp/storage-bucket.ts:116-129 | the backend bucket is named `srn(['bucket', name])` without the prefix, carries the managed-by description, reads the bucket's name, depends on the bucket, and has CDN exactly in production or when CDN is enabled |
| StorageBucket.UseStorageBucket | src/gcp/storage-bucket.ts:68-135 | the bucket always; public access exactly when `isPublic`; a backend exactly when `shouldCreateBackend` |
| StorageBucket.StorageBucketWellOrdered | src/gcp/storage-bucket.ts:96-129 | the optional resources come after the bucket they read and depend on |
| StorageBucket.DefaultNamesMayCollide | src/gcp/storage-bucket.ts:97 | without a custom name, different prefix/name pairs can give the same bucket name |
| ArtifactRegistry.RepoLocation | src/gcp/artifact-registry.ts:27 | the location is the given one, or else the region up to its first dash |
| ArtifactRegistry.RegionExamples | src/gcp/artifact-registry.ts:27 | `us-central1` gives `us` and `europe-west1` gives `europe` |
| ArtifactRegistry.PublicAccessDecl | src/gcp/artifact-registry.ts:43-50 | public access grants the Artifact Registry reader role to `allUsers` on the repository's name, in its location, and depends on the repository |
| ArtifactRegistry.RepoDecl | src/gcp/artifact-registry.ts:28-33 | the Docker repository is named `projects/<project>/locations/<loc>/repositories/<name>`, reads nothing and has no options |
| ArtifactRegistry.UseDockerRepository | src/gcp/artifact-registry.ts:19-52 | the repository always, and the public binding exactly when `isPublic` |
| ArtifactRegistry.DockerRepositoryWellOrdered | src/gcp/artifact-registry.ts:28-50 | the public binding comes after the repository it reads |
| ArtifactRegistry.PublicIdentityIgnoresRepository | src/gcp/artifact-registry.ts:43 | the public binding's identity does not name the repository, so two public repositories collide |
| ArtifactRegistry.ServiceAgentMember | src/gcp/artifact-registry.ts:73-75 | the member is `serviceAccount:service-<number>@serverless-robot-prod.iam.gserviceaccount.com`: literal text for a literal project number, and for an output the number's own output with that prefix and suffix around it |
| ArtifactRegistry.GrantDockerRepositoryAccess | src/gcp/artifact-registry.ts:59-77 | the reader role on the ops project for the run project's service agent, keyed by the run project id, reading at most the project number's owner, with no options |
| ArtifactRegistry.GrantDockerRepositoryAccessWellOrdered | src/gcp/artifact-registry.ts:70-76 | the binding reads only the resource behind the project number |
| ArtifactRegistry.GrantIdentityPerRunProject | src/gcp/artifact-registry.ts:70 | run projects without `/` get the same binding identity exactly when their ids are equal |
| CloudSql.DefaultTier | src/gcp/cloudsql.ts:43 | the micro tier exactly in development, the custom 2-CPU tier everywhere else |
| CloudSql.DatabaseName | src/gcp/cloudsql.ts:91 | the database name keeps the service name's length and has no dash left |
| CloudSql.DatabaseNameInvertible | src/gcp/cloudsql.ts:91 | for a service name without underscores, turning underscores back into dashes recovers it |
| CloudSql.InstanceDecl | src/gcp/cloudsql.ts:38-89 | the PostgreSQL instance takes the given version (default 15) and tier (default by environment); backups, point-in-time recovery and deletion protection are on exactly in production; `etag` is ignored |
| CloudSql.DatabaseDecl | src/gcp/cloudsql.ts:90-93 | the database reads the instance's name output and nothing else |
| CloudSql.UserDecl | src/gcp/cloudsql.ts:94-98 | the user is `app` unless named, with the given password, on the instance's name output |
| CloudSql.UseCloudSql | src/gcp/cloudsql.ts:31-99 | the instance, its database and its user, keyed under `service/<name>/gcp/sql` |
| CloudSql.CloudSqlWellOrdered | src/gcp/cloudsql.ts:46-98 | the database and the user come after the instance, in any scope |
| CloudSql.NonProductionInstancesAlike | src/gcp/cloudsql.ts:43-82 | two environments that are neither development nor production get the same tier and no protection or backups |
| CloudScheduler.RunsInIff | src/gcp/cloudscheduler.ts:48-50 | a job runs when it names no environment, an empty one, or the current one |
| CloudScheduler.AuthHeaders | src/gcp/cloudscheduler.ts:41-45 | one `Authorization: Bearer <token>` header exactly when a non-empty token is given, none otherwise |
| CloudScheduler.JobUri | src/gcp/cloudscheduler.ts:59 | the job's own path on the endpoint when it has one, `/workers/<job>` otherwise |
| CloudScheduler.JobDecl | src/gcp/cloudscheduler.ts:52-62 | a POST job in the project's region with the managed-by description, the default time zone and every-minute schedule unless given, and needing no other resource |
| CloudScheduler.UseCloudScheduler | src/gcp/cloudscheduler.ts:27-64 | a job is declared if and only if it runs in the current environment, as that job's declaration |
| CloudScheduler.ScheduleOne | src/gcp/cloudscheduler.ts:47-63 | a single job gives its declaration when it runs in the current environment and nothing otherwise |
| CloudScheduler.UseCloudSchedulerWellOrdered | src/gcp/cloudscheduler.ts:52-62 | the jobs read no other resource |
| CloudScheduler.UnrestrictedJobsAllScheduled | src/gcp/cloudscheduler.ts:47-63 | jobs without an environment are all declared, one each, in input order |
| CloudScheduler.ScheduleAppend | src/gcp/cloudscheduler.ts:47-63 | scheduling two job lists one after the other equals scheduling their concatenation |
| CloudScheduler.CloudRunJobDecl | src/gcp/cloudscheduler.ts:91-105 | the job is named `<service>-<job>`, carries the managed-by description and POSTs to the Cloud Run job's `:run` URL in its region with an OAuth token for the given account |
| CloudScheduler.UseScheduledCloudRunJobs | src/gcp/cloudscheduler.ts:73-107 | a Cloud Run job is scheduled if and only if it runs in the current environment, as that job's declaration |
| CloudScheduler.CloudRunScheduleAppend | src/gcp/cloudscheduler.ts:87-106 | scheduling two Cloud Run job lists one after the other equals scheduling their concatenation |
| CloudScheduler.CloudRunScheduleOne | src/gcp/cloudscheduler.ts:87-106 | a single Cloud Run job is scheduled when it runs in the current environment and not otherwise |
| CloudScheduler.UseScheduledCloudRunJobsWellOrdered | src/gcp/cloudscheduler.ts:93-105 | the Cloud Run jobs read no other resource |
| CloudScheduler.VariantsShareIdentities | src/gcp/cloudscheduler.ts:87-93 | both helpers keep the same jobs and give them the same identities, keyed by the raw job name |
| CloudRunBackend.TypeName | src/gcp/cloudrun-backend.ts:23 | the backend type's two names are `http` and `ws` |
| CloudRunBackend.CloudRunServiceName | src/gcp/cloudrun-backend.ts:38 | an HTTP group points at the service's own name, a WebSocket group at `<service>-ws` |
| CloudRunBackend.NegDecl | src/gcp/cloudrun-backend.ts:32-40 | a serverless endpoint group in the region, named `<service>-<type>`, with the managed-by description, no options, reading nothing |
| CloudRunBackend.BackendDecl | src/gcp/cloudrun-backend.ts:43-59 | an external managed backend service over the group's `selfLink`, with the managed-by description, the client headers, and CDN and automatic compression exactly outside development; `usedBy` is ignored |
| CloudRunBackend.UseCloudRunBackend | src/gcp/cloudrun-backend.ts:22-62 | the HTTP type unless another is given; the backend service has the group's name |
| CloudRunBackend.ServiceNameMatchesGroupIff | src/gcp/cloudrun-backend.ts:32-38 | the group's name equals the Cloud Run service it points at exactly for WebSocket backends |
| CloudRunBackend.CloudRunBackendWellOrdered | src/gcp/cloudrun-backend.ts:32-59 | the backend service comes after the endpoint group |
| CloudRunBackend.EnableCloudRunPublicAccess | src/gcp/cloudrun-backend.ts:67-76 | the Cloud Run invoker role for `allUsers` on the whole project |
| CloudRunBackend.PublicAccessWellOrdered | src/gcp/cloudrun-backend.ts:70-75 | the binding reads no other resource |
| CloudRunBackend.PublicAccessPerProject | src/gcp/cloudrun-backend.ts:71 | two projects without `/` get the same identity exactly when they are the same project |
| PublicIp.Alias | src/gcp/public-ip.ts:36 | the alias starts with the address id followed by a dot |
| PublicIp.AliasIsNotApex | src/gcp/public-ip.ts:36-43 | the alias is never the zone apex `@` |
| PublicIp.UsePublicIp | src/gcp/public-ip.ts:21-49 | a global address (`primary` unless named), deleted before replacement, and an unproxied `A` record in the technical zone on its address output, keyed by the alias, the same record `useDnsRecord` makes; the returned alias is the record's name |
| PublicIp.AliasResolvesToRecord | src/gcp/public-ip.ts:38-48 | the returned alias is exactly the full DNS name the zone gives the record |
| PublicIp.PublicIpWellOrdered | src/gcp/public-ip.ts:29-43 | the record comes after the address |
| PublicIp.AddressIdentitiesDistinct | src/gcp/public-ip.ts:29 | two ids without `/` give the same address identity exactly when they are equal |
| LoadBalancer.Fqdn | src/gcp/load-balancer.ts:105 | the bare zone for an empty subdomain, `<sub>.<zone>` otherwise |
| LoadBalancer.FqdnZoneInjective | src/gcp/load-balancer.ts:105 | with the subdomain fixed, two zones give the same name exactly when they are the same zone |
| LoadBalancer.ServiceHost | src/gcp/load-balancer.ts:99-125 | a service `@` is the zone apex in production and `<env>.<zone>` elsewhere; any other subdomain is `<sub>.<zone>` in production and `<sub>.<env>.<zone>` elsewhere; the record is `@` exactly for an empty subdomain; the matcher is `root` for `@` and routes to the backend's id |
| LoadBalancer.RedirectHost | src/gcp/load-balancer.ts:129-154 | a redirect's subdomain gets the environment suffix with no case for `@`; the record name is that subdomain; the matcher redirects to the target with a 303, keeping the query |
| LoadBalancer.ServiceHostsPerZone | src/gcp/load-balancer.ts:99-125 | two services with the same subdomain get the same hostname exactly when their zones share a name |
| LoadBalancer.RedirectHostsPerZone | src/gcp/load-balancer.ts:129-154 | two redirects with the same subdomain get the same hostname exactly when their zones share a name |
| LoadBalancer.ServiceRecordMatchesHost | src/gcp/load-balancer.ts:105-120 | a service's DNS record resolves to the host its certificate and host rule use, unless the environment itself is named `@` |
| LoadBalancer.RedirectRecordMatchesHost | src/gcp/load-balancer.ts:129-145 | a redirect's DNS record resolves to its host except in production for an empty or `@` subdomain |
| LoadBalancer.ApexAsymmetry | src/gcp/load-balancer.ts:100-136 | in production a service `@` serves the zone apex, while a redirect `@` certifies `@.<zone>` but its record lands on the apex |
| LoadBalancer.Hosts | src/gcp/load-balancer.ts:98-155 | the hosts are the services in input order, then the redirects in input order |
| LoadBalancer.HostRules | src/gcp/load-balancer.ts:118-121 | one host rule per host, naming the host's domain and its path matcher |
| LoadBalancer.PathMatchers | src/gcp/load-balancer.ts:122-125 | one path matcher per host, with the host's action |
| LoadBalancer.UrlMapIgnores | src/gcp/load-balancer.ts:157-161 | `fingerprint` is always ignored, and the host rules and path matchers exactly when there are no services |
| LoadBalancer.ProxyName | src/gcp/load-balancer.ts:168-169 | the bare protocol for the `primary` endpoint, `<id>-<protocol>` otherwise |
| LoadBalancer.ProxyNamesDistinct | src/gcp/load-balancer.ts:168-169 | endpoint ids map to proxy names one-to-one for each protocol, and an HTTPS name never equals an HTTP name |
| LoadBalancer.SafeDomainName | src/gcp/load-balancer.ts:226 | dots become dashes; the length is kept |
| LoadBalancer.SafeDomainNamesMayCollide | src/gcp/load-balancer.ts:226-229 | `a-b.c` and `a.b-c` get the same certificate id |
| LoadBalancer.SafeDomainNameInvertible | src/gcp/load-balancer.ts:226 | for a hostname without dashes the replacement can be undone |
| LoadBalancer.UseCertificateWithLoadBalancer | src/gcp/load-balancer.ts:216-251 | a managed global certificate for exactly the hostname with the managed-by description, ignoring `managed`, and a global map entry for the hostname in the given map with the managed-by description, reading the certificate's name |
| LoadBalancer.UseHost | src/gcp/load-balancer.ts:106-115 | each host gets a CNAME record on the address alias, then its certificate and map entry |
| LoadBalancer.CertMapDecl | src/gcp/load-balancer.ts:90-96 | the global certificate map is named after the endpoint id, carries the managed-by description, has no options and reads nothing |
| LoadBalancer.UrlMapDecl | src/gcp/load-balancer.ts:78-166 | the URL map carries the managed-by description; unmatched hosts redirect to the default domain with a 303; host rule `k` names path matcher `k`; the services route to their backends in order, then the redirects to their targets |
| LoadBalancer.HttpsProxyDecl | src/gcp/load-balancer.ts:171-176 | the HTTPS proxy carries the managed-by description, has no options, and reads the URL map's id and the certificate map's name as a Certificate Manager URL |
| LoadBalancer.HttpUrlMapDecl | src/gcp/load-balancer.ts:188-195 | the HTTP URL map carries the managed-by description, has no options, and only redirects to HTTPS, keeping the query |
| LoadBalancer.HttpProxyDecl | src/gcp/load-balancer.ts:196-200 | the HTTP proxy carries the managed-by description, has no options, and reads the HTTP URL map's id |
| LoadBalancer.ForwardingDecl | src/gcp/load-balancer.ts:177-185 | a forwarding rule with the managed-by description and no options targets its proxy's id on the address's id and one port |
| LoadBalancer.HostDeclarations | src/gcp/load-balancer.ts:98-155 | one record, certificate and entry triple per host, in host order |
| LoadBalancer.UseLoadBalancer | src/gcp/load-balancer.ts:61-210 | the endpoint id defaults to `primary` and the redirects to none; the HTTPS chain is on port 443 and the HTTP chain on port 80 |
| LoadBalancer.ForwardingRulesShareAddress | src/gcp/load-balancer.ts:177-209 | both forwarding rules use the same address, HTTPS on 443 and HTTP on 80, each targeting its own proxy |
| LoadBalancer.DeclarationOrder | src/gcp/load-balancer.ts:91-209 | the certificate map comes first, then host `k`'s record, certificate and entry at positions `3k+1` to `3k+3`, then the six routing resources |
| LoadBalancer.UrlMapReadsBackends | src/gcp/load-balancer.ts:122-166 | the URL map reads only the services' backends |
| LoadBalancer.HostDeclsWellOrdered | src/gcp/load-balancer.ts:106-115 | each map entry comes after the certificate it reads |
| LoadBalancer.CertificateWellOrdered | src/gcp/load-balancer.ts:216-251 | the map entry comes after the certificate it reads |
| LoadBalancer.UseLoadBalancerWellOrdered | src/gcp/load-balancer.ts:61-210 | every resource reads only the address, the backends, or resources declared before it |
| WorkloadIdentityPool.PoolDecl | src/gcp/workload-identity-pool.ts:45-49 | the pool `github` in the given project, reading nothing, with no options |
| WorkloadIdentityPool.ProviderDecl | src/gcp/workload-identity-pool.ts:62-78 | one OIDC provider per organisation, keyed and named by the lower-cased login, trusting the GitHub Actions issuer with the three attribute mappings, admitting only repositories the organisation (as written) owns, and declared after the pool |
| WorkloadIdentityPool.BindingDecl | src/gcp/workload-identity-pool.ts:80-84 | the organisation's principal set may use the `github-wip` account, after the pool and the account |
| WorkloadIdentityPool.UseWorkloadIdentityPoolForGithub | src/gcp/workload-identity-pool.ts:36-86 | the pool, the `github-wip` account with the Artifact Registry writer and storage object admin roles, and one provider and binding per organisation (none by default), in order |
| WorkloadIdentityPool.BindingTargetsAccount | src/gcp/workload-identity-pool.ts:51-59 | the binding's account path names the account the builder creates, in the same project |
| WorkloadIdentityPool.ProviderAndBindingAgree | src/gcp/workload-identity-pool.ts:77-83 | the provider's condition and the binding's principal set name the same organisation |
| WorkloadIdentityPool.ProviderIdentitiesIff | src/gcp/workload-identity-pool.ts:62-64 | two logins without `/` share a provider identity exactly when they agree up to letter case |
| WorkloadIdentityPool.OrgAccessWellOrdered | src/gcp/workload-identity-pool.ts:64-84 | each binding comes after its provider, and both only read the pool and the account |
| WorkloadIdentityPool.WorkloadIdentityPoolWellOrdered | src/gcp/workload-identity-pool.ts:45-85 | the pool and the account come first, and every provider and binding reads only them |
| Github.MembershipDecl | src/github/github.ts:129-135 | a membership for the user's login, with their organisation role or `member`, reading the team's id, with no options |
| Github.TeamDecl | src/github/github.ts:123-126 | a closed team under its GitHub name, keyed by organisation and name |
| Github.Memberships | src/github/github.ts:129-135 | one membership per team member, in order |
| Github.TeamDecls | src/github/github.ts:119-136 | nothing for a team without GitHub settings; otherwise the team, then its memberships |
| Github.OrgVariableDecls | src/github/github.ts:139-150 | an organisation variable visible to all repositories exactly for a secret published to an organisation and not encrypted |
| Github.GithubTeamsDeclared | src/github/github.ts:119-136 | every team with GitHub settings is in what `useGithub` declares, members or not |
| Github.GithubMembershipsDeclared | src/github/github.ts:129-135 | each member of a team with GitHub settings has a membership in what `useGithub` declares |
| Github.OrgVariablesExactly | src/github/github.ts:139-150 | a variable is declared if and only if it belongs to a published, unencrypted secret |
| Github.GithubTeamsExactly | src/github/github.ts:119-136 | the team part is exactly the teams with GitHub settings and their members' memberships |
| Github.InTeamDecls | src/github/github.ts:119-136 | one team's declarations are exactly the team and a membership per member |
| Github.MembershipsExactly | src/github/github.ts:129-135 | a membership list holds exactly a membership for each member |
| Github.UseGithub | src/github/github.ts:114-151 | the declarations are exactly the GitHub teams with their memberships and the organisation variables, and no variable comes before a team declaration |
| Github.TeamsAndVariablesApart | src/github/github.ts:114-151 | the team part and the variable part are what they claim and share no declaration |
| Github.TeamDeclsWellOrdered | src/github/github.ts:123-135 | each membership comes after the team it reads |
| Github.UseGithubWellOrdered | src/github/github.ts:114-151 | every membership reads a team declared before it and the variables read nothing |
| Github.RepositoryDecl | src/github/github.ts:177-190 | the repository is public exactly when access says so, has issues exactly when the feature is listed, allows merge commits only, has no vulnerability alerts, is archived only when asked, and ignores the commit-message settings |
| Github.Attached | src/github/github.ts:203 | everything after the repository names it as its one explicit dependency |
| Github.CollaboratorDecl | src/github/github.ts:194-204 | a collaborator under the user's GitHub login with the given role; an unknown user fails with `User <id> not found` |
| Github.GithubTeamById | src/github/github.ts:210-211 | the GitHub settings of the first team with the id; none when no team has it or that team is not on GitHub |
| Github.TeamRepositoryDecl | src/github/github.ts:209-220 | team access by the team's GitHub name; an unknown or non-GitHub team fails with `Team <id> not found` |
| Github.ResolveValue | src/github/github.ts:226-233 | a non-empty literal wins; otherwise the reference is looked up; neither given, or a lookup that yields nothing, fails; the result is never empty |
| Github.ValueFromLocalSecret | src/github/github.ts:230 | a `local::` reference to a stored secret yields that secret's value |
| Github.VariableDecl | src/github/github.ts:224-240 | an Actions variable with the resolved value, failing exactly when resolution fails |
| Github.SecretDecl | src/github/github.ts:244-260 | an Actions secret with the resolved value, failing exactly when resolution fails |
| Github.ProtectionDecl | src/github/github.ts:266-273 | a branch protection that dismisses stale reviews and needs one approving review |
| Github.ProtectionDecls | src/github/github.ts:264-275 | the `dev`, `stage` and `master` branches are protected exactly when protection is asked for |
| Github.ActionsDecls | src/github/github.ts:278-285 | Actions permissions allowing all actions exactly when the `actions` feature is listed |
| Github.CollaboratorDecls | src/github/github.ts:193-205 | it succeeds exactly when every user is known, with one collaborator per user in order; otherwise it fails on the first unknown user, all users before it being known |
| Github.TeamRepositoryDecls | src/github/github.ts:208-221 | it succeeds exactly when every team resolves, with one grant per team in order; otherwise it fails on the first team that does not resolve |
| Github.VariableDecls | src/github/github.ts:224-241 | it succeeds exactly when every variable resolves, one declaration per variable in order; otherwise it fails with the error of the first variable that does not |
| Github.SecretDecls | src/github/github.ts:244-261 | it succeeds exactly when every secret resolves, one declaration per secret in order; otherwise it fails with the error of the first secret that does not |
| Github.RepoDecls | src/github/github.ts:176-285 | it succeeds exactly when every reference resolves and is then the repository, its collaborators, team grants, variables and secrets in file order, the branch protections and the Actions permissions, all attached to the repository; otherwise it fails with the error of the first list that fails, in that order |
| Github.RepoDeclsWellOrdered | src/github/github.ts:177-285 | a repository's declarations come after the repository they depend on |
| Github.UseGithubForProject | src/github/github.ts:161-291 | it succeeds exactly when every repository resolves, and then holds exactly the declarations of every repository; otherwise it fails with the error of the first repository that does not resolve |
| Github.UseGithubForProjectWellOrdered | src/github/github.ts:176-286 | every declaration comes after the repository it depends on |

Where the documentation and the code disagree, the model follows the code:
- `src/context.ts` documents `rn('my-resource')` in production as `my-resource:prod`, but the
  name factory appends nothing in production (`ResourceNames.ProdNamesHaveNoSuffix`).
- The URL map ignores its routes when there are no services, whatever the redirects
  (`LoadBalancer.UrlMapIgnores`).

Hostnames keep zones apart: the same subdomain in zones with different names gives different
hostnames (`LoadBalancer.ServiceHostsPerZone`, `LoadBalancer.RedirectHostsPerZone`). The
certificate and map-entry ids do not. They replace every dot of the hostname by a dash, so
`x-y.com` and `x.y-com` get the same id (`LoadBalancer.SafeDomainNamesMayCollide`).

## Left out
- `src/gcp-deprecated/*`: superseded copies of the `src/gcp` builders. The live versions are modelled.
- `src/gcp/cloudrun-domain-mapping.ts`: its only logic is `paramCase` from an external text kit, which is not part of this model.
- `src/github/actions.ts`: a single resource with no rules of its own.
- Context.BaseContext: the `project: null` field of the base context is not modelled, since nothing reads it; the GCP settings come from the caller's separate `ContextWithGcp` and are taken as a parameter.
- `src/helpers/tools.ts`: a file-system `stat` probe.
- `rolldown.config.ts`: build configuration.
- `src/gcp/enums.ts`: constants only. The role strings the builders use are copied as constants.
- WorkloadIdentityPool.BindingDecl: the role is a parameter, because the `IAM_WORKLOAD_IDENTITY_USER` member the source names is not defined in `src/gcp/enums.ts`.
- File and network I/O: the YAML files, `package.json`, `getStack()` and `gcp.getProject` are inputs.
- The Pulumi runtime: constructors, `Output.apply`, and how `dependsOn` and `ignoreChanges` are carried out. Outputs are named references, and the options are fields of the declaration.
- `async`/`await`: execution is sequential, so every builder is a plain function.
- Unicode: `\s`, `toLowerCase` and `toUpperCase` are modelled on ASCII only.
- Partial effects of a throw: when a builder throws after declaring some resources, the model returns the error alone, not the declarations made before it.
- CloudSql.InstanceDecl: the constant instance settings are not modelled. These are the `max_connections` flag, query insights, the backup retention and start time, the disk settings, the pricing plan, the activation policy and the availability type. They do not depend on any input.
- LoadBalancer.ServiceHost: the DNS record name is stated as two implications on the computed subdomain. An if-and-only-if with the raw subdomain fails when the environment is itself named `@`.
- GcpProject.UseProject: the parent folder is the identity of a folder declared elsewhere, not a resource object.

=== FILE: artifact_registry.dfy ===
/**
  Artifact Registry (src/gcp/artifact-registry.ts): a Docker repository, optionally readable
  by everyone, and read access for another project's Cloud Run service agent.
 */
module ArtifactRegistry {
  import opened Wrappers
  import opened Resources
  import Strings
  import Context
  import ResourceNames

  /** `roles/artifactregistry.reader`, without the `roles/` prefix as in the role enumeration. */
  const ArtifactRegistryReader: string := "artifactregistry.reader"
  const DockerFormat: string := "DOCKER"
  const AllUsers: string := "allUsers"

  datatype Args = Args(name: string, location: Option<string>, isPublic: Option<bool>)

  /** The repository location: the given one, else the region's first dash-separated part (`us` for `us-central1`). */
  function RepoLocation(region: string, location: Option<string>): (loc: string)
    ensures location.Some? ==> loc == location.value
    ensures location.None? ==> loc <= region && '-' !in loc
    ensures location.None? && |loc| < |region| ==> region[|loc|] == '-'
  {
    location.GetOr(Strings.FirstSegment(region, '-'))
  }

  /** The multi-region examples: `us-central1` gives `us`, `europe-west1` gives `europe`. */
  lemma RegionExamples()
    ensures RepoLocation("us-central1", None) == "us"
    ensures RepoLocation("europe-west1", None) == "europe"
  {
    Strings.FirstSegmentOf("us", "central1", '-');
    assert "us" + ['-'] + "central1" == "us-central1";
    Strings.FirstSegmentOf("europe", "west1", '-');
    assert "europe" + ['-'] + "west1" == "europe-west1";
  }

  function RepoIdentity(c: Context.Ctx, name: string): string {
    Context.Rn(c, ["root", "gcp", "docker", "repo", name])
  }

  function PublicIdentity(c: Context.Ctx): string {
    Context.Rn(c, ["iam", "gcp", "public", "role", ArtifactRegistryReader])
  }

  /** Read access to the repository for everyone, reading its name and depending on it. */
  function PublicAccessDecl(c: Context.Ctx, name: string, loc: string): (d: Decl)
    ensures d.identity == PublicIdentity(c)
    ensures d.spec == RegistryIamMember(loc, Lit(AllUsers), Output(RepoIdentity(c, name), "name"), "roles/" + ArtifactRegistryReader)
    ensures d.options == DependsOn([RepoIdentity(c, name)])
    ensures Needs(d) == {RepoIdentity(c, name)}
  {
    assert [RepoIdentity(c, name)][0] == RepoIdentity(c, name);
    Decl(PublicIdentity(c),
         RegistryIamMember(loc, Lit(AllUsers), Output(RepoIdentity(c, name), "name"), "roles/" + ArtifactRegistryReader),
         DependsOn([RepoIdentity(c, name)]))
  }

  datatype Registry = Registry(repo: Decl, publicAccess: Option<Decl>)

  /** The Docker-format repository under its full resource name in the project and location. */
  function RepoDecl(c: Context.Ctx, name: string, loc: string): (d: Decl)
    ensures d.identity == RepoIdentity(c, name)
    ensures d.spec == Resources.DockerRepository("projects/" + c.gcp.project + "/locations/" + loc + "/repositories/" + name,
                                                 name, DockerFormat, loc)
    ensures Needs(d) == {}
    ensures d.options == NoOptions
  {
    Decl(RepoIdentity(c, name),
         Resources.DockerRepository("projects/" + c.gcp.project + "/locations/" + loc + "/repositories/" + name,
                                    name, DockerFormat, loc),
         NoOptions)
  }

  /**
    `useDockerRepository`: a Docker-format repository under its full resource name, and,
    exactly when it is public, a reader binding for everyone.
   */
  function UseDockerRepository(c: Context.Ctx, args: Args): (r: Registry)
    ensures r.repo == RepoDecl(c, args.name, RepoLocation(c.gcp.region, args.location))
    ensures r.publicAccess.Some? <==> IsTrue(args.isPublic)
    ensures r.publicAccess.Some? ==> r.publicAccess.value == PublicAccessDecl(c, args.name, RepoLocation(c.gcp.region, args.location))
  {
    var loc := RepoLocation(c.gcp.region, args.location);
    Registry(RepoDecl(c, args.name, loc), if IsTrue(args.isPublic) then Some(PublicAccessDecl(c, args.name, loc)) else None)
  }

  /** The public binding follows the repository it reads. */
  lemma DockerRepositoryWellOrdered(c: Context.Ctx, args: Args, scope: set<string>)
    requires IsTrue(args.isPublic)
    ensures var r := UseDockerRepository(c, args);
            WellOrdered([r.repo, r.publicAccess.value], scope)
  {
    var r := UseDockerRepository(c, args);
    var p := r.publicAccess.value;
    WellOrderedCons(p, [], scope + {r.repo.identity});
    WellOrderedCons(r.repo, [p], scope);
  }

  /**
    The public binding's identity names the role only, not the repository: two public
    repositories in one stack declare the same identity.
   */
  lemma PublicIdentityIgnoresRepository(c: Context.Ctx, a1: Args, a2: Args)
    requires IsTrue(a1.isPublic) && IsTrue(a2.isPublic)
    ensures UseDockerRepository(c, a1).publicAccess.value.identity == UseDockerRepository(c, a2).publicAccess.value.identity
  {
  }

  /** The Cloud Run service agent of a project, by project number. */
  function ServiceAgentMember(runProjectNumber: Value): (m: Value)
    ensures runProjectNumber.Lit? ==> m == Lit("serviceAccount:service-" + runProjectNumber.text + "@serverless-robot-prod.iam.gserviceaccount.com")
    ensures runProjectNumber.Out? ==>
              m == Out("serviceAccount:service-" + runProjectNumber.prefix, runProjectNumber.source,
                       runProjectNumber.suffix + "@serverless-robot-prod.iam.gserviceaccount.com")
  {
    Wrap("serviceAccount:service-", runProjectNumber, "@serverless-robot-prod.iam.gserviceaccount.com")
  }

  /**
    `grantDockerRepositoryAccess`: the run project's service agent may read the registries
    of the operations project; the identity names the run project by id.
   */
  function GrantDockerRepositoryAccess(c: Context.Ctx, opsProject: string, runProjectNumber: Value, runProjectId: string): (d: Decl)
    ensures d.identity == Context.Rn(c, ["iam", "gcp", "sa", runProjectId, "role", ArtifactRegistryReader])
    ensures d.spec == ProjectIamMember(opsProject, "roles/" + ArtifactRegistryReader, ServiceAgentMember(runProjectNumber))
    ensures Needs(d) == ValueOwners(runProjectNumber)
    ensures d.options == NoOptions
  {
    Decl(Context.Rn(c, ["iam", "gcp", "sa", runProjectId, "role", ArtifactRegistryReader]),
         ProjectIamMember(opsProject, "roles/" + ArtifactRegistryReader, ServiceAgentMember(runProjectNumber)),
         NoOptions)
  }

  /** The grant reads at most the resource the project number comes from. */
  lemma GrantDockerRepositoryAccessWellOrdered(c: Context.Ctx, opsProject: string, runProjectNumber: Value, runProjectId: string)
    ensures WellOrdered([GrantDockerRepositoryAccess(c, opsProject, runProjectNumber, runProjectId)], ValueOwners(runProjectNumber))
  {
    var d := GrantDockerRepositoryAccess(c, opsProject, runProjectNumber, runProjectId);
    WellOrderedCons(d, [], ValueOwners(runProjectNumber));
  }

  /**
    Grants for run projects whose ids are free of `/` get the same identity exactly when the
    ids are equal, whatever the operations project: granting one run project access to two
    operations projects in one stack collides.
   */
  lemma GrantIdentityPerRunProject(c: Context.Ctx, ops1: string, ops2: string, n1: Value, n2: Value, id1: string, id2: string)
    requires '/' !in id1 && '/' !in id2
    ensures GrantDockerRepositoryAccess(c, ops1, n1, id1).identity == GrantDockerRepositoryAccess(c, ops2, n2, id2).identity
        <==> id1 == id2
  {
    var p1 := ["iam", "gcp", "sa", id1, "role", ArtifactRegistryReader];
    var p2 := ["iam", "gcp", "sa", id2, "role", ArtifactRegistryReader];
    if Context.Rn(c, p1) == Context.Rn(c, p2) {
      assert forall k :: 0 <= k < |p1| ==> '/' !in p1[k];
      assert forall k :: 0 <= k < |p2| ==> '/' !in p2[k];
      ResourceNames.HierarchicalInjective(c.env, p1, p2);
      assert p1[3] == p2[3];
    }
  }
}

=== FILE: cloudrun_backend.dfy ===
/**
  A Cloud Run service behind the global load balancer (src/gcp/cloudrun-backend.ts): a
  serverless network endpoint group and the backend service reading it, and the IAM member
  that opens a project's Cloud Run services to everyone.
 */
module CloudRunBackend {
  import opened Wrappers
  import opened Resources
  import Strings
  import Env
  import Context
  import Description
  import ResourceNames

  /** `BackendType`: plain HTTP, or WebSocket. */
  datatype BackendType = Http | Ws

  function TypeName(t: BackendType): (s: string)
    ensures s == "http" <==> t == Http
    ensures s == "ws" <==> t == Ws
  {
    match t
    case Http => "http"
    case Ws => "ws"
  }

  datatype Args = Args(serviceName: string, backendType: Option<BackendType>)

  /** Request headers the load balancer adds for the service. */
  const RequestHeaders: seq<string> := ["X-Client-Geo-Country:{client_region}", "X-Client-Origin:{origin_request_header}"]

  const ExternalManaged: string := "EXTERNAL_MANAGED"
  const Serverless: string := "SERVERLESS"
  const CompressionAutomatic: string := "AUTOMATIC"
  const RunInvoker: string := "roles/run.invoker"
  const AllUsers: string := "allUsers"

  /** The endpoint group and the backend service, in the order the source makes them. */
  datatype Backend = Backend(neg: Decl, backend: Decl)

  /**
    The Cloud Run service an endpoint group points at: the service's own name for HTTP, the
    name with the type appended otherwise.
   */
  function CloudRunServiceName(c: Context.Ctx, serviceName: string, t: BackendType): (s: string)
    ensures t == Http ==> s == Context.Srn(c, [serviceName])
    ensures t == Ws ==> s == Context.Srn(c, [serviceName, "ws"])
  {
    if t == Http then Context.Srn(c, [serviceName]) else Context.Srn(c, [serviceName, TypeName(t)])
  }

  function NegDecl(c: Context.Ctx, serviceName: string, t: BackendType): (d: Decl)
    ensures d.identity == Context.Rn(c, ["service", serviceName, "gcp", "neg", TypeName(t)])
    ensures d.spec.ServerlessNeg? && d.spec.name == Context.Srn(c, [serviceName, TypeName(t)])
    ensures d.spec.region == c.gcp.region && d.spec.networkEndpointType == Serverless
    ensures d.spec.cloudRunService == CloudRunServiceName(c, serviceName, t)
    ensures Needs(d) == {}
    ensures d.spec.description == Description.ManagedByDescription(c)
    ensures d.options == NoOptions
  {
    Decl(Context.Rn(c, ["service", serviceName, "gcp", "neg", TypeName(t)]),
         ServerlessNeg(Context.Srn(c, [serviceName, TypeName(t)]), Description.ManagedByDescription(c),
                       c.gcp.region, Serverless, CloudRunServiceName(c, serviceName, t)),
         NoOptions)
  }

  /**
    The backend service of an endpoint group: the group's name, its `selfLink` as the one
    backend, the client headers, and CDN and automatic compression exactly outside development.
   */
  function BackendDecl(c: Context.Ctx, serviceName: string, t: BackendType, negIdentity: string): (d: Decl)
    ensures d.identity == Context.Rn(c, ["service", serviceName, "gcp", "backend", TypeName(t)])
    ensures d.spec.BackendService?
    ensures d.spec.name == Context.Srn(c, [serviceName, TypeName(t)])
    ensures d.spec.loadBalancingScheme == ExternalManaged
    ensures d.spec.backends == [Output(negIdentity, "selfLink")]
    ensures d.spec.customRequestHeaders == RequestHeaders
    ensures d.spec.enableCdn <==> c.env != Env.Dev
    ensures d.spec.compressionMode.Some? <==> c.env != Env.Dev
    ensures d.spec.compressionMode.Some? ==> d.spec.compressionMode.value == CompressionAutomatic
    ensures d.options == Ignoring(["usedBy"])
    ensures Needs(d) == {negIdentity}
    ensures d.spec.description == Description.ManagedByDescription(c)
  {
    var notDev := c.env != Env.Dev;
    var backends := [Output(negIdentity, "selfLink")];
    assert ValuesOwners(backends) == {negIdentity};
    Decl(Context.Rn(c, ["service", serviceName, "gcp", "backend", TypeName(t)]),
         BackendService(Context.Srn(c, [serviceName, TypeName(t)]), Description.ManagedByDescription(c),
                        ExternalManaged, backends, RequestHeaders, notDev,
                        if notDev then Some(CompressionAutomatic) else None),
         Ignoring(["usedBy"]))
  }

  /**
    `useCloudRunBackend`: an HTTP backend unless a type is given; the backend service shares
    the endpoint group's name and reads its `selfLink`.
   */
  function UseCloudRunBackend(c: Context.Ctx, args: Args): (r: Backend)
    ensures var t := args.backendType.GetOr(Http);
      && r.neg == NegDecl(c, args.serviceName, t)
      && r.backend == BackendDecl(c, args.serviceName, t, r.neg.identity)
      && r.backend.spec.name == r.neg.spec.name
  {
    var t := args.backendType.GetOr(Http);
    var neg := NegDecl(c, args.serviceName, t);
    Backend(neg, BackendDecl(c, args.serviceName, t, neg.identity))
  }

  /** `[a, b].join('-')` is `a-b`. */
  lemma JoinPair(a: string, b: string)
    ensures Strings.Join([a, b], "-") == a + "-" + b
  {
    assert [a, b][1..] == [b];
  }

  /**
    The endpoint group points at a Cloud Run service of its own name exactly for WebSocket
    backends; an HTTP backend points at the service named after the bare service name.
   */
  lemma ServiceNameMatchesGroupIff(c: Context.Ctx, args: Args)
    ensures var neg := UseCloudRunBackend(c, args).neg;
      neg.spec.cloudRunService == neg.spec.name <==> args.backendType == Some(Ws)
  {
    var t := args.backendType.GetOr(Http);
    JoinPair(args.serviceName, TypeName(t));
    var neg := UseCloudRunBackend(c, args).neg;
    if t == Http {
      assert |neg.spec.name| == |neg.spec.cloudRunService| + 5;
    }
  }

  /** The backend service is declared after the endpoint group it reads, and needs nothing else. */
  lemma CloudRunBackendWellOrdered(c: Context.Ctx, args: Args)
    ensures var r := UseCloudRunBackend(c, args); WellOrdered([r.neg, r.backend], {})
  {
    var r := UseCloudRunBackend(c, args);
    WellOrderedCons(r.backend, [], {r.neg.identity});
    WellOrderedCons(r.neg, [r.backend], {});
  }

  /**
    `enableCloudRunPublicAccess`: the project-level `roles/run.invoker` for `allUsers`, one
    per project.
   */
  function EnableCloudRunPublicAccess(c: Context.Ctx, project: string): (d: Decl)
    ensures d.identity == Context.Rn(c, ["root", "gcp", "project", project, "cloudrun", "public-access"])
    ensures d.spec == ProjectIamMember(project, RunInvoker, Lit(AllUsers))
    ensures d.options == NoOptions
    ensures Needs(d) == {}
  {
    Decl(Context.Rn(c, ["root", "gcp", "project", project, "cloudrun", "public-access"]),
         ProjectIamMember(project, RunInvoker, Lit(AllUsers)), NoOptions)
  }

  /** Projects free of `/` get their public access bindings under distinct identities. */
  lemma PublicAccessPerProject(c: Context.Ctx, p1: string, p2: string)
    requires '/' !in p1 && '/' !in p2
    ensures EnableCloudRunPublicAccess(c, p1).identity == EnableCloudRunPublicAccess(c, p2).identity <==> p1 == p2
  {
    var s1 := ["root", "gcp", "project", p1, "cloudrun", "public-access"];
    var s2 := ["root", "gcp", "project", p2, "cloudrun", "public-access"];
    if Context.Rn(c, s1) == Context.Rn(c, s2) {
      assert forall k :: 0 <= k < |s1| ==> '/' !in s1[k];
      assert forall k :: 0 <= k < |s2| ==> '/' !in s2[k];
      ResourceNames.HierarchicalInjective(c.env, s1, s2);
      assert s1[3] == s2[3];
    }
  }

  /** The public access binding needs nothing declared before it. */
  lemma PublicAccessWellOrdered(c: Context.Ctx, project: string)
    ensures WellOrdered([EnableCloudRunPublicAccess(c, project)], {})
  {
    WellOrderedCons(EnableCloudRunPublicAccess(c, project), [], {});
  }
}

=== FILE: cloudscheduler.dfy ===
/**
  Scheduled jobs (src/gcp/cloudscheduler.ts): one Cloud Scheduler job per configured job that
  applies to the current environment, posting either to a worker URL of a service or to the
  Cloud Run Jobs API.
 */
module CloudScheduler {
  import opened Wrappers
  import opened Resources
  import Seqs
  import Context
  import Description

  /** A configured job: the schedule, the environment it is limited to and the URL path are optional. */
  datatype Job = Job(name: string, schedule: Option<string>, env: Option<string>, url: Option<string>)

  datatype Args = Args(jobs: seq<Job>, timeZone: Option<string>, authToken: Option<string>,
                       serviceEndpoint: string, serviceName: string)

  datatype CloudRunArgs = CloudRunArgs(jobs: seq<Job>, timeZone: Option<string>, serviceName: string,
                                       serviceAccountEmail: string)

  const DefaultTimeZone: string := "America/New_York"

  /** Every minute. */
  const DefaultSchedule: string := "* * * * *"

  /** A job is skipped only when it names an environment (non-empty) other than the current one. */
  predicate RunsIn(env: string, job: Job) {
    !(Truthy(job.env) && env != job.env.value)
  }

  /** A job runs in every environment unless limited, and then only in the one it names. */
  lemma RunsInIff(env: string, job: Job)
    ensures RunsIn(env, job) <==> job.env == None || job.env == Some("") || job.env == Some(env)
  {
  }

  /** The request headers: an `Authorization: Bearer` header exactly when a non-empty token is given. */
  function AuthHeaders(authToken: Option<string>): (h: seq<Pair>)
    ensures |h| <= 1
    ensures |h| == 1 <==> Truthy(authToken)
    ensures |h| == 1 ==> h[0] == Pair("Authorization", "Bearer " + authToken.value)
  {
    if Truthy(authToken) then [Pair("Authorization", "Bearer " + authToken.value)] else []
  }

  /** The job's target: the job's own path on the endpoint, or `/workers/<name>` when it has none. */
  function JobUri(serviceEndpoint: string, job: Job): (uri: string)
    ensures Truthy(job.url) ==> uri == "https://" + serviceEndpoint + job.url.value
    ensures !Truthy(job.url) ==> uri == "https://" + serviceEndpoint + "/workers/" + job.name
  {
    if Truthy(job.url) then "https://" + serviceEndpoint + job.url.value
    else "https://" + serviceEndpoint + "/workers/" + job.name
  }

  /** The identity of a scheduled job: the raw job name under the service, in both variants. */
  function JobIdentity(c: Context.Ctx, serviceName: string, job: Job): string {
    Context.Rn(c, ["service", serviceName, "gcp", "scheduled", job.name])
  }

  /** The job declaration of `useCloudScheduler`. */
  function JobDecl(c: Context.Ctx, args: Args, job: Job): (d: Decl)
    ensures d.identity == JobIdentity(c, args.serviceName, job)
    ensures d.spec.SchedulerJob?
    ensures d.spec.name == "projects/" + c.gcp.project + "/locations/" + c.gcp.region + "/jobs/" + job.name
    ensures d.spec.timeZone == args.timeZone.GetOr(DefaultTimeZone)
    ensures d.spec.schedule == job.schedule.GetOr(DefaultSchedule)
    ensures d.spec.description == Description.ManagedByDescription(c)
    ensures d.spec.httpTarget == HttpTarget("POST", JobUri(args.serviceEndpoint, job), Headers(AuthHeaders(args.authToken)))
    ensures d.options == NoOptions
    ensures Needs(d) == {}
  {
    Decl(JobIdentity(c, args.serviceName, job),
         SchedulerJob("projects/" + c.gcp.project + "/locations/" + c.gcp.region + "/jobs/" + job.name,
                      args.timeZone.GetOr(DefaultTimeZone), job.schedule.GetOr(DefaultSchedule),
                      Description.ManagedByDescription(c),
                      HttpTarget("POST", JobUri(args.serviceEndpoint, job), Headers(AuthHeaders(args.authToken)))),
         NoOptions)
  }

  /** `useCloudScheduler`: the jobs that run in the current environment, in input order. */
  function UseCloudScheduler(c: Context.Ctx, args: Args): (ds: seq<Decl>)
    ensures |ds| <= |args.jobs|
    ensures forall d :: d in ds <==>
              exists k :: 0 <= k < |args.jobs| && RunsIn(c.env, args.jobs[k]) && d == JobDecl(c, args, args.jobs[k])
  {
    var f := (j: Job) => JobDecl(c, args, j);
    var p := (j: Job) => RunsIn(c.env, j);
    Seqs.MapFilterMember(f, args.jobs, p);
    Seqs.Map(f, Seqs.Filter(args.jobs, p))
  }

  /** Jobs not limited to an environment are all scheduled, one declaration per job, in order. */
  lemma UnrestrictedJobsAllScheduled(c: Context.Ctx, args: Args)
    requires forall k :: 0 <= k < |args.jobs| ==> !Truthy(args.jobs[k].env)
    ensures |UseCloudScheduler(c, args)| == |args.jobs|
    ensures forall k :: 0 <= k < |args.jobs| ==> UseCloudScheduler(c, args)[k] == JobDecl(c, args, args.jobs[k])
  {
    Seqs.FilterAll(args.jobs, (j: Job) => RunsIn(c.env, j));
  }

  /** Scheduling two lists of jobs declares the first list's jobs, then the second's. */
  lemma ScheduleAppend(c: Context.Ctx, args: Args, more: seq<Job>)
    ensures UseCloudScheduler(c, args.(jobs := args.jobs + more))
         == UseCloudScheduler(c, args) + UseCloudScheduler(c, args.(jobs := more))
  {
    var p := (j: Job) => RunsIn(c.env, j);
    Seqs.FilterAppend(args.jobs, more, p);
    Seqs.MapAppend((j: Job) => JobDecl(c, args, j), Seqs.Filter(args.jobs, p), Seqs.Filter(more, p));
    assert forall j :: JobDecl(c, args.(jobs := args.jobs + more), j) == JobDecl(c, args, j);
    assert forall j :: JobDecl(c, args.(jobs := more), j) == JobDecl(c, args, j);
  }

  /** A single job is declared exactly when it runs in the current environment. */
  lemma ScheduleOne(c: Context.Ctx, args: Args, job: Job)
    ensures UseCloudScheduler(c, args.(jobs := [job])) == if RunsIn(c.env, job) then [JobDecl(c, args, job)] else []
  {
    var one := [job];
    assert one[1..] == [];
  }

  /** The Cloud Run job a scheduled job starts: `<service>-<job>`. */
  function CloudRunJobName(serviceName: string, job: Job): string {
    serviceName + "-" + job.name
  }

  /** The job declaration of `useScheduledCloudRunJobs`: it starts the Cloud Run job through the Run API as the service account. */
  function CloudRunJobDecl(c: Context.Ctx, args: CloudRunArgs, job: Job): (d: Decl)
    ensures d.identity == JobIdentity(c, args.serviceName, job)
    ensures d.spec.SchedulerJob?
    ensures d.spec.name == "projects/" + c.gcp.project + "/locations/" + c.gcp.region + "/jobs/" + CloudRunJobName(args.serviceName, job)
    ensures d.spec.timeZone == args.timeZone.GetOr(DefaultTimeZone)
    ensures d.spec.schedule == job.schedule.GetOr(DefaultSchedule)
    ensures d.spec.description == Description.ManagedByDescription(c)
    ensures d.spec.httpTarget.httpMethod == "POST"
    ensures d.spec.httpTarget.uri == "https://" + c.gcp.region + "-run.googleapis.com/apis/run.googleapis.com/v1/namespaces/"
                                     + c.gcp.project + "/jobs/" + CloudRunJobName(args.serviceName, job) + ":run"
    ensures d.spec.httpTarget.auth == OAuthToken(args.serviceAccountEmail)
    ensures d.options == NoOptions
    ensures Needs(d) == {}
  {
    var jobName := CloudRunJobName(args.serviceName, job);
    Decl(JobIdentity(c, args.serviceName, job),
         SchedulerJob("projects/" + c.gcp.project + "/locations/" + c.gcp.region + "/jobs/" + jobName,
                      args.timeZone.GetOr(DefaultTimeZone), job.schedule.GetOr(DefaultSchedule),
                      Description.ManagedByDescription(c),
                      HttpTarget("POST", "https://" + c.gcp.region + "-run.googleapis.com/apis/run.googleapis.com/v1/namespaces/"
                                         + c.gcp.project + "/jobs/" + jobName + ":run",
                                 OAuthToken(args.serviceAccountEmail))),
         NoOptions)
  }

  /** `useScheduledCloudRunJobs`: the jobs that run in the current environment, in input order. */
  function UseScheduledCloudRunJobs(c: Context.Ctx, args: CloudRunArgs): (ds: seq<Decl>)
    ensures |ds| <= |args.jobs|
    ensures forall d :: d in ds <==>
              exists k :: 0 <= k < |args.jobs| && RunsIn(c.env, args.jobs[k]) && d == CloudRunJobDecl(c, args, args.jobs[k])
  {
    var f := (j: Job) => CloudRunJobDecl(c, args, j);
    var p := (j: Job) => RunsIn(c.env, j);
    Seqs.MapFilterMember(f, args.jobs, p);
    Seqs.Map(f, Seqs.Filter(args.jobs, p))
  }

  /**
    Both variants keep the same jobs and give them the same identities (the raw job name, not
    the Cloud Run job name), so one service cannot use both with a job name in common.
   */
  lemma VariantsShareIdentities(c: Context.Ctx, args: Args, runArgs: CloudRunArgs)
    requires args.jobs == runArgs.jobs && args.serviceName == runArgs.serviceName
    ensures |UseCloudScheduler(c, args)| == |UseScheduledCloudRunJobs(c, runArgs)|
    ensures forall k :: 0 <= k < |UseCloudScheduler(c, args)| ==>
              UseCloudScheduler(c, args)[k].identity == UseScheduledCloudRunJobs(c, runArgs)[k].identity
  {
  }

  /** Scheduling two lists of Cloud Run jobs declares the first list's jobs, then the second's. */
  lemma CloudRunScheduleAppend(c: Context.Ctx, args: CloudRunArgs, more: seq<Job>)
    ensures UseScheduledCloudRunJobs(c, args.(jobs := args.jobs + more))
         == UseScheduledCloudRunJobs(c, args) + UseScheduledCloudRunJobs(c, args.(jobs := more))
  {
    var p := (j: Job) => RunsIn(c.env, j);
    Seqs.FilterAppend(args.jobs, more, p);
    Seqs.MapAppend((j: Job) => CloudRunJobDecl(c, args, j), Seqs.Filter(args.jobs, p), Seqs.Filter(more, p));
    assert forall j :: CloudRunJobDecl(c, args.(jobs := args.jobs + more), j) == CloudRunJobDecl(c, args, j);
    assert forall j :: CloudRunJobDecl(c, args.(jobs := more), j) == CloudRunJobDecl(c, args, j);
  }

  /** A single Cloud Run job is declared exactly when it runs in the current environment. */
  lemma CloudRunScheduleOne(c: Context.Ctx, args: CloudRunArgs, job: Job)
    ensures UseScheduledCloudRunJobs(c, args.(jobs := [job])) == if RunsIn(c.env, job) then [CloudRunJobDecl(c, args, job)] else []
  {
    var one := [job];
    assert one[1..] == [];
  }

  /** Scheduler jobs need nothing declared before them. */
  lemma UseCloudSchedulerWellOrdered(c: Context.Ctx, args: Args)
    ensures WellOrdered(UseCloudScheduler(c, args), {})
  {
    var ds := UseCloudScheduler(c, args);
    forall i | 0 <= i < |ds|
      ensures Needs(ds[i]) <= {}
    {
      assert ds[i] in ds;
      var k :| 0 <= k < |args.jobs| && RunsIn(c.env, args.jobs[k]) && ds[i] == JobDecl(c, args, args.jobs[k]);
    }
    WellOrderedWhenScoped(ds, {});
  }

  /** Scheduled Cloud Run jobs need nothing declared before them. */
  lemma UseScheduledCloudRunJobsWellOrdered(c: Context.Ctx, args: CloudRunArgs)
    ensures WellOrdered(UseScheduledCloudRunJobs(c, args), {})
  {
    var ds := UseScheduledCloudRunJobs(c, args);
    forall i | 0 <= i < |ds|
      ensures Needs(ds[i]) <= {}
    {
      assert ds[i] in ds;
      var k :| 0 <= k < |args.jobs| && RunsIn(c.env, args.jobs[k]) && ds[i] == CloudRunJobDecl(c, args, args.jobs[k]);
    }
    WellOrderedWhenScoped(ds, {});
  }
}

=== FILE: cloudsql.dfy ===
/**
  Cloud SQL for PostgreSQL (src/gcp/cloudsql.ts): an instance per service, its database and
  its application user, sized by environment and protected only in production.
 */
module CloudSql {
  import opened Wrappers
  import opened Resources
  import Strings
  import Env
  import Context

  const Postgres15: string := "POSTGRES_15"
  const TierMicro: string := "db-f1-micro"
  const TierCustom: string := "db-custom-2-3840"
  const DefaultUserName: string := "app"

  /** Changes to the instance's etag are left alone. */
  const InstanceIgnores: seq<string> := ["etag"]

  datatype Args = Args(name: string, userName: Option<string>, password: string,
                       version: Option<string>, tier: Option<string>)

  /** The default machine tier: the shared-core micro tier in development, two dedicated cores elsewhere. */
  function DefaultTier(env: string): (t: string)
    ensures t == TierMicro <==> env == Env.Dev
    ensures t == TierMicro || t == TierCustom
  {
    if env == Env.Dev then TierMicro else TierCustom
  }

  /** `name.replaceAll('-', '_')`: the database name. */
  function DatabaseName(name: string): (db: string)
    ensures |db| == |name| && '-' !in db
  {
    Strings.ReplaceChar(name, '-', '_')
  }

  /** A service name without underscores is recovered from its database name. */
  lemma DatabaseNameInvertible(name: string)
    requires '_' !in name
    ensures Strings.ReplaceChar(DatabaseName(name), '_', '-') == name
  {
    Strings.ReplaceCharInverse(name, '-', '_');
  }

  function InstanceIdentity(c: Context.Ctx, name: string): string {
    Context.Rn(c, ["service", name, "gcp", "sql"])
  }

  /** The three declarations, in the order the source makes them. */
  datatype CloudSql = CloudSql(instance: Decl, database: Decl, user: Decl)

  /**
    The instance, named after the service: PostgreSQL 15 and the environment's tier unless
    given, with backups, point-in-time recovery and deletion protection exactly in production.
   */
  function InstanceDecl(c: Context.Ctx, args: Args): (d: Decl)
    ensures d.identity == InstanceIdentity(c, args.name)
    ensures d.spec.SqlInstance?
    ensures d.spec.name == Context.Srn(c, [args.name]) && d.spec.region == c.gcp.region
    ensures d.spec.databaseVersion == args.version.GetOr(Postgres15)
    ensures d.spec.tier == args.tier.GetOr(DefaultTier(c.env))
    ensures d.spec.backupsEnabled <==> c.env == Env.Prod
    ensures d.spec.pointInTimeRecoveryEnabled <==> c.env == Env.Prod
    ensures d.spec.deletionProtectionEnabled <==> c.env == Env.Prod
    ensures d.options == Ignoring(InstanceIgnores)
    ensures Needs(d) == {}
  {
    var isProd := c.env == Env.Prod;
    Decl(InstanceIdentity(c, args.name),
         SqlInstance(Context.Srn(c, [args.name]), args.version.GetOr(Postgres15), c.gcp.region,
                     args.tier.GetOr(DefaultTier(c.env)), isProd, isProd, isProd),
         Ignoring(InstanceIgnores))
  }

  /** The database, named after the service with dashes turned into underscores, reading the instance's name. */
  function DatabaseDecl(c: Context.Ctx, name: string, instance: string): (d: Decl)
    ensures d.identity == Context.Rn(c, ["service", name, "gcp", "sql", "db"])
    ensures d.spec == SqlDatabase(DatabaseName(name), Output(instance, "name"))
    ensures d.options == NoOptions
    ensures Needs(d) == {instance}
  {
    Decl(Context.Rn(c, ["service", name, "gcp", "sql", "db"]), SqlDatabase(DatabaseName(name), Output(instance, "name")), NoOptions)
  }

  /** The application user (`app` unless given) with its password, reading the instance's name. */
  function UserDecl(c: Context.Ctx, args: Args, instance: string): (d: Decl)
    ensures d.identity == Context.Rn(c, ["service", args.name, "gcp", "sql", "user"])
    ensures d.spec == SqlUser(args.userName.GetOr(DefaultUserName), Output(instance, "name"), args.password)
    ensures d.options == NoOptions
    ensures Needs(d) == {instance}
  {
    Decl(Context.Rn(c, ["service", args.name, "gcp", "sql", "user"]),
         SqlUser(args.userName.GetOr(DefaultUserName), Output(instance, "name"), args.password), NoOptions)
  }

  /** `useCloudSql`: the instance, then its database and its user, both reading the instance. */
  function UseCloudSql(c: Context.Ctx, args: Args): (r: CloudSql)
    ensures r.instance == InstanceDecl(c, args)
    ensures r.database == DatabaseDecl(c, args.name, r.instance.identity)
    ensures r.user == UserDecl(c, args, r.instance.identity)
  {
    var instance := InstanceDecl(c, args);
    CloudSql(instance, DatabaseDecl(c, args.name, instance.identity), UserDecl(c, args, instance.identity))
  }

  /** The database and the user come after the instance they read, and read nothing else. */
  lemma CloudSqlWellOrdered(c: Context.Ctx, args: Args, scope: set<string>)
    ensures var r := UseCloudSql(c, args);
            WellOrdered([r.instance, r.database, r.user], scope)
  {
    var r := UseCloudSql(c, args);
    var s1 := scope + {r.instance.identity};
    WellOrderedCons(r.user, [], s1 + {r.database.identity});
    WellOrderedCons(r.database, [r.user], s1);
    WellOrderedCons(r.instance, [r.database, r.user], scope);
  }

  /** Two environments other than development and production differ only in naming: same tier, no protection. */
  lemma NonProductionInstancesAlike(c1: Context.Ctx, c2: Context.Ctx, args: Args)
    requires c1.env != Env.Prod && c2.env != Env.Prod && c1.env != Env.Dev && c2.env != Env.Dev
    ensures UseCloudSql(c1, args).instance.spec.tier == UseCloudSql(c2, args).instance.spec.tier
    ensures !UseCloudSql(c1, args).instance.spec.deletionProtectionEnabled
    ensures !UseCloudSql(c2, args).instance.spec.backupsEnabled
  {
  }
}

=== FILE: context.dfy ===
/**
  The context every builder receives. `useBaseContext` in src/context.ts yields the
  environment derived from the stack name, the package configuration and the two identity
  factories `rn` (hierarchical) and `srn` (flat). The GCP settings are a separate
  `ContextWithGcp` that callers join to it; `Ctx` bundles the two into one value.

  Reading `package.json` and asking Pulumi for the stack name are I/O: both arrive here as
  parameters.
 */
module Context {
  import opened Wrappers
  import opened Strings
  import Env
  import ResourceNames

  /** The part of `package.json` the kit reads. */
  datatype PackageConfig = PackageConfig(version: string, description: Option<string>)

  /** GCP configuration: the project and region every builder uses, and optional billing data. */
  datatype GcpConfig = GcpConfig(project: string, region: string, billingAccount: Option<string>, org: Option<string>)

  /** The context handed to every builder. */
  datatype Ctx = Ctx(env: string, pkg: PackageConfig, gcp: GcpConfig)

  /** The stack that stands for production. */
  const MasterStack: string := "master"

  /** `master` is production; any other stack name is taken verbatim as the environment. */
  function EnvOfStack(stack: string): (env: string)
    ensures stack == MasterStack ==> env == Env.Prod
    ensures stack != MasterStack ==> env == stack
  {
    if stack == MasterStack then Env.Prod else stack
  }

  /** Production is reached from two stacks, `master` and `prod` itself; every other stack is its own environment. */
  lemma ProdStacks(stack: string)
    ensures EnvOfStack(stack) == Env.Prod <==> stack == MasterStack || stack == Env.Prod
    ensures EnvOfStack(stack) != stack <==> stack == MasterStack
  {
  }

  /** `useBaseContext`, with the stack name and the parsed `package.json` given, joined with the caller's GCP settings. */
  function BaseContext(stack: string, pkg: PackageConfig, gcp: GcpConfig): (c: Ctx)
    ensures stack == MasterStack ==> c.env == Env.Prod
    ensures stack != MasterStack ==> c.env == stack
    ensures c.pkg == pkg && c.gcp == gcp
  {
    Ctx(EnvOfStack(stack), pkg, gcp)
  }

  /**
    `ctx.rn(parts)`: the hierarchical identity, segments joined with `/` and, outside
    production, `:env` at the end.
   */
  function Rn(c: Ctx, parts: seq<string>): (r: string)
    ensures Join(parts, "/") <= r
    ensures c.env == Env.Prod ==> r == Join(parts, "/")
    ensures c.env != Env.Prod ==> r == Join(parts, "/") + ":" + c.env
  {
    ResourceNames.ResourceName(c.env, false, ResourceNames.Segments(parts))
  }

  /**
    `ctx.srn(parts)`: the flat identity, segments joined with `-` and, outside production,
    `-env` at the end. `srn(name)` on a single string is `Srn(c, [name])`
    (`ResourceNames.PlainIsOneSegment`).
   */
  function Srn(c: Ctx, parts: seq<string>): (r: string)
    ensures Join(parts, "-") <= r
    ensures c.env == Env.Prod ==> r == Join(parts, "-")
    ensures c.env != Env.Prod ==> r == Join(parts, "-") + "-" + c.env
  {
    ResourceNames.ResourceName(c.env, true, ResourceNames.Segments(parts))
  }

  /** The two factories differ only in their separators: with one segment and no suffix they agree. */
  lemma FactoriesAgreeOnProdSingleton(c: Ctx, name: string)
    requires c.env == Env.Prod
    ensures Rn(c, [name]) == Srn(c, [name]) == name
  {
  }

  /** Both factories of one context share the environment suffix, each with its own separator. */
  lemma FactoriesShareEnvironment(c: Ctx, parts: seq<string>)
    ensures Rn(c, parts) == Join(parts, "/") + Env.Suffix(c.env, ":", false)
    ensures Srn(c, parts) == Join(parts, "-") + Env.DefaultSuffix(c.env)
  {
  }
}

=== FILE: description.dfy ===
/**
  Human-readable texts, src/helpers/description.ts: the "managed by" description attached to
  every GCP resource, and the title-casing of dash-case names used for display names.
 */
module Description {
  import opened Wrappers
  import opened Strings
  import Seqs
  import Context

  /** How a template literal renders an optional value: `undefined` when it is absent. */
  function TemplateText(d: Option<string>): string {
    match d
    case Some(s) => s
    case None => "undefined"
  }

  const ManagedByPrefix: string := "Managed by DeepOps ["

  /** `useManagedByDescription(ctx)`: `Managed by DeepOps [<description>/<version>]`. */
  function ManagedByDescription(c: Context.Ctx): (r: string)
    ensures ManagedByPrefix <= r
    ensures |r| > |ManagedByPrefix| && r[|r| - 1] == ']'
    ensures r[|ManagedByPrefix|..|r| - 1] == TemplateText(c.pkg.description) + "/" + c.pkg.version
  {
    var inner := TemplateText(c.pkg.description) + "/" + c.pkg.version;
    var r := ManagedByPrefix + inner + "]";
    assert r[|ManagedByPrefix|..|r| - 1] == inner;
    r
  }

  /**
    The description and the version can be read back from the text when the description has
    no `/`.
   */
  lemma ManagedByInjective(c1: Context.Ctx, c2: Context.Ctx)
    requires '/' !in TemplateText(c1.pkg.description) && '/' !in TemplateText(c2.pkg.description)
    requires ManagedByDescription(c1) == ManagedByDescription(c2)
    ensures TemplateText(c1.pkg.description) == TemplateText(c2.pkg.description)
    ensures c1.pkg.version == c2.pkg.version
  {
    var r := ManagedByDescription(c1);
    var x1, v1 := TemplateText(c1.pkg.description), c1.pkg.version;
    var x2, v2 := TemplateText(c2.pkg.description), c2.pkg.version;
    var inner := r[|ManagedByPrefix|..|r| - 1];
    assert inner == x1 + ['/'] + v1;
    assert inner == x2 + ['/'] + v2;
    SplitAround(x1, v1, '/');
    SplitAround(x2, v2, '/');
    assert Split(inner, '/')[0] == x1;
    assert Split(inner, '/')[0] == x2;
    assert v1 == inner[|x1| + 1..] == v2;
  }

  /** A missing description is indistinguishable from the description `undefined`. */
  lemma MissingDescriptionRendersUndefined(c: Context.Ctx)
    requires c.pkg.description.None?
    ensures ManagedByDescription(c)
         == ManagedByDescription(c.(pkg := c.pkg.(description := Some("undefined"))))
  {
  }

  /** `it.charAt(0).toUpperCase() + it.substring(1)`; the empty word stays empty. */
  function Capitalize(w: string): (r: string)
    ensures |r| == |w|
    ensures |w| > 0 ==> r[0] == UpperChar(w[0]) && r[1..] == w[1..]
  {
    if |w| == 0 then "" else [UpperChar(w[0])] + w[1..]
  }

  /**
    The character `dashToCamelWithSpaces` puts at position `i` of a lower-cased text: a dash
    becomes a space, a character that starts a word is upper-cased, any other stays.
   */
  function TitleChar(t: string, i: int, atStart: bool): char
    requires 0 <= i < |t|
  {
    if t[i] == '-' then ' '
    else if (if i == 0 then atStart else t[i - 1] == '-') then UpperChar(t[i])
    else t[i]
  }

  /** Reference definition: a left-to-right walk that knows whether it stands at a word start. */
  function TitleCase(t: string, atStart: bool): (r: string)
    decreases |t|
  {
    if |t| == 0 then ""
    else if t[0] == '-' then " " + TitleCase(t[1..], true)
    else [if atStart then UpperChar(t[0]) else t[0]] + TitleCase(t[1..], false)
  }

  /** The walk agrees with `TitleChar` at every position. */
  lemma {:induction false} TitleCaseAt(t: string, atStart: bool)
    ensures |TitleCase(t, atStart)| == |t|
    ensures forall i :: 0 <= i < |t| ==> TitleCase(t, atStart)[i] == TitleChar(t, i, atStart)
    decreases |t|
  {
    if |t| > 0 {
      var b := t[0] == '-';
      TitleCaseAt(t[1..], b);
      var r := TitleCase(t, atStart);
      assert r[1..] == TitleCase(t[1..], b);
      forall i | 1 <= i < |t|
        ensures r[i] == TitleChar(t, i, atStart)
      {
        assert r[i] == TitleCase(t[1..], b)[i - 1] == TitleChar(t[1..], i - 1, b);
        assert t[1..][i - 1] == t[i];
        if i > 1 {
          assert t[1..][i - 2] == t[i - 1];
        }
      }
    }
  }

  /** Upper-case the first word only when `atStart`. */
  function CapitalizeIf(atStart: bool, w: string): string {
    if atStart then Capitalize(w) else w
  }

  /**
    The split-map-join pipeline and the walk agree; when the walk does not start at a word
    start, the first piece is left as it is.
   */
  lemma {:induction false} TitleCaseIsJoin(t: string, atStart: bool)
    ensures TitleCase(t, atStart)
         == Join([CapitalizeIf(atStart, Split(t, '-')[0])] + Seqs.Map(Capitalize, Split(t, '-')[1..]), " ")
    decreases |t|
  {
    if |t| > 0 {
      var tail := Split(t[1..], '-');
      var mapped := Seqs.Map(Capitalize, tail[1..]);
      if t[0] == '-' {
        TitleCaseIsJoin(t[1..], true);
        assert Split(t, '-') == [""] + tail;
        assert Split(t, '-')[1..] == tail;
        assert Seqs.Map(Capitalize, tail) == [Capitalize(tail[0])] + mapped;
        JoinCons("", Seqs.Map(Capitalize, tail), " ");
      } else {
        TitleCaseIsJoin(t[1..], false);
        var c := if atStart then UpperChar(t[0]) else t[0];
        assert Split(t, '-') == [[t[0]] + tail[0]] + tail[1..];
        assert CapitalizeIf(atStart, [t[0]] + tail[0]) == [c] + tail[0];
        JoinPrepend(c, tail[0], mapped, " ");
      }
    }
  }

  /**
    What `dashToCamelWithSpaces` puts at position `i` of the original input: a dash becomes a
    space, a character at the start of the text or right after a dash is upper-cased, every
    other character is lower-cased.
   */
  function CamelChar(input: string, i: int): char
    requires 0 <= i < |input|
  {
    if input[i] == '-' then ' '
    else if i == 0 || input[i - 1] == '-' then UpperChar(LowerChar(input[i]))
    else LowerChar(input[i])
  }

  /**
    `dashToCamelWithSpaces(input)`: lower-case, split on `-`, capitalise every piece, join with
    one space. Position by position: a dash becomes a space, a character at the start of the
    text or right after a dash is upper-cased, every other character is lower-cased; so the
    result is as long as the input and has no dash left.
   */
  function DashToCamelWithSpaces(input: string): (r: string)
    ensures |r| == |input|
    ensures forall i :: 0 <= i < |input| ==> r[i] == CamelChar(input, i)
    ensures '-' !in r
  {
    var t := Lower(input);
    var pieces := Split(t, '-');
    var r := Join(Seqs.Map(Capitalize, pieces), " ");
    TitleCaseIsJoin(t, true);
    assert [CapitalizeIf(true, pieces[0])] + Seqs.Map(Capitalize, pieces[1..]) == Seqs.Map(Capitalize, pieces);
    TitleCaseAt(t, true);
    forall i | 0 <= i < |input|
      ensures r[i] == CamelChar(input, i) && r[i] != '-'
    {
      assert t[i] == '-' <==> input[i] == '-';
      if i > 0 {
        assert t[i - 1] == '-' <==> input[i - 1] == '-';
      }
    }
    r
  }

  /** One word per dash plus one: the words of the result, split on spaces, number the dashes and spaces of the input plus one. */
  lemma WordCount(input: string)
    ensures |Split(DashToCamelWithSpaces(input), ' ')| == Count(input, '-') + Count(input, ' ') + 1
  {
    var r := DashToCamelWithSpaces(input);
    SplitCount(r, ' ');
    forall i | 0 <= i < |r|
      ensures r[i] == ' ' <==> input[i] == '-' || input[i] == ' '
    {
      if input[i] != '-' && IsUpper(input[i]) {
        assert IsLower(LowerChar(input[i]));
      }
    }
    CountMatches(r, input, ' ', '-', ' ');
  }

  /** Consecutive dashes produce an empty word, that is, two adjacent spaces. */
  lemma ConsecutiveDashesGiveAdjacentSpaces(input: string, i: int)
    requires 0 <= i < |input| - 1 && input[i] == '-' && input[i + 1] == '-'
    ensures DashToCamelWithSpaces(input)[i..i + 2] == "  "
  {
    var r := DashToCamelWithSpaces(input);
    assert |r| == |input|;
    assert r[i] == ' ';
    assert r[i + 1] == ' ';
  }

  /** An example from the service-account builder: `web-app` reads `Web App`. */
  lemma WebAppExample()
    ensures DashToCamelWithSpaces("web-app") == "Web App"
  {
    var r := DashToCamelWithSpaces("web-app");
    assert r[0] == 'W' && r[3] == ' ' && r[4] == 'A';
  }
}

=== FILE: env.dfy ===
/**
  Deployment environments and the environment suffix appended to names and hostnames
  (`useEnvSuffix` in src/env.ts).

  An environment is a plain string: the stack name is cast to `Env` without a check, so any
  stack other than `master` flows through as its own environment.
 */
module Env {

  const Dev: string := "dev"
  const Stage: string := "stage"
  const Prod: string := "prod"

  /** The separator `useEnvSuffix` uses when none is given. */
  const DefaultSeparator: string := "-"

  /**
    The suffix for `env`: nothing for production, nothing for stage when `skipStage` is set,
    otherwise the separator followed by the environment name.
   */
  function Suffix(env: string, separator: string, skipStage: bool): (s: string)
    ensures env == Prod ==> s == ""
    ensures env == Stage && skipStage ==> s == ""
    ensures env != Prod && !(env == Stage && skipStage) ==> s == separator + env
  {
    if env == Prod then ""
    else if env == Stage && skipStage then ""
    else separator + env
  }

  /** `useEnvSuffix(env)`: both optional parameters at their defaults. */
  function DefaultSuffix(env: string): (s: string)
    ensures env == Prod ==> s == ""
    ensures env != Prod ==> s == DefaultSeparator + env
  {
    Suffix(env, DefaultSeparator, false)
  }

  /** The suffix is empty exactly for production, for a skipped stage, or when nothing is appended at all. */
  lemma SuffixEmptyIff(env: string, separator: string, skipStage: bool)
    ensures Suffix(env, separator, skipStage) == ""
        <==> env == Prod || (env == Stage && skipStage) || (separator == "" && env == "")
  {
  }

  /** The production suffix does not depend on the separator or on `skipStage`. */
  lemma ProdSuffixIsEmpty(separator: string, skipStage: bool)
    ensures Suffix(Prod, separator, skipStage) == ""
  {
  }

  /** `skipStage` only affects stage: development keeps its suffix either way. */
  lemma DevIgnoresSkipStage(separator: string)
    ensures Suffix(Dev, separator, true) == Suffix(Dev, separator, false) == separator + Dev
  {
  }

  /** The examples in the doc comment of `useEnvSuffix`. */
  lemma DocumentedExamples()
    ensures DefaultSuffix(Prod) == ""
    ensures DefaultSuffix(Stage) == "-stage"
    ensures Suffix(Dev, "_", false) == "_dev"
  {
  }
}

=== FILE: errors.dfy ===
/**
  The errors the builders throw, one constructor per `throw new Error(...)`, with the exact
  message text.
 */
module Errors {

  datatype Error =
    | MissingFolderParent                                  // src/gcp/folder.ts
    | UnsupportedSecretSource(source: string)              // src/iam.ts
    | DanglingTeamMember(teamTitle: string, memberId: string) // src/iam.ts
    | UserNotFound(userId: string)                         // src/github/github.ts
    | TeamNotFound(teamId: string)                         // src/github/github.ts
    | MissingValue(key: string)                            // src/github/github.ts
    | SecretValueNotFound(valueFrom: string)               // src/github/github.ts
    | UserWithoutEmail(userId: string)                     // src/gcp/project.ts

  /** The message the source attaches to the error. */
  function Message(e: Error): string {
    match e
    case MissingFolderParent => "Either parentOrg or parentFolder must be specified"
    case UnsupportedSecretSource(source) => "Secret source " + source + " is not supported."
    case DanglingTeamMember(title, id) => "Team " + title + " has a member " + id + " that does not exist."
    case UserNotFound(id) => "User " + id + " not found"
    case TeamNotFound(id) => "Team " + id + " not found"
    case MissingValue(key) => "Variable " + key + " does not have a value or valueFrom"
    case SecretValueNotFound(valueFrom) => "Secret value " + valueFrom + " not found"
    case UserWithoutEmail(id) => "User " + id + " does not have an email"
  }
}

=== FILE: folder.dfy ===
/**
  Folders (src/gcp/folder.ts): a Resource Manager folder under a parent folder or an
  organisation, named after its dash-cased path and name.
 */
module Folder {
  import opened Wrappers
  import opened Resources
  import Errors
  import Context
  import ResourceNames
  import Strings

  /** `parentFolder` is the identity of a folder declared elsewhere. */
  datatype Args = Args(name: string, path: Option<string>, parentOrg: Option<string>, parentFolder: Option<string>)

  /** The identity segments: the dash-cased path only when it is non-empty, then the dash-cased name. */
  function NameParts(name: string, path: Option<string>): (parts: seq<string>)
    ensures |parts| == (if Truthy(path) then 5 else 4)
    ensures parts[..3] == ["root", "gcp", "folder"]
    ensures Truthy(path) ==> parts[3] == ResourceNames.ToDashCase(path.value)
    ensures parts[|parts| - 1] == ResourceNames.ToDashCase(name)
  {
    ["root", "gcp", "folder"]
      + (if Truthy(path) then [ResourceNames.ToDashCase(path.value)] else [])
      + [ResourceNames.ToDashCase(name)]
  }

  /**
    `useFolder`: a parent folder wins over an organisation; with neither the call fails. The
    folder reads the parent folder's name and depends on it; an organisation parent is the
    literal `organizations/<org>`.
   */
  function UseFolder(c: Context.Ctx, args: Args): (r: Result<Decl, Errors.Error>)
    ensures r.Err? <==> args.parentFolder.None? && !Truthy(args.parentOrg)
    ensures r.Err? ==> r.error == Errors.MissingFolderParent
    ensures r.Ok? ==> r.value.identity == Context.Rn(c, NameParts(args.name, args.path))
    ensures r.Ok? ==> r.value.spec.Folder? && r.value.spec.displayName == args.name
    ensures r.Ok? && args.parentFolder.Some? ==>
              r.value.spec.parent == Output(args.parentFolder.value, "name")
              && r.value.options == DependsOn([args.parentFolder.value])
    ensures r.Ok? && args.parentFolder.None? ==>
              r.value.spec.parent == Lit("organizations/" + args.parentOrg.value)
              && r.value.options == NoOptions
  {
    var identity := Context.Rn(c, NameParts(args.name, args.path));
    if args.parentFolder.Some? then
      Ok(Decl(identity, Folder(args.name, Output(args.parentFolder.value, "name")), DependsOn([args.parentFolder.value])))
    else if Truthy(args.parentOrg) then
      Ok(Decl(identity, Folder(args.name, Lit("organizations/" + args.parentOrg.value)), NoOptions))
    else
      Err(Errors.MissingFolderParent)
  }

  /** A folder needs nothing but its parent folder, when it has one. */
  lemma FolderNeedsOnlyParent(c: Context.Ctx, args: Args)
    requires UseFolder(c, args).Ok?
    ensures Needs(UseFolder(c, args).value) == (if args.parentFolder.Some? then {args.parentFolder.value} else {})
  {
    var d := UseFolder(c, args).value;
    if args.parentFolder.Some? {
      assert d.options.dependsOn[0] == args.parentFolder.value;
    }
  }

  /** Folders declared under one another are well ordered: the child needs only its parent. */
  lemma NestedFoldersWellOrdered(c: Context.Ctx, parent: Args, child: Args, scope: set<string>)
    requires UseFolder(c, parent).Ok? && (parent.parentFolder.Some? ==> parent.parentFolder.value in scope)
    requires child.parentFolder == Some(UseFolder(c, parent).value.identity)
    ensures UseFolder(c, child).Ok?
    ensures WellOrdered([UseFolder(c, parent).value, UseFolder(c, child).value], scope)
  {
    var p := UseFolder(c, parent).value;
    var d := UseFolder(c, child).value;
    FolderNeedsOnlyParent(c, parent);
    FolderNeedsOnlyParent(c, child);
    WellOrderedCons(d, [], scope + {p.identity});
    WellOrderedCons(p, [d], scope);
  }

  /** A path and a name already in dash case (no upper case, no whitespace) appear in the identity verbatim. */
  lemma CleanNamesKept(name: string, path: string)
    requires Strings.NoUpper(name) && Strings.NoSpace(name)
    requires Strings.NoUpper(path) && Strings.NoSpace(path)
    ensures NameParts(name, Some(path)) == ["root", "gcp", "folder"] + (if path == "" then [] else [path]) + [name]
  {
    ResourceNames.FixpointWhenClean(name);
    ResourceNames.FixpointWhenClean(path);
  }
}

=== FILE: github.dfy ===
/**
  GitHub organisation and repositories (src/github/github.ts): teams, memberships and
  organisation variables from the IAM context, and per repository its settings,
  collaborators, team access, Actions variables and secrets, branch protection and Actions
  permissions.
 */
module Github {
  import opened Wrappers
  import opened Resources
  import Seqs
  import Errors
  import Context
  import Iam

  const PrivacyClosed: string := "closed"
  const RoleMember: string := "member"

  /** The branches protected when a repository asks for protection, in order. */
  const MainBranches: seq<string> := ["dev", "stage", "master"]

  const FeatureIssues: string := "issues"
  const FeatureActions: string := "actions"

  /** The commit-message settings the repository leaves to whoever edits them in GitHub. */
  const RepoIgnores: seq<string> :=
    ["mergeCommitMessage", "mergeCommitTitle", "squashMergeCommitMessage", "squashMergeCommitTitle"]

  /** A user or team granted a role (`pull`, `triage`, `push`, `maintain`, `admin`) on a repository. */
  datatype AccessRef = AccessRef(id: string, role: string)

  datatype Access = Access(isPublic: Option<bool>, users: Option<seq<AccessRef>>, teams: Option<seq<AccessRef>>)

  /** A variable or secret: a literal value, or a secret reference to resolve. */
  datatype ValueRef = ValueRef(key: string, value: Option<string>, valueFrom: Option<string>)

  /** One entry of the repositories file. */
  datatype Repo = Repo(title: string, org: string, name: string, description: Option<string>,
                       homepage: Option<string>, access: Option<Access>, protection: Option<bool>,
                       secrets: Option<seq<ValueRef>>, variables: Option<seq<ValueRef>>,
                       features: Option<seq<string>>, isArchived: Option<bool>)

  // ---------------------------------------------------------------------------------------
  // useGithub

  function TeamIdentity(c: Context.Ctx, g: Iam.TeamGithub): string {
    Context.Rn(c, ["code", "github", g.org, "team", g.name])
  }

  /** A team member's membership: their login, their organisation role or `member`, reading the team's id. */
  function MembershipDecl(c: Context.Ctx, g: Iam.TeamGithub, user: Iam.User): (d: Decl)
    ensures d.identity == Context.Rn(c, ["code", "github", g.org, "team", g.name, "user", user.id])
    ensures d.spec == TeamMembership(Output(TeamIdentity(c, g), "id"), user.github.login,
                                     user.github.orgRole.GetOr(RoleMember))
    ensures Needs(d) == {TeamIdentity(c, g)}
    ensures d.options == NoOptions
  {
    Decl(Context.Rn(c, ["code", "github", g.org, "team", g.name, "user", user.id]),
         TeamMembership(Output(TeamIdentity(c, g), "id"), user.github.login, user.github.orgRole.GetOr(RoleMember)),
         NoOptions)
  }

  /** The team itself: closed, under its GitHub name. */
  function TeamDecl(c: Context.Ctx, g: Iam.TeamGithub): (d: Decl)
    ensures d.identity == TeamIdentity(c, g)
    ensures d.spec == GithubTeam(g.name, PrivacyClosed) && d.options == NoOptions
    ensures Needs(d) == {}
  {
    Decl(TeamIdentity(c, g), GithubTeam(g.name, PrivacyClosed), NoOptions)
  }

  function Memberships(c: Context.Ctx, g: Iam.TeamGithub, members: seq<Iam.User>): (ds: seq<Decl>)
    ensures |ds| == |members|
    ensures forall k :: 0 <= k < |members| ==> ds[k] == MembershipDecl(c, g, members[k])
  {
    Seqs.Map((u: Iam.User) => MembershipDecl(c, g, u), members)
  }

  /** A team on GitHub, then one membership per member in order; nothing for a team without GitHub settings. */
  function TeamDecls(c: Context.Ctx, team: Iam.Team): (ds: seq<Decl>)
    ensures team.github.None? <==> ds == []
    ensures team.github.Some? ==> ds == [TeamDecl(c, team.github.value)] + Memberships(c, team.github.value, team.members)
  {
    match team.github
    case None => []
    case Some(g) => [TeamDecl(c, g)] + Memberships(c, g, team.members)
  }

  /** A secret published to an organisation and not encrypted becomes an organisation variable visible to all repositories. */
  function OrgVariableDecls(c: Context.Ctx, secret: Iam.Secret): (ds: seq<Decl>)
    ensures |ds| <= 1
    ensures |ds| == 1 <==> secret.github.Some? && !IsTrue(secret.isEncrypted)
    ensures |ds| == 1 ==> ds[0] == Decl(Context.Rn(c, ["code", "github", secret.github.value, "var", secret.name]),
                                         OrgVariable(secret.name, Lit(secret.value), "all"), NoOptions)
  {
    if secret.github.Some? && !IsTrue(secret.isEncrypted) then
      [Decl(Context.Rn(c, ["code", "github", secret.github.value, "var", secret.name]),
            OrgVariable(secret.name, Lit(secret.value), "all"), NoOptions)]
    else []
  }

  /** `d` is a team on GitHub or one of its memberships. */
  predicate InTeam(c: Context.Ctx, team: Iam.Team, d: Decl) {
    && team.github.Some?
    && (|| d == TeamDecl(c, team.github.value)
        || exists k :: 0 <= k < |team.members| && d == MembershipDecl(c, team.github.value, team.members[k]))
  }

  /** `d` is the organisation variable of a secret published to an organisation and not encrypted. */
  predicate IsOrgVariable(c: Context.Ctx, secret: Iam.Secret, d: Decl) {
    secret.github.Some? && !IsTrue(secret.isEncrypted) && d == OrgVariableDecls(c, secret)[0]
  }

  predicate TeamDeclared(c: Context.Ctx, teams: seq<Iam.Team>, d: Decl) {
    exists i :: 0 <= i < |teams| && InTeam(c, teams[i], d)
  }

  predicate VariableDeclared(c: Context.Ctx, secrets: seq<Iam.Secret>, d: Decl) {
    exists i :: 0 <= i < |secrets| && IsOrgVariable(c, secrets[i], d)
  }

  /**
    `useGithub`: exactly the teams on GitHub with their memberships and the organisation
    variables, no variable before a team declaration.
   */
  function UseGithub(c: Context.Ctx, iam: Iam.IamContext): (ds: seq<Decl>)
    ensures forall d :: d in ds <==> TeamDeclared(c, iam.teams, d) || VariableDeclared(c, iam.secrets, d)
    ensures forall a, b :: 0 <= a < b < |ds| && VariableDeclared(c, iam.secrets, ds[a]) ==> !TeamDeclared(c, iam.teams, ds[b])
  {
    var teams := Seqs.Flatten(TeamBlocks(c, iam.teams));
    var vars := Seqs.Flatten(VariableBlocks(c, iam.secrets));
    TeamsAndVariablesApart(c, iam);
    teams + vars
  }

  /** The team part and the variable part of `useGithub` are what they claim, and share nothing. */
  lemma TeamsAndVariablesApart(c: Context.Ctx, iam: Iam.IamContext)
    ensures forall d :: d in Seqs.Flatten(TeamBlocks(c, iam.teams)) <==> TeamDeclared(c, iam.teams, d)
    ensures forall d :: d in Seqs.Flatten(VariableBlocks(c, iam.secrets)) <==> VariableDeclared(c, iam.secrets, d)
    ensures forall d :: TeamDeclared(c, iam.teams, d) ==> !VariableDeclared(c, iam.secrets, d)
  {
    forall d
      ensures d in Seqs.Flatten(TeamBlocks(c, iam.teams)) <==> TeamDeclared(c, iam.teams, d)
      ensures d in Seqs.Flatten(VariableBlocks(c, iam.secrets)) <==> VariableDeclared(c, iam.secrets, d)
      ensures TeamDeclared(c, iam.teams, d) ==> !VariableDeclared(c, iam.secrets, d)
    {
      GithubTeamsExactly(c, iam.teams, d);
      OrgVariablesExactly(c, iam.secrets, d);
      if TeamDeclared(c, iam.teams, d) {
        var i :| 0 <= i < |iam.teams| && InTeam(c, iam.teams[i], d);
        assert d.spec.GithubTeam? || d.spec.TeamMembership?;
      }
    }
  }

  function TeamBlocks(c: Context.Ctx, teams: seq<Iam.Team>): seq<seq<Decl>> {
    Seqs.Map((t: Iam.Team) => TeamDecls(c, t), teams)
  }

  function VariableBlocks(c: Context.Ctx, secrets: seq<Iam.Secret>): seq<seq<Decl>> {
    Seqs.Map((s: Iam.Secret) => OrgVariableDecls(c, s), secrets)
  }

  /** Every team with GitHub settings is declared by `useGithub`, whether or not it has members. */
  lemma GithubTeamsDeclared(c: Context.Ctx, iam: Iam.IamContext, i: int)
    requires 0 <= i < |iam.teams| && iam.teams[i].github.Some?
    ensures TeamDecl(c, iam.teams[i].github.value) in UseGithub(c, iam)
  {
    var blocks := TeamBlocks(c, iam.teams);
    var g := iam.teams[i].github.value;
    assert blocks[i] == [TeamDecl(c, g)] + Memberships(c, g, iam.teams[i].members);
    Seqs.FlattenMember(blocks, TeamDecl(c, g));
  }

  /** Each member of a team with GitHub settings gets a membership in what `useGithub` declares. */
  lemma GithubMembershipsDeclared(c: Context.Ctx, iam: Iam.IamContext, i: int, k: int)
    requires 0 <= i < |iam.teams| && iam.teams[i].github.Some? && 0 <= k < |iam.teams[i].members|
    ensures MembershipDecl(c, iam.teams[i].github.value, iam.teams[i].members[k]) in UseGithub(c, iam)
  {
    var blocks := TeamBlocks(c, iam.teams);
    var g := iam.teams[i].github.value;
    assert blocks[i] == [TeamDecl(c, g)] + Memberships(c, g, iam.teams[i].members);
    assert blocks[i][1 + k] == MembershipDecl(c, g, iam.teams[i].members[k]);
    Seqs.FlattenMember(blocks, MembershipDecl(c, g, iam.teams[i].members[k]));
  }

  /**
    The organisation variables `useGithub` declares are exactly those of the secrets published
    to an organisation and not encrypted.
   */
  lemma OrgVariablesExactly(c: Context.Ctx, secrets: seq<Iam.Secret>, d: Decl)
    ensures d in Seqs.Flatten(VariableBlocks(c, secrets)) <==> VariableDeclared(c, secrets, d)
  {
    var blocks := VariableBlocks(c, secrets);
    Seqs.FlattenMember(blocks, d);
    if d in Seqs.Flatten(blocks) {
      var i :| 0 <= i < |blocks| && d in blocks[i];
      assert blocks[i] == OrgVariableDecls(c, secrets[i]);
      assert IsOrgVariable(c, secrets[i], d);
    }
    if exists i :: 0 <= i < |secrets| && IsOrgVariable(c, secrets[i], d) {
      var i :| 0 <= i < |secrets| && IsOrgVariable(c, secrets[i], d);
      assert blocks[i] == OrgVariableDecls(c, secrets[i]);
      assert d in blocks[i];
    }
  }

  /** The team part of `useGithub` is exactly the teams on GitHub and their memberships. */
  lemma GithubTeamsExactly(c: Context.Ctx, teams: seq<Iam.Team>, d: Decl)
    ensures d in Seqs.Flatten(TeamBlocks(c, teams)) <==> TeamDeclared(c, teams, d)
  {
    var blocks := TeamBlocks(c, teams);
    Seqs.FlattenMember(blocks, d);
    forall i | 0 <= i < |teams|
      ensures d in blocks[i] <==> InTeam(c, teams[i], d)
    {
      InTeamDecls(c, teams[i], d);
    }
  }

  /** One team's declarations are the team and its memberships. */
  lemma InTeamDecls(c: Context.Ctx, team: Iam.Team, d: Decl)
    ensures d in TeamDecls(c, team) <==> InTeam(c, team, d)
  {
    if team.github.Some? {
      var g := team.github.value;
      var ms := Memberships(c, g, team.members);
      assert TeamDecls(c, team) == [TeamDecl(c, g)] + ms;
      assert d in TeamDecls(c, team) <==> d == TeamDecl(c, g) || d in ms;
      MembershipsExactly(c, g, team.members, d);
    }
  }

  /** A membership list holds exactly one membership per member. */
  lemma MembershipsExactly(c: Context.Ctx, g: Iam.TeamGithub, members: seq<Iam.User>, d: Decl)
    ensures d in Memberships(c, g, members) <==> exists k :: 0 <= k < |members| && d == MembershipDecl(c, g, members[k])
  {
    var ms := Memberships(c, g, members);
    if d in ms {
      var n :| 0 <= n < |ms| && ms[n] == d;
    }
  }

  lemma TeamDeclsWellOrdered(c: Context.Ctx, team: Iam.Team, scope: set<string>)
    ensures WellOrdered(TeamDecls(c, team), scope)
  {
    if team.github.Some? {
      var g := team.github.value;
      var rest := Memberships(c, g, team.members);
      WellOrderedWhenScoped(rest, scope + {TeamIdentity(c, g)});
      WellOrderedCons(TeamDecl(c, g), rest, scope);
    }
  }

  /** Every membership reads a team declared before it; the variables read nothing. */
  lemma UseGithubWellOrdered(c: Context.Ctx, iam: Iam.IamContext)
    ensures WellOrdered(UseGithub(c, iam), {})
  {
    var teams := Seqs.Flatten(TeamBlocks(c, iam.teams));
    TeamsWellOrdered(c, iam.teams);
    VariablesWellOrdered(c, iam.secrets, {} + Identities(teams));
    WellOrderedAppend(teams, Seqs.Flatten(VariableBlocks(c, iam.secrets)), {});
  }

  lemma TeamsWellOrdered(c: Context.Ctx, teams: seq<Iam.Team>)
    ensures WellOrdered(Seqs.Flatten(TeamBlocks(c, teams)), {})
  {
    var blocks := TeamBlocks(c, teams);
    forall i | 0 <= i < |blocks|
      ensures WellOrdered(blocks[i], {})
    {
      TeamDeclsWellOrdered(c, teams[i], {});
    }
    WellOrderedBlocks(blocks, {});
  }

  /** The organisation variables read nothing, so they are well ordered in any scope. */
  lemma VariablesWellOrdered(c: Context.Ctx, secrets: seq<Iam.Secret>, scope: set<string>)
    ensures WellOrdered(Seqs.Flatten(VariableBlocks(c, secrets)), scope)
  {
    var blocks := VariableBlocks(c, secrets);
    forall i | 0 <= i < |blocks|
      ensures WellOrdered(blocks[i], scope)
    {
      WellOrderedWhenScoped(blocks[i], scope);
    }
    WellOrderedBlocks(blocks, scope);
  }

  // ---------------------------------------------------------------------------------------
  // useGithubForProject

  function RepoIdentity(c: Context.Ctx, repo: Repo): string {
    Context.Rn(c, ["code", "github", repo.org, "repo", repo.name])
  }

  /** `features?.includes(f) ?? false`. */
  predicate HasFeature(repo: Repo, f: string) {
    repo.features.Some? && f in repo.features.value
  }

  /**
    The repository: public exactly when the access settings say so, issues exactly when
    listed among the features, merge commits only, no vulnerability alerts, archived only
    when asked.
   */
  function RepositoryDecl(c: Context.Ctx, repo: Repo): (d: Decl)
    ensures d.identity == RepoIdentity(c, repo)
    ensures d.spec.Repository? && d.spec.name == repo.name
    ensures d.spec.repoDescription == repo.description && d.spec.homepageUrl == repo.homepage
    ensures d.spec.visibility == "public" <==> repo.access.Some? && IsTrue(repo.access.value.isPublic)
    ensures d.spec.visibility in {"public", "private"}
    ensures d.spec.hasIssues <==> HasFeature(repo, FeatureIssues)
    ensures d.spec.allowMergeCommit && !d.spec.allowRebaseMerge && !d.spec.allowSquashMerge
    ensures !d.spec.vulnerabilityAlerts
    ensures d.spec.archived <==> IsTrue(repo.isArchived)
    ensures d.options == Ignoring(RepoIgnores)
    ensures Needs(d) == {}
  {
    Decl(RepoIdentity(c, repo),
         Repository(repo.name, repo.description, repo.homepage,
                    if repo.access.Some? && IsTrue(repo.access.value.isPublic) then "public" else "private",
                    HasFeature(repo, FeatureIssues), true, false, false, false, repo.isArchived.GetOr(false)),
         Ignoring(RepoIgnores))
  }

  /** The repository-level kinds whose properties are plain text. */
  predicate ReadsNothing(s: Spec) {
    || s.RepositoryCollaborator?
    || (s.TeamRepository? && s.teamId.Lit?)
    || (s.ActionsVariable? && s.value.Lit?)
    || s.ActionsSecret?
    || s.BranchProtection?
    || s.ActionsRepositoryPermissions?
  }

  /** A declaration that depends on the repository `id` and reads no output. */
  predicate AttachedTo(d: Decl, id: string) {
    d.options == DependsOn([id]) && ReadsNothing(d.spec)
  }

  /** A declaration attached to the repository: it names it as its one explicit dependency. */
  function Attached(c: Context.Ctx, repo: Repo, segments: seq<string>, spec: Spec): (d: Decl)
    ensures d.identity == Context.Rn(c, ["code", "github", repo.org, "repo", repo.name] + segments)
    ensures d.spec == spec && d.options == DependsOn([RepoIdentity(c, repo)])
    ensures ReadsNothing(spec) ==> AttachedTo(d, RepoIdentity(c, repo))
  {
    Decl(Context.Rn(c, ["code", "github", repo.org, "repo", repo.name] + segments), spec, DependsOn([RepoIdentity(c, repo)]))
  }

  /** A collaborator: the user the reference names, by GitHub login; an unknown user fails. */
  function CollaboratorDecl(c: Context.Ctx, iam: Iam.IamContext, repo: Repo, ref: AccessRef): (r: Result<Decl, Errors.Error>)
    ensures r.Err? <==> Iam.GetUserById(iam.users, ref.id).None?
    ensures r.Err? ==> r.error == Errors.UserNotFound(ref.id)
    ensures r.Ok? ==> AttachedTo(r.value, RepoIdentity(c, repo))
    ensures r.Ok? ==> var login := Iam.GetUserById(iam.users, ref.id).value.github.login;
                      r.value == Attached(c, repo, ["user", login], RepositoryCollaborator(repo.name, login, ref.role))
  {
    match Iam.GetUserById(iam.users, ref.id)
    case None => Err(Errors.UserNotFound(ref.id))
    case Some(user) =>
      Ok(Attached(c, repo, ["user", user.github.login], RepositoryCollaborator(repo.name, user.github.login, ref.role)))
  }

  /** The first team with the id, when it has GitHub settings. */
  function GithubTeamById(teams: seq<Iam.Team>, id: string): (r: Option<Iam.TeamGithub>)
    ensures r.Some? ==> exists i :: 0 <= i < |teams| && teams[i].id == id && teams[i].github == r
                                    && forall j :: 0 <= j < i ==> teams[j].id != id
    ensures r.None? <==> (forall j :: 0 <= j < |teams| ==> teams[j].id != id)
                         || exists i :: 0 <= i < |teams| && teams[i].id == id && teams[i].github.None?
                                        && forall j :: 0 <= j < i ==> teams[j].id != id
  {
    match Seqs.Find(teams, (t: Iam.Team) => t.id == id)
    case None => None
    case Some(t) => t.github
  }

  /** Team access: by the team's GitHub name; a team that is unknown or not on GitHub fails. */
  function TeamRepositoryDecl(c: Context.Ctx, iam: Iam.IamContext, repo: Repo, ref: AccessRef): (r: Result<Decl, Errors.Error>)
    ensures r.Err? <==> GithubTeamById(iam.teams, ref.id).None?
    ensures r.Err? ==> r.error == Errors.TeamNotFound(ref.id)
    ensures r.Ok? ==> AttachedTo(r.value, RepoIdentity(c, repo))
    ensures r.Ok? ==> r.value == Attached(c, repo, ["team", ref.id],
                                          TeamRepository(repo.name, Lit(GithubTeamById(iam.teams, ref.id).value.name), ref.role))
  {
    match GithubTeamById(iam.teams, ref.id)
    case None => Err(Errors.TeamNotFound(ref.id))
    case Some(g) => Ok(Attached(c, repo, ["team", ref.id], TeamRepository(repo.name, Lit(g.name), ref.role)))
  }

  /**
    The value of a variable or secret: the literal when non-empty, otherwise the resolved
    reference. Neither given fails; a reference that resolves to nothing or to the empty
    string fails; a reference to an unsupported source fails with the lookup's error.
   */
  function ResolveValue(iam: Iam.IamContext, ref: ValueRef): (r: Result<string, Errors.Error>)
    ensures r.Ok? ==> r.value != ""
    ensures !Truthy(ref.value) && !Truthy(ref.valueFrom) ==> r == Err(Errors.MissingValue(ref.key))
    ensures Truthy(ref.value) ==> r == Ok(ref.value.value)
    ensures !Truthy(ref.value) && Truthy(ref.valueFrom) ==>
              var looked := Iam.GetSecretValue(iam.secrets, ref.valueFrom.value);
              && (looked.Err? ==> r == Err(looked.error))
              && (looked.Ok? && !Truthy(looked.value) ==> r == Err(Errors.SecretValueNotFound(ref.valueFrom.value)))
              && (looked.Ok? && Truthy(looked.value) ==> r == Ok(looked.value.value))
  {
    if !Truthy(ref.value) && !Truthy(ref.valueFrom) then Err(Errors.MissingValue(ref.key))
    else if Truthy(ref.value) then Ok(ref.value.value)
    else
      var looked :- Iam.GetSecretValue(iam.secrets, ref.valueFrom.value);
      if !Truthy(looked) then Err(Errors.SecretValueNotFound(ref.valueFrom.value)) else Ok(looked.value)
  }

  /** A stored local secret can stand in for a literal: the variable gets the secret's value. */
  lemma ValueFromLocalSecret(iam: Iam.IamContext, key: string, i: int)
    requires 0 <= i < |iam.secrets| && |iam.secrets[i].id| >= 1 && iam.secrets[i].value != ""
    requires forall k :: 0 <= k < |iam.secrets[i].id| ==> !Iam.IsLineTerminator(iam.secrets[i].id[k])
    requires forall j :: 0 <= j < i ==> iam.secrets[j].id != iam.secrets[i].id
    ensures ResolveValue(iam, ValueRef(key, None, Some("local::" + iam.secrets[i].id))) == Ok(iam.secrets[i].value)
  {
    Iam.LocalReferenceReads(iam.secrets, i);
  }

  function VariableDecl(c: Context.Ctx, iam: Iam.IamContext, repo: Repo, ref: ValueRef): (r: Result<Decl, Errors.Error>)
    ensures r.Err? <==> ResolveValue(iam, ref).Err?
    ensures r.Err? ==> r.error == ResolveValue(iam, ref).error
    ensures r.Ok? ==> AttachedTo(r.value, RepoIdentity(c, repo))
    ensures r.Ok? ==> r.value == Attached(c, repo, ["var", ref.key], ActionsVariable(repo.name, ref.key, Lit(ResolveValue(iam, ref).value)))
  {
    var value :- ResolveValue(iam, ref);
    Ok(Attached(c, repo, ["var", ref.key], ActionsVariable(repo.name, ref.key, Lit(value))))
  }

  function SecretDecl(c: Context.Ctx, iam: Iam.IamContext, repo: Repo, ref: ValueRef): (r: Result<Decl, Errors.Error>)
    ensures r.Err? <==> ResolveValue(iam, ref).Err?
    ensures r.Err? ==> r.error == ResolveValue(iam, ref).error
    ensures r.Ok? ==> AttachedTo(r.value, RepoIdentity(c, repo))
    ensures r.Ok? ==> r.value == Attached(c, repo, ["secret", ref.key], ActionsSecret(repo.name, ref.key, ResolveValue(iam, ref).value))
  {
    var value :- ResolveValue(iam, ref);
    Ok(Attached(c, repo, ["secret", ref.key], ActionsSecret(repo.name, ref.key, value)))
  }

  /** Protection for one branch: stale reviews dismissed, one approving review required. */
  function ProtectionDecl(c: Context.Ctx, repo: Repo, branch: string): (d: Decl)
    ensures d == Attached(c, repo, ["branch", branch, "protection"], BranchProtection(repo.name, branch, true, 1))
  {
    Attached(c, repo, ["branch", branch, "protection"], BranchProtection(repo.name, branch, true, 1))
  }

  function ProtectionDecls(c: Context.Ctx, repo: Repo): (ds: seq<Decl>)
    ensures IsTrue(repo.protection) ==> |ds| == 3 && forall k :: 0 <= k < 3 ==> ds[k] == ProtectionDecl(c, repo, MainBranches[k])
    ensures !IsTrue(repo.protection) ==> ds == []
  {
    if IsTrue(repo.protection) then Seqs.Map((b: string) => ProtectionDecl(c, repo, b), MainBranches) else []
  }

  function ActionsDecls(c: Context.Ctx, repo: Repo): (ds: seq<Decl>)
    ensures HasFeature(repo, FeatureActions) ==> ds == [Attached(c, repo, ["actions"], ActionsRepositoryPermissions(repo.name, "all"))]
    ensures !HasFeature(repo, FeatureActions) ==> ds == []
  {
    if HasFeature(repo, FeatureActions) then [Attached(c, repo, ["actions"], ActionsRepositoryPermissions(repo.name, "all"))] else []
  }

  /** The access list of a kind, empty when the repository has no access settings or no such list. */
  function Users(repo: Repo): seq<AccessRef> {
    if repo.access.Some? && repo.access.value.users.Some? then repo.access.value.users.value else []
  }

  function Teams(repo: Repo): seq<AccessRef> {
    if repo.access.Some? && repo.access.value.teams.Some? then repo.access.value.teams.value else []
  }

  predicate AllAttached(ds: seq<Decl>, id: string) {
    forall k :: 0 <= k < |ds| ==> AttachedTo(ds[k], id)
  }

  lemma AttachedNeeds(d: Decl, id: string)
    requires AttachedTo(d, id)
    ensures Needs(d) == {id}
  {
    assert d.options.dependsOn[0] == id;
  }

  /** The collaborators, in file order; the first unknown user fails the list. */
  function CollaboratorDecls(c: Context.Ctx, iam: Iam.IamContext, repo: Repo): (r: Result<seq<Decl>, Errors.Error>)
    ensures r.Ok? <==> forall k :: 0 <= k < |Users(repo)| ==> Iam.GetUserById(iam.users, Users(repo)[k].id).Some?
    ensures r.Ok? ==> |r.value| == |Users(repo)|
    ensures r.Ok? ==> forall k :: 0 <= k < |Users(repo)| ==> CollaboratorDecl(c, iam, repo, Users(repo)[k]) == Ok(r.value[k])
    ensures r.Err? ==> exists k :: 0 <= k < |Users(repo)| && r.error == Errors.UserNotFound(Users(repo)[k].id)
                                   && Iam.GetUserById(iam.users, Users(repo)[k].id).None?
                                   && forall j :: 0 <= j < k ==> Iam.GetUserById(iam.users, Users(repo)[j].id).Some?
  {
    Seqs.MapResult(Users(repo), (u: AccessRef) => CollaboratorDecl(c, iam, repo, u))
  }

  lemma CollaboratorsAttached(c: Context.Ctx, iam: Iam.IamContext, repo: Repo)
    requires forall k :: 0 <= k < |Users(repo)| ==> Iam.GetUserById(iam.users, Users(repo)[k].id).Some?
    ensures AllAttached(CollaboratorDecls(c, iam, repo).value, RepoIdentity(c, repo))
  {
  }

  /** The team grants, in file order; the first team that is unknown or not on GitHub fails the list. */
  function TeamRepositoryDecls(c: Context.Ctx, iam: Iam.IamContext, repo: Repo): (r: Result<seq<Decl>, Errors.Error>)
    ensures r.Ok? <==> forall k :: 0 <= k < |Teams(repo)| ==> GithubTeamById(iam.teams, Teams(repo)[k].id).Some?
    ensures r.Ok? ==> |r.value| == |Teams(repo)|
    ensures r.Ok? ==> forall k :: 0 <= k < |Teams(repo)| ==> TeamRepositoryDecl(c, iam, repo, Teams(repo)[k]) == Ok(r.value[k])
    ensures r.Err? ==> exists k :: 0 <= k < |Teams(repo)| && r.error == Errors.TeamNotFound(Teams(repo)[k].id)
                                   && GithubTeamById(iam.teams, Teams(repo)[k].id).None?
                                   && forall j :: 0 <= j < k ==> GithubTeamById(iam.teams, Teams(repo)[j].id).Some?
  {
    Seqs.MapResult(Teams(repo), (t: AccessRef) => TeamRepositoryDecl(c, iam, repo, t))
  }

  lemma TeamRepositoriesAttached(c: Context.Ctx, iam: Iam.IamContext, repo: Repo)
    requires forall k :: 0 <= k < |Teams(repo)| ==> GithubTeamById(iam.teams, Teams(repo)[k].id).Some?
    ensures AllAttached(TeamRepositoryDecls(c, iam, repo).value, RepoIdentity(c, repo))
  {
  }

  /** The Actions variables, in file order; the first value that cannot be resolved fails the list. */
  function VariableDecls(c: Context.Ctx, iam: Iam.IamContext, repo: Repo): (r: Result<seq<Decl>, Errors.Error>)
    ensures r.Ok? <==> forall k :: 0 <= k < |repo.variables.GetOr([])| ==> ResolveValue(iam, repo.variables.GetOr([])[k]).Ok?
    ensures r.Ok? ==> |r.value| == |repo.variables.GetOr([])|
    ensures r.Ok? ==> forall k :: 0 <= k < |repo.variables.GetOr([])| ==> VariableDecl(c, iam, repo, repo.variables.GetOr([])[k]) == Ok(r.value[k])
    ensures r.Err? ==> exists k :: 0 <= k < |repo.variables.GetOr([])| && ResolveValue(iam, repo.variables.GetOr([])[k]) == Err(r.error)
                                   && forall j :: 0 <= j < k ==> ResolveValue(iam, repo.variables.GetOr([])[j]).Ok?
  {
    Seqs.MapResult(repo.variables.GetOr([]), (v: ValueRef) => VariableDecl(c, iam, repo, v))
  }

  lemma VariablesAttached(c: Context.Ctx, iam: Iam.IamContext, repo: Repo)
    requires VariableDecls(c, iam, repo).Ok?
    ensures AllAttached(VariableDecls(c, iam, repo).value, RepoIdentity(c, repo))
  {
  }

  /** The Actions secrets, in file order; the first value that cannot be resolved fails the list. */
  function SecretDecls(c: Context.Ctx, iam: Iam.IamContext, repo: Repo): (r: Result<seq<Decl>, Errors.Error>)
    ensures r.Ok? <==> forall k :: 0 <= k < |repo.secrets.GetOr([])| ==> ResolveValue(iam, repo.secrets.GetOr([])[k]).Ok?
    ensures r.Ok? ==> |r.value| == |repo.secrets.GetOr([])|
    ensures r.Ok? ==> forall k :: 0 <= k < |repo.secrets.GetOr([])| ==> SecretDecl(c, iam, repo, repo.secrets.GetOr([])[k]) == Ok(r.value[k])
    ensures r.Err? ==> exists k :: 0 <= k < |repo.secrets.GetOr([])| && ResolveValue(iam, repo.secrets.GetOr([])[k]) == Err(r.error)
                                   && forall j :: 0 <= j < k ==> ResolveValue(iam, repo.secrets.GetOr([])[j]).Ok?
  {
    Seqs.MapResult(repo.secrets.GetOr([]), (v: ValueRef) => SecretDecl(c, iam, repo, v))
  }

  lemma SecretsAttached(c: Context.Ctx, iam: Iam.IamContext, repo: Repo)
    requires SecretDecls(c, iam, repo).Ok?
    ensures AllAttached(SecretDecls(c, iam, repo).value, RepoIdentity(c, repo))
  {
  }

  /** Whether every reference of the repository resolves. */
  predicate Resolves(iam: Iam.IamContext, repo: Repo) {
    && (forall k :: 0 <= k < |Users(repo)| ==> Iam.GetUserById(iam.users, Users(repo)[k].id).Some?)
    && (forall k :: 0 <= k < |Teams(repo)| ==> GithubTeamById(iam.teams, Teams(repo)[k].id).Some?)
    && (forall k :: 0 <= k < |repo.variables.GetOr([])| ==> ResolveValue(iam, repo.variables.GetOr([])[k]).Ok?)
    && (forall k :: 0 <= k < |repo.secrets.GetOr([])| ==> ResolveValue(iam, repo.secrets.GetOr([])[k]).Ok?)
  }

  /**
    One repository: the repository, then its collaborators, team access, variables and
    secrets in file order, the protection of the three main branches, and the Actions
    permissions, all depending on the repository. The first reference that cannot be
    resolved, in that order, fails it.
   */
  function RepoDecls(c: Context.Ctx, iam: Iam.IamContext, repo: Repo): (r: Result<seq<Decl>, Errors.Error>)
    ensures r.Ok? <==> Resolves(iam, repo)
    ensures r.Ok? ==> |r.value| >= 1 && r.value[0] == RepositoryDecl(c, repo)
    ensures r.Ok? ==> |r.value| == 1 + |Users(repo)| + |Teams(repo)| + |repo.variables.GetOr([])| + |repo.secrets.GetOr([])|
                                   + (if IsTrue(repo.protection) then 3 else 0) + (if HasFeature(repo, FeatureActions) then 1 else 0)
    ensures r.Ok? ==> AllAttached(r.value[1..], RepoIdentity(c, repo))
    ensures r.Ok? ==> r.value == [RepositoryDecl(c, repo)] + CollaboratorDecls(c, iam, repo).value
                                 + TeamRepositoryDecls(c, iam, repo).value + VariableDecls(c, iam, repo).value
                                 + SecretDecls(c, iam, repo).value + ProtectionDecls(c, repo) + ActionsDecls(c, repo)
    ensures r.Err? ==> r.error == if CollaboratorDecls(c, iam, repo).Err? then CollaboratorDecls(c, iam, repo).error
                                  else if TeamRepositoryDecls(c, iam, repo).Err? then TeamRepositoryDecls(c, iam, repo).error
                                  else if VariableDecls(c, iam, repo).Err? then VariableDecls(c, iam, repo).error
                                  else SecretDecls(c, iam, repo).error
  {
    var users := CollaboratorDecls(c, iam, repo);
    var teams := TeamRepositoryDecls(c, iam, repo);
    var vars := VariableDecls(c, iam, repo);
    var secrets := SecretDecls(c, iam, repo);
    if users.Err? then Err(users.error)
    else if teams.Err? then Err(teams.error)
    else if vars.Err? then Err(vars.error)
    else if secrets.Err? then Err(secrets.error)
    else
      CollaboratorsAttached(c, iam, repo);
      TeamRepositoriesAttached(c, iam, repo);
      VariablesAttached(c, iam, repo);
      SecretsAttached(c, iam, repo);
      AssembleAttached(c, repo, users.value, teams.value, vars.value, secrets.value);
      Ok(Assemble(c, repo, users.value, teams.value, vars.value, secrets.value))
  }

  /** The repository, then the given parts, then its branch protections and Actions permissions. */
  function Assemble(c: Context.Ctx, repo: Repo, users: seq<Decl>, teams: seq<Decl>, vars: seq<Decl>, secrets: seq<Decl>): (ds: seq<Decl>)
    ensures |ds| == 1 + |users| + |teams| + |vars| + |secrets|
                     + (if IsTrue(repo.protection) then 3 else 0) + (if HasFeature(repo, FeatureActions) then 1 else 0)
    ensures ds[0] == RepositoryDecl(c, repo)
  {
    [RepositoryDecl(c, repo)] + users + teams + vars + secrets + ProtectionDecls(c, repo) + ActionsDecls(c, repo)
  }

  /** When the given parts all depend on the repository, so does everything after it. */
  lemma AssembleAttached(c: Context.Ctx, repo: Repo, users: seq<Decl>, teams: seq<Decl>, vars: seq<Decl>, secrets: seq<Decl>)
    requires AllAttached(users, RepoIdentity(c, repo)) && AllAttached(teams, RepoIdentity(c, repo))
    requires AllAttached(vars, RepoIdentity(c, repo)) && AllAttached(secrets, RepoIdentity(c, repo))
    ensures AllAttached(Assemble(c, repo, users, teams, vars, secrets)[1..], RepoIdentity(c, repo))
  {
    var id := RepoIdentity(c, repo);
    AttachedBranches(c, repo);
    AllAttachedAppend(users, teams, id);
    AllAttachedAppend(users + teams, vars, id);
    AllAttachedAppend(users + teams + vars, secrets, id);
    AllAttachedAppend(users + teams + vars + secrets, ProtectionDecls(c, repo), id);
    var rest := users + teams + vars + secrets + ProtectionDecls(c, repo) + ActionsDecls(c, repo);
    AllAttachedAppend(users + teams + vars + secrets + ProtectionDecls(c, repo), ActionsDecls(c, repo), id);
    assert ([RepositoryDecl(c, repo)] + rest)[1..] == rest;
  }

  lemma AllAttachedAppend(a: seq<Decl>, b: seq<Decl>, id: string)
    requires AllAttached(a, id) && AllAttached(b, id)
    ensures AllAttached(a + b, id)
  {
    forall k | 0 <= k < |a + b|
      ensures AttachedTo((a + b)[k], id)
    {
      if k >= |a| {
        assert (a + b)[k] == b[k - |a|];
      }
    }
  }

  lemma AttachedBranches(c: Context.Ctx, repo: Repo)
    ensures AllAttached(ProtectionDecls(c, repo), RepoIdentity(c, repo))
    ensures AllAttached(ActionsDecls(c, repo), RepoIdentity(c, repo))
  {
  }

  /** Everything after the repository depends on it and reads nothing else, so the repository's declarations are well ordered. */
  lemma RepoDeclsWellOrdered(c: Context.Ctx, iam: Iam.IamContext, repo: Repo, scope: set<string>)
    requires Resolves(iam, repo)
    ensures WellOrdered(RepoDecls(c, iam, repo).value, scope)
  {
    var ds := RepoDecls(c, iam, repo).value;
    AttachedAfterHead(ds[0], ds[1..], scope);
    assert [ds[0]] + ds[1..] == ds;
  }

  /** A declaration that reads nothing, followed by declarations attached to it, is well ordered. */
  lemma AttachedAfterHead(head: Decl, rest: seq<Decl>, scope: set<string>)
    requires Needs(head) == {} && AllAttached(rest, head.identity)
    ensures WellOrdered([head] + rest, scope)
  {
    forall k | 0 <= k < |rest|
      ensures Needs(rest[k]) <= scope + {head.identity}
    {
      AttachedNeeds(rest[k], head.identity);
    }
    WellOrderedWhenScoped(rest, scope + {head.identity});
    WellOrderedCons(head, rest, scope);
  }

  /** `useGithubForProject`, given the parsed repositories file: every repository's declarations in order. */
  function UseGithubForProject(c: Context.Ctx, iam: Iam.IamContext, repos: seq<Repo>): (r: Result<seq<Decl>, Errors.Error>)
    ensures r.Ok? <==> forall i :: 0 <= i < |repos| ==> Resolves(iam, repos[i])
    ensures r.Err? ==> exists i :: 0 <= i < |repos| && RepoDecls(c, iam, repos[i]) == Err(r.error)
                                   && forall j :: 0 <= j < i ==> Resolves(iam, repos[j])
    ensures r.Ok? ==> forall d :: d in r.value <==> exists i :: 0 <= i < |repos| && d in RepoDecls(c, iam, repos[i]).value
  {
    var blocks :- Seqs.MapResult(repos, (repo: Repo) => RepoDecls(c, iam, repo));
    assert forall d :: d in Seqs.Flatten(blocks) <==> exists i :: 0 <= i < |blocks| && d in blocks[i] by {
      forall d
        ensures d in Seqs.Flatten(blocks) <==> exists i :: 0 <= i < |blocks| && d in blocks[i]
      {
        Seqs.FlattenMember(blocks, d);
      }
    }
    Ok(Seqs.Flatten(blocks))
  }

  /** Every declaration of a project's repositories comes after the repository it depends on. */
  lemma UseGithubForProjectWellOrdered(c: Context.Ctx, iam: Iam.IamContext, repos: seq<Repo>)
    requires forall i :: 0 <= i < |repos| ==> Resolves(iam, repos[i])
    ensures WellOrdered(UseGithubForProject(c, iam, repos).value, {})
  {
    var blocks := Seqs.MapResult(repos, (repo: Repo) => RepoDecls(c, iam, repo)).value;
    forall i | 0 <= i < |blocks|
      ensures WellOrdered(blocks[i], {})
    {
      RepoDeclsWellOrdered(c, iam, repos[i], {});
    }
    WellOrderedBlocks(blocks, {});
  }
}

=== FILE: iam.dfy ===
/**
  The IAM context (src/iam.ts): users, teams whose member lists are resolved against the
  users, secrets, the user lookup, and the secret lookup through `source::id` references.

  The three YAML files are inputs here: a missing file is the empty list.
 */
module Iam {
  import opened Wrappers
  import opened Strings
  import Seqs
  import Errors

  /** A user's GitHub login and, when the user belongs to the organisation, their role there. */
  datatype GithubAccount = GithubAccount(login: string, orgRole: Option<string>)

  datatype User = User(id: string, firstName: string, lastName: string, email: string, team: string,
                       github: GithubAccount)

  datatype TeamGithub = TeamGithub(org: string, name: string)

  /** A team as the file lists it: members by id only. */
  datatype TeamEntry = TeamEntry(id: string, title: string, github: Option<TeamGithub>, memberIds: seq<string>)

  /** A team whose members are full user records. */
  datatype Team = Team(id: string, title: string, github: Option<TeamGithub>, members: seq<User>)

  /** A secret; `github` is the organisation it is published to, if any. */
  datatype Secret = Secret(title: string, id: string, name: string, value: string,
                           isEncrypted: Option<bool>, github: Option<string>)

  /** The loaded context. */
  datatype IamContext = IamContext(users: seq<User>, teams: seq<Team>, secrets: seq<Secret>)

  /** `getUserById`: the first user with the id. */
  function GetUserById(users: seq<User>, id: string): (r: Option<User>)
    ensures r.Some? ==> r.value in users && r.value.id == id
    ensures r.Some? ==> exists i :: 0 <= i < |users| && users[i] == r.value && forall j :: 0 <= j < i ==> users[j].id != id
    ensures r.None? <==> forall j :: 0 <= j < |users| ==> users[j].id != id
  {
    Seqs.Find(users, (u: User) => u.id == id)
  }

  /** The line terminators JavaScript's `.` does not match. */
  predicate IsLineTerminator(c: char) {
    c == '\n' || c == '\r' || c == '\U{2028}' || c == '\U{2029}'
  }

  /** A parsed secret reference `source::id`. */
  datatype SecretRef = SecretRef(source: string, id: string)

  /** What `/^([a-z]+)::(.+)$/` accepts as its two groups. */
  predicate WellFormedRef(r: SecretRef) {
    && |r.source| >= 1 && (forall i :: 0 <= i < |r.source| ==> IsLower(r.source[i]))
    && |r.id| >= 1 && (forall i :: 0 <= i < |r.id| ==> !IsLineTerminator(r.id[i]))
  }

  /** The text of a reference. */
  function FormatSecretRef(r: SecretRef): string {
    r.source + "::" + r.id
  }

  /** Length of the longest prefix of lower-case letters. */
  function LowerPrefix(s: string): (k: nat)
    ensures k <= |s|
    ensures forall i :: 0 <= i < k ==> IsLower(s[i])
    ensures k < |s| ==> !IsLower(s[k])
    decreases |s|
  {
    if |s| == 0 || !IsLower(s[0]) then 0 else 1 + LowerPrefix(s[1..])
  }

  /**
    Matching `/^(?<source>[a-z]+)::(?<id>.+)$/`. The colon is not a lower-case letter, so the
    source group is the whole run of lower-case letters at the start; the id group is the
    rest after `::`, which must be non-empty and free of line terminators.
   */
  function ParseSecretRef(s: string): (r: Option<SecretRef>)
    ensures r.Some? ==> WellFormedRef(r.value) && FormatSecretRef(r.value) == s
  {
    var k := LowerPrefix(s);
    if k >= 1 && k + 2 < |s| && s[k] == ':' && s[k + 1] == ':'
       && forall i :: k + 2 <= i < |s| ==> !IsLineTerminator(s[i])
    then
      assert s == s[..k] + "::" + s[k + 2..];
      Some(SecretRef(s[..k], s[k + 2..]))
    else None
  }

  /** A well-formed reference is read back from its text. */
  lemma ParseFormat(r: SecretRef)
    requires WellFormedRef(r)
    ensures ParseSecretRef(FormatSecretRef(r)) == Some(r)
  {
    var s := FormatSecretRef(r);
    var n := |r.source|;
    assert s[..n] == r.source && s[n] == ':' && s[n + 1] == ':' && s[n + 2..] == r.id;
    LowerPrefixStops(s, n);
    forall i | n + 2 <= i < |s|
      ensures !IsLineTerminator(s[i])
    {
      assert s[i] == r.id[i - n - 2];
    }
  }

  lemma LowerPrefixStops(s: string, n: nat)
    requires n < |s| && !IsLower(s[n])
    requires forall i :: 0 <= i < n ==> IsLower(s[i])
    ensures LowerPrefix(s) == n
  {
  }

  /** A string is a reference exactly when it is the text of a well-formed one. */
  lemma ParseIff(s: string)
    ensures ParseSecretRef(s).Some? <==> exists r :: WellFormedRef(r) && FormatSecretRef(r) == s
  {
    if r :| WellFormedRef(r) && FormatSecretRef(r) == s {
      ParseFormat(r);
    }
  }

  /** The documented examples: a local reference and a storage reference. */
  lemma ParseExamples()
    ensures ParseSecretRef("local::cf/token") == Some(SecretRef("local", "cf/token"))
    ensures ParseSecretRef("gcs::cf/token") == Some(SecretRef("gcs", "cf/token"))
  {
    ParseFormat(SecretRef("local", "cf/token"));
    assert FormatSecretRef(SecretRef("local", "cf/token")) == "local::cf/token";
    ParseFormat(SecretRef("gcs", "cf/token"));
    assert FormatSecretRef(SecretRef("gcs", "cf/token")) == "gcs::cf/token";
  }

  /** A bare id and an upper-case source are not references. */
  lemma ParseRejects()
    ensures ParseSecretRef("cf/token") == None
    ensures ParseSecretRef("Local::x") == None
  {
    LowerPrefixStops("cf/token", 2);
    LowerPrefixStops("Local::x", 0);
  }

  /**
    `getSecretValue(ref)`: nothing when `ref` is not a reference; an error when its source is
    not `local`; otherwise the value of the first secret with the referenced id, if any.
   */
  function GetSecretValue(secrets: seq<Secret>, ref: string): (r: Result<Option<string>, Errors.Error>)
    ensures ParseSecretRef(ref).None? ==> r == Ok(None)
    ensures r.Err? <==> ParseSecretRef(ref).Some? && ParseSecretRef(ref).value.source != "local"
    ensures r.Err? ==> r.error == Errors.UnsupportedSecretSource(ParseSecretRef(ref).value.source)
    ensures r.Ok? && r.value.Some? ==>
              exists i :: 0 <= i < |secrets| && secrets[i].value == r.value.value
                          && FormatSecretRef(SecretRef("local", secrets[i].id)) == ref
                          && forall j :: 0 <= j < i ==> secrets[j].id != secrets[i].id
    ensures ParseSecretRef(ref).Some? && ParseSecretRef(ref).value.source == "local" ==>
              (r == Ok(None) <==> forall j :: 0 <= j < |secrets| ==> secrets[j].id != ParseSecretRef(ref).value.id)
  {
    match ParseSecretRef(ref)
    case None => Ok(None)
    case Some(parsed) =>
      if parsed.source != "local" then Err(Errors.UnsupportedSecretSource(parsed.source))
      else
        match Seqs.Find(secrets, (s: Secret) => s.id == parsed.id)
        case None => Ok(None)
        case Some(secret) => Ok(Some(secret.value))
  }

  /** A local reference to a stored secret reads that secret's value (the first with the id). */
  lemma LocalReferenceReads(secrets: seq<Secret>, i: int)
    requires 0 <= i < |secrets| && |secrets[i].id| >= 1
    requires forall k :: 0 <= k < |secrets[i].id| ==> !IsLineTerminator(secrets[i].id[k])
    requires forall j :: 0 <= j < i ==> secrets[j].id != secrets[i].id
    ensures GetSecretValue(secrets, "local::" + secrets[i].id) == Ok(Some(secrets[i].value))
  {
    var r := SecretRef("local", secrets[i].id);
    ParseFormat(r);
    assert FormatSecretRef(r) == "local::" + secrets[i].id;
  }

  /** No team member is missing from the users. */
  predicate Resolvable(users: seq<User>, teams: seq<TeamEntry>) {
    forall i, j :: 0 <= i < |teams| && 0 <= j < |teams[i].memberIds| ==>
      GetUserById(users, teams[i].memberIds[j]).Some?
  }

  /** Member `j` of team `i` is the first one, in file order, that is missing from the users. */
  predicate FirstDangling(users: seq<User>, teams: seq<TeamEntry>, i: int, j: int) {
    && 0 <= i < |teams| && 0 <= j < |teams[i].memberIds|
    && GetUserById(users, teams[i].memberIds[j]).None?
    && (forall i', j' :: 0 <= i' < i && 0 <= j' < |teams[i'].memberIds| ==>
          GetUserById(users, teams[i'].memberIds[j']).Some?)
    && (forall j' :: 0 <= j' < j ==> GetUserById(users, teams[i].memberIds[j']).Some?)
  }

  /** Team `t` with its member ids replaced by the users they name. */
  predicate ResolvedAs(users: seq<User>, entry: TeamEntry, t: Team) {
    && t.id == entry.id && t.title == entry.title && t.github == entry.github
    && |t.members| == |entry.memberIds|
    && forall j :: 0 <= j < |entry.memberIds| ==>
         GetUserById(users, entry.memberIds[j]) == Some(t.members[j])
  }

  /**
    The team-resolution loop of `useIamContext`: every member id is replaced by the first user
    with that id, teams and members keeping their order; the first id, in file order, that
    names no user fails the whole load.
   */
  method ResolveTeams(users: seq<User>, entries: seq<TeamEntry>) returns (r: Result<seq<Team>, Errors.Error>)
    ensures r.Ok? <==> Resolvable(users, entries)
    ensures r.Ok? ==> |r.value| == |entries| && forall i :: 0 <= i < |entries| ==> ResolvedAs(users, entries[i], r.value[i])
    ensures r.Err? ==> exists i, j :: FirstDangling(users, entries, i, j)
                        && r.error == Errors.DanglingTeamMember(entries[i].title, entries[i].memberIds[j])
  {
    var resolved: seq<Team> := [];
    for i := 0 to |entries|
      invariant |resolved| == i
      invariant forall i' :: 0 <= i' < i ==> ResolvedAs(users, entries[i'], resolved[i'])
      invariant forall i', j' :: 0 <= i' < i && 0 <= j' < |entries[i'].memberIds| ==>
                  GetUserById(users, entries[i'].memberIds[j']).Some?
    {
      var team := entries[i];
      var members: seq<User> := [];
      for j := 0 to |team.memberIds|
        invariant |members| == j
        invariant forall j' :: 0 <= j' < j ==> GetUserById(users, team.memberIds[j']) == Some(members[j'])
      {
        var found := GetUserById(users, team.memberIds[j]);
        if found.None? {
          assert FirstDangling(users, entries, i, j);
          return Err(Errors.DanglingTeamMember(team.title, team.memberIds[j]));
        }
        members := members + [found.value];
      }
      resolved := resolved + [Team(team.id, team.title, team.github, members)];
    }
    return Ok(resolved);
  }

  /** At most one member can be the first dangling one: the reported error is determined by the input. */
  lemma FirstDanglingUnique(users: seq<User>, teams: seq<TeamEntry>, i1: int, j1: int, i2: int, j2: int)
    requires FirstDangling(users, teams, i1, j1) && FirstDangling(users, teams, i2, j2)
    ensures i1 == i2 && j1 == j2
  {
  }

  /**
    `useIamContext`, given the parsed files: the users and secrets as loaded, and the teams
    resolved, or the resolution error.
   */
  method UseIamContext(users: seq<User>, secrets: seq<Secret>, entries: seq<TeamEntry>)
    returns (r: Result<IamContext, Errors.Error>)
    ensures r.Ok? <==> Resolvable(users, entries)
    ensures r.Ok? ==> r.value.users == users && r.value.secrets == secrets && |r.value.teams| == |entries|
    ensures r.Ok? ==> forall i :: 0 <= i < |entries| ==> ResolvedAs(users, entries[i], r.value.teams[i])
    ensures r.Err? ==> exists i, j :: FirstDangling(users, entries, i, j)
                        && r.error == Errors.DanglingTeamMember(entries[i].title, entries[i].memberIds[j])
  {
    var teams := ResolveTeams(users, entries);
    match teams
    case Err(e) => return Err(e);
    case Ok(ts) => return Ok(IamContext(users, ts, secrets));
  }
}

=== FILE: load_balancer.dfy ===
/**
  The global HTTPS load balancer, `useLoadBalancer` and `useCertificateWithLoadBalancer` in
  src/gcp/load-balancer.ts.

  For every service and then every redirect the builder derives a per-environment hostname,
  declares a CNAME record to the IP alias, a managed certificate and a certificate-map entry,
  and appends one host rule and one path matcher to the URL map. The URL map, the HTTPS proxy
  and forwarding rule, and the HTTP-to-HTTPS redirect chain follow.

  Services and redirects derive their hostnames differently, and the code is modelled as
  written: a service `@` means the zone apex (`env.zone` outside production), a redirect has
  no such case, and a redirect's DNS record name is its computed subdomain as it is.
 */
module LoadBalancer {
  import opened Wrappers
  import opened Strings
  import opened Resources
  import Seqs
  import Env
  import Context
  import Zone
  import Description

  /** A hostname served by a backend; `backend` is the identity of the backend service or bucket. */
  datatype Service = Service(subdomain: string, zone: Zone.CloudflareZone, backend: string)

  /** A hostname redirected to `target`. */
  datatype Redirect = Redirect(subdomain: string, zone: Zone.CloudflareZone, target: string)

  /** The arguments of `useLoadBalancer`; `ip` is the identity of the global address. */
  datatype Args = Args(services: seq<Service>, redirects: Option<seq<Redirect>>, defaultDomain: string,
                       ipAlias: string, ip: string, id: Option<string>)

  const PrimaryId: string := "primary"

  /** `HttpRedirectActionRedirectResponseCode.SeeOther`. */
  const SeeOther: string := "SEE_OTHER"

  /** `GlobalForwardingRuleLoadBalancingScheme.ExternalManaged`. */
  const ExternalManaged: string := "EXTERNAL_MANAGED"

  const CertificateManagerPrefix: string := "//certificatemanager.googleapis.com/"

  /** What the loops derive for one service or redirect. */
  datatype Host = Host(zone: Zone.CloudflareZone, subdomain: string, fqdn: string, recordName: string,
                       pathName: string, action: RouteAction)

  /** `subdomain === '' ? zone : subdomain.zone`. */
  function Fqdn(subdomain: string, zone: string): (f: string)
    ensures subdomain == "" ==> f == zone
    ensures subdomain != "" ==> f == subdomain + "." + zone
  {
    if subdomain == "" then zone else subdomain + "." + zone
  }

  /** With the subdomain fixed, the fully qualified name determines the zone. */
  lemma FqdnZoneInjective(subdomain: string, zone1: string, zone2: string)
    ensures Fqdn(subdomain, zone1) == Fqdn(subdomain, zone2) <==> zone1 == zone2
  {
    if subdomain != "" && Fqdn(subdomain, zone1) == Fqdn(subdomain, zone2) {
      assert Fqdn(subdomain, zone1)[|subdomain| + 1..] == zone1;
      assert Fqdn(subdomain, zone2)[|subdomain| + 1..] == zone2;
    }
  }

  /** A service's subdomain: `@` takes the bare environment, anything else gets `.env` appended. */
  function ServiceSubdomain(env: string, sub: string): string {
    if sub == Zone.Apex then Env.Suffix(env, "", false) else sub + Env.Suffix(env, ".", false)
  }

  /** A redirect's subdomain: `.env` appended, with no special case for `@`. */
  function RedirectSubdomain(env: string, sub: string): string {
    sub + Env.Suffix(env, ".", false)
  }

  /**
    The host of a service. `@` is the zone apex in production and `env.zone` elsewhere; any
    other subdomain is `sub.zone` in production and `sub.env.zone` elsewhere. The DNS record
    is `@` exactly when the computed subdomain is empty, and the path matcher is `root` for
    `@` and the raw subdomain otherwise.
   */
  function ServiceHost(env: string, s: Service): (h: Host)
    ensures h.zone == s.zone && h.subdomain == ServiceSubdomain(env, s.subdomain)
    ensures s.subdomain == Zone.Apex && env == Env.Prod ==> h.fqdn == s.zone.name && h.recordName == Zone.Apex
    ensures s.subdomain == Zone.Apex && env != Env.Prod && env != ""
            ==> h.fqdn == env + "." + s.zone.name && h.recordName == env
    ensures s.subdomain != Zone.Apex && s.subdomain != "" && env == Env.Prod
            ==> h.fqdn == s.subdomain + "." + s.zone.name && h.recordName == s.subdomain
    ensures s.subdomain != Zone.Apex && env != Env.Prod
            ==> h.fqdn == s.subdomain + "." + env + "." + s.zone.name && h.recordName == s.subdomain + "." + env
    ensures h.subdomain == "" ==> h.recordName == Zone.Apex
    ensures h.subdomain != "" ==> h.recordName == h.subdomain
    ensures h.fqdn == Fqdn(h.subdomain, s.zone.name)
    ensures h.pathName == (if s.subdomain == Zone.Apex then "root" else s.subdomain)
    ensures h.action == ToBackend(Output(s.backend, "id"))
  {
    var subdomain := ServiceSubdomain(env, s.subdomain);
    var h := Host(s.zone, subdomain, Fqdn(subdomain, s.zone.name),
                  if subdomain == "" then Zone.Apex else subdomain,
                  if s.subdomain == Zone.Apex then "root" else s.subdomain,
                  ToBackend(Output(s.backend, "id")));
    if s.subdomain != Zone.Apex && env != Env.Prod then
      assert subdomain == s.subdomain + "." + env;
      assert subdomain[|s.subdomain|] == '.';
      h
    else h
  }

  /**
    The host of a redirect: `sub.zone` in production and `sub.env.zone` elsewhere, the bare
    zone only when the computed subdomain is empty. The DNS record name is that subdomain,
    and the path matcher is the raw subdomain; the matcher redirects to the target with a 303.
   */
  function RedirectHost(env: string, r: Redirect): (h: Host)
    ensures h.zone == r.zone && h.subdomain == RedirectSubdomain(env, r.subdomain)
    ensures env == Env.Prod ==> h.subdomain == r.subdomain
    ensures env != Env.Prod ==> h.subdomain == r.subdomain + "." + env
    ensures h.fqdn == Fqdn(h.subdomain, r.zone.name)
    ensures h.recordName == h.subdomain
    ensures h.pathName == r.subdomain
    ensures h.action == RedirectTo(UrlRedirect(r.target, false, SeeOther))
  {
    var subdomain := RedirectSubdomain(env, r.subdomain);
    Host(r.zone, subdomain, Fqdn(subdomain, r.zone.name), subdomain, r.subdomain,
         RedirectTo(UrlRedirect(r.target, false, SeeOther)))
  }

  /**
    A service's DNS record resolves the name its certificate and host rule use, except in the
    one environment literally named `@`.
   */
  lemma ServiceRecordMatchesHost(env: string, s: Service)
    ensures var h := ServiceHost(env, s);
            (Zone.RecordFullName(s.zone.name, h.recordName) == h.fqdn
             <==> !(s.subdomain == Zone.Apex && env == Zone.Apex))
  {
    var h := ServiceHost(env, s);
    if s.subdomain != Zone.Apex && env != Env.Prod {
      assert h.recordName[|s.subdomain|] == '.';
    }
  }

  /**
    A redirect's DNS record resolves the name its certificate and host rule use unless, in
    production, the redirect's subdomain is empty (the record becomes `.zone`) or `@` (the
    record becomes the apex while the host rule and certificate use `@.zone`).
   */
  lemma RedirectRecordMatchesHost(env: string, r: Redirect)
    ensures var h := RedirectHost(env, r);
            (Zone.RecordFullName(r.zone.name, h.recordName) == h.fqdn
             <==> !(env == Env.Prod && (r.subdomain == "" || r.subdomain == Zone.Apex)))
  {
    var h := RedirectHost(env, r);
    if env != Env.Prod {
      assert h.subdomain[|r.subdomain|] == '.';
      assert h.subdomain != "" && h.subdomain != Zone.Apex;
    } else if r.subdomain == "" {
      assert Zone.RecordFullName(r.zone.name, h.recordName) == "." + r.zone.name;
      assert |"." + r.zone.name| != |r.zone.name|;
    }
  }

  /** The asymmetry on one zone in production: a service `@` is the apex, a redirect `@` is `@.zone` on an apex record. */
  lemma ApexAsymmetry(zone: Zone.CloudflareZone, backend: string, target: string)
    ensures ServiceHost(Env.Prod, Service(Zone.Apex, zone, backend)).fqdn == zone.name
    ensures RedirectHost(Env.Prod, Redirect(Zone.Apex, zone, target)).fqdn == "@." + zone.name
    ensures Zone.RecordFullName(zone.name, RedirectHost(Env.Prod, Redirect(Zone.Apex, zone, target)).recordName) == zone.name
  {
  }

  /** All hosts: services first, then redirects, each in input order. */
  function Hosts(env: string, services: seq<Service>, redirects: seq<Redirect>): (hs: seq<Host>)
    ensures |hs| == |services| + |redirects|
    ensures forall k :: 0 <= k < |services| ==> hs[k] == ServiceHost(env, services[k])
    ensures forall k :: 0 <= k < |redirects| ==> hs[|services| + k] == RedirectHost(env, redirects[k])
  {
    Seqs.Map((s: Service) => ServiceHost(env, s), services)
      + Seqs.Map((r: Redirect) => RedirectHost(env, r), redirects)
  }

  function HostRules(hs: seq<Host>): (rules: seq<HostRule>)
    ensures |rules| == |hs|
    ensures forall k :: 0 <= k < |hs| ==> rules[k] == HostRule([hs[k].fqdn], hs[k].pathName)
  {
    Seqs.Map((h: Host) => HostRule([h.fqdn], h.pathName), hs)
  }

  function PathMatchers(hs: seq<Host>): (ms: seq<PathMatcher>)
    ensures |ms| == |hs|
    ensures forall k :: 0 <= k < |hs| ==> ms[k] == PathMatcher(hs[k].pathName, hs[k].action)
  {
    Seqs.Map((h: Host) => PathMatcher(h.pathName, h.action), hs)
  }

  /**
    The URL map's ignored properties: always `fingerprint`, and the routes themselves exactly
    when there are no services, whatever the redirects.
   */
  function UrlMapIgnores(services: seq<Service>): (ig: seq<string>)
    ensures |ig| >= 1 && ig[0] == "fingerprint"
    ensures "hostRules" in ig <==> |services| == 0
    ensures "pathMatchers" in ig <==> |services| == 0
    ensures forall k :: 0 <= k < |ig| ==> ig[k] in ["fingerprint", "hostRules", "pathMatchers"]
  {
    ["fingerprint"] + (if |services| == 0 then ["hostRules", "pathMatchers"] else [])
  }

  /** Proxy and forwarding-rule names: the bare protocol for the primary endpoint, `id-protocol` otherwise. */
  function ProxyName(id: string, protocol: string): (n: string)
    ensures id == PrimaryId ==> n == protocol
    ensures id != PrimaryId ==> n == id + "-" + protocol
  {
    if id == PrimaryId then protocol else id + "-" + protocol
  }

  /** Distinct endpoint ids get distinct proxy names, and the two protocols never share one. */
  lemma ProxyNamesDistinct(id1: string, id2: string)
    ensures ProxyName(id1, "https") == ProxyName(id2, "https") <==> id1 == id2
    ensures ProxyName(id1, "http") == ProxyName(id2, "http") <==> id1 == id2
    ensures ProxyName(id1, "https") != ProxyName(id2, "http")
  {
    if id1 != PrimaryId && id2 != PrimaryId {
      var s1, s2 := ProxyName(id1, "https"), ProxyName(id2, "https");
      var t1, t2 := ProxyName(id1, "http"), ProxyName(id2, "http");
      assert s1 == s2 ==> id1 == s1[..|id1|] && id2 == s2[..|id2|];
      assert t1 == t2 ==> id1 == t1[..|id1|] && id2 == t2[..|id2|];
      assert s1[|s1| - 1] == 's' && t2[|t2| - 1] == 'p';
    } else if id1 == PrimaryId && id2 != PrimaryId {
      assert ProxyName(id2, "http")[|id2|] == '-';
    }
  }

  /** `domainName.replace(/\./g, '-')`: the certificate id and the map-entry id. */
  function SafeDomainName(domain: string): (r: string)
    ensures |r| == |domain| && '.' !in r
  {
    ReplaceChar(domain, '.', '-')
  }

  /** Services with the same subdomain get the same hostname exactly when their zones have the same name. */
  lemma ServiceHostsPerZone(env: string, s1: Service, s2: Service)
    requires s1.subdomain == s2.subdomain
    ensures ServiceHost(env, s1).fqdn == ServiceHost(env, s2).fqdn <==> s1.zone.name == s2.zone.name
  {
    FqdnZoneInjective(ServiceSubdomain(env, s1.subdomain), s1.zone.name, s2.zone.name);
  }

  /** Redirects with the same subdomain get the same hostname exactly when their zones have the same name. */
  lemma RedirectHostsPerZone(env: string, r1: Redirect, r2: Redirect)
    requires r1.subdomain == r2.subdomain
    ensures RedirectHost(env, r1).fqdn == RedirectHost(env, r2).fqdn <==> r1.zone.name == r2.zone.name
  {
    FqdnZoneInjective(RedirectSubdomain(env, r1.subdomain), r1.zone.name, r2.zone.name);
  }

  /** Replacing dots can merge distinct hostnames onto one certificate id. */
  lemma SafeDomainNamesMayCollide()
    ensures SafeDomainName("a-b.c") == SafeDomainName("a.b-c")
    ensures "a-b.c" != "a.b-c"
  {
    assert SafeDomainName("a-b.c") == "a-b-c";
    assert SafeDomainName("a.b-c") == "a-b-c";
  }

  /** For hostnames without dashes the replacement is undone by turning dashes back into dots. */
  lemma SafeDomainNameInvertible(domain: string)
    requires '-' !in domain
    ensures ReplaceChar(SafeDomainName(domain), '-', '.') == domain
  {
    ReplaceCharInverse(domain, '.', '-');
  }

  /** The certificate and its map entry for one hostname. */
  datatype CertificateDecls = CertificateDecls(certificate: Decl, entry: Decl)

  /**
    `useCertificateWithLoadBalancer`: a managed certificate for exactly the hostname, keyed by
    its dotless form and ignoring changes to `managed`, and a certificate-map entry for the
    dotted hostname that reads the certificate's name.
   */
  function UseCertificateWithLoadBalancer(c: Context.Ctx, domainName: string, certMapName: string): (r: CertificateDecls)
    ensures r.certificate.identity == Context.Rn(c, ["net", "gcp", "cert", domainName])
    ensures r.certificate.spec.Certificate?
    ensures r.certificate.spec.certificateId == SafeDomainName(domainName)
    ensures r.certificate.spec.name == "projects/" + c.gcp.project + "/locations/global/certificates/" + SafeDomainName(domainName)
    ensures r.certificate.spec.managedDomains == [domainName]
    ensures r.certificate.spec.location == "global"
    ensures r.certificate.options == Ignoring(["managed"])
    ensures r.entry.identity == Context.Rn(c, ["net", "gcp", "certmap", certMapName, domainName])
    ensures r.entry.spec.CertificateMapEntry?
    ensures r.entry.spec.certificateMapEntryId == SafeDomainName(domainName)
    ensures r.entry.spec.name == certMapName + "/certificateMapEntries/" + SafeDomainName(domainName)
    ensures r.entry.spec.certificateMapId == certMapName
    ensures r.entry.spec.certificates == [Output(r.certificate.identity, "name")]
    ensures r.entry.spec.hostname == domainName
    ensures r.entry.options == NoOptions
    ensures r.certificate.spec.description == Description.ManagedByDescription(c)
    ensures r.entry.spec.location == "global"
    ensures r.entry.spec.description == Description.ManagedByDescription(c)
  {
    var safe := SafeDomainName(domainName);
    var description := Description.ManagedByDescription(c);
    var certId := Context.Rn(c, ["net", "gcp", "cert", domainName]);
    var cert := Decl(certId,
      Certificate(safe, "global", "projects/" + c.gcp.project + "/locations/global/certificates/" + safe,
                  description, [domainName]),
      Ignoring(["managed"]));
    var entry := Decl(Context.Rn(c, ["net", "gcp", "certmap", certMapName, domainName]),
      CertificateMapEntry(safe, "global", certMapName + "/certificateMapEntries/" + safe, certMapName,
                          [Output(certId, "name")], domainName, description),
      NoOptions);
    CertificateDecls(cert, entry)
  }

  /** The three declarations made for one host, in order. */
  datatype HostDecls = HostDecls(dns: Decl, certificate: Decl, entry: Decl)

  function UseHost(c: Context.Ctx, certMapName: string, ipAlias: string, h: Host): (d: HostDecls)
    ensures d.dns == Zone.UseDnsRecord(c, h.zone, "CNAME", h.recordName, Lit(ipAlias), None)
    ensures d.certificate == UseCertificateWithLoadBalancer(c, h.fqdn, certMapName).certificate
    ensures d.entry == UseCertificateWithLoadBalancer(c, h.fqdn, certMapName).entry
  {
    var cert := UseCertificateWithLoadBalancer(c, h.fqdn, certMapName);
    HostDecls(Zone.UseDnsRecord(c, h.zone, "CNAME", h.recordName, Lit(ipAlias), None), cert.certificate, cert.entry)
  }

  /** The certificate map, named after the endpoint id. */
  function CertMapDecl(c: Context.Ctx, id: string): (d: Decl)
    ensures d.identity == Context.Rn(c, ["net", "gcp", "certmap", id])
    ensures d.spec.CertificateMap? && d.spec.certificateMapId == id && d.spec.location == "global"
    ensures d.spec.name == "projects/" + c.gcp.project + "/locations/global/certificateMaps/" + id
    ensures Needs(d) == {}
    ensures d.spec.description == Description.ManagedByDescription(c)
    ensures d.options == NoOptions
  {
    Decl(Context.Rn(c, ["net", "gcp", "certmap", id]),
         CertificateMap("projects/" + c.gcp.project + "/locations/global/certificateMaps/" + id,
                        Description.ManagedByDescription(c), "global", id),
         NoOptions)
  }

  /**
    The URL map: unmatched hosts redirect to the default domain with a 303; host rule `k`
    names path matcher `k`; the first rules are the services in input order, each routed to
    its backend, the rest the redirects in input order, each redirected to its target with
    a 303 and the query kept.
   */
  function UrlMapDecl(c: Context.Ctx, id: string, services: seq<Service>, redirects: seq<Redirect>,
                      defaultDomain: string): (d: Decl)
    ensures d.identity == Context.Rn(c, ["net", "gcp", "urlmap", id])
    ensures d.spec.UrlMap? && d.spec.name == Context.Srn(c, ["urlmap", id])
    ensures d.spec.defaultUrlRedirect == UrlRedirect(defaultDomain, false, SeeOther)
    ensures |d.spec.hostRules| == |d.spec.pathMatchers| == |services| + |redirects|
    ensures forall k :: 0 <= k < |d.spec.hostRules| ==> d.spec.hostRules[k].pathMatcher == d.spec.pathMatchers[k].name
    ensures forall k :: 0 <= k < |services| ==>
              && d.spec.hostRules[k].hosts == [ServiceHost(c.env, services[k]).fqdn]
              && d.spec.pathMatchers[k].name == ServiceHost(c.env, services[k]).pathName
              && d.spec.pathMatchers[k].action == ToBackend(Output(services[k].backend, "id"))
    ensures forall k :: 0 <= k < |redirects| ==>
              && d.spec.hostRules[|services| + k].hosts == [RedirectHost(c.env, redirects[k]).fqdn]
              && d.spec.pathMatchers[|services| + k].name == redirects[k].subdomain
              && d.spec.pathMatchers[|services| + k].action == RedirectTo(UrlRedirect(redirects[k].target, false, SeeOther))
    ensures d.options == Ignoring(UrlMapIgnores(services))
    ensures d.spec.description == Description.ManagedByDescription(c)
  {
    var hs := Hosts(c.env, services, redirects);
    Decl(Context.Rn(c, ["net", "gcp", "urlmap", id]),
         UrlMap(Context.Srn(c, ["urlmap", id]), Description.ManagedByDescription(c),
                UrlRedirect(defaultDomain, false, SeeOther), HostRules(hs), PathMatchers(hs)),
         Ignoring(UrlMapIgnores(services)))
  }

  /** The HTTPS proxy: reads the URL map's id and the certificate map's name, as a Certificate Manager URL. */
  function HttpsProxyDecl(c: Context.Ctx, id: string, urlMapId: string, certMapId: string): (d: Decl)
    ensures d.identity == Context.Rn(c, ["net", "gcp", "proxy", ProxyName(id, "https")])
    ensures d.spec.TargetHttpsProxy? && d.spec.name == Context.Srn(c, [ProxyName(id, "https"), "proxy"])
    ensures d.spec.urlMap == Output(urlMapId, "id")
    ensures d.spec.certificateMap == Out(CertificateManagerPrefix, Ref(certMapId, "name"), "")
    ensures Needs(d) == {urlMapId, certMapId}
    ensures d.spec.description == Description.ManagedByDescription(c)
    ensures d.options == NoOptions
  {
    Decl(Context.Rn(c, ["net", "gcp", "proxy", ProxyName(id, "https")]),
         TargetHttpsProxy(Context.Srn(c, [ProxyName(id, "https"), "proxy"]), Description.ManagedByDescription(c),
                          Output(urlMapId, "id"), Out(CertificateManagerPrefix, Ref(certMapId, "name"), "")),
         NoOptions)
  }

  /** The HTTP URL map: it only redirects to HTTPS, keeping the query. */
  function HttpUrlMapDecl(c: Context.Ctx, id: string): (d: Decl)
    ensures d.identity == Context.Rn(c, ["net", "gcp", "urlmap", id + "-http"])
    ensures d.spec.HttpsRedirectUrlMap? && d.spec.name == Context.Srn(c, ["urlmap", id + "-http"])
    ensures d.spec.httpsRedirect && !d.spec.stripQuery
    ensures Needs(d) == {}
    ensures d.spec.description == Description.ManagedByDescription(c)
    ensures d.options == NoOptions
  {
    Decl(Context.Rn(c, ["net", "gcp", "urlmap", id + "-http"]),
         HttpsRedirectUrlMap(Context.Srn(c, ["urlmap", id + "-http"]), Description.ManagedByDescription(c), true, false),
         NoOptions)
  }

  /** The HTTP proxy, reading the HTTP URL map's id. */
  function HttpProxyDecl(c: Context.Ctx, id: string, httpUrlMapId: string): (d: Decl)
    ensures d.identity == Context.Rn(c, ["net", "gcp", "proxy", ProxyName(id, "http")])
    ensures d.spec.TargetHttpProxy? && d.spec.name == Context.Srn(c, [ProxyName(id, "http"), "proxy"])
    ensures d.spec.urlMap == Output(httpUrlMapId, "id")
    ensures Needs(d) == {httpUrlMapId}
    ensures d.spec.description == Description.ManagedByDescription(c)
    ensures d.options == NoOptions
  {
    Decl(Context.Rn(c, ["net", "gcp", "proxy", ProxyName(id, "http")]),
         TargetHttpProxy(Context.Srn(c, [ProxyName(id, "http"), "proxy"]), Description.ManagedByDescription(c),
                         Output(httpUrlMapId, "id")),
         NoOptions)
  }

  /** A forwarding rule for `proxyName`: the proxy's id as target, the address's id, one port. */
  function ForwardingDecl(c: Context.Ctx, proxyName: string, proxyId: string, ip: string, port: string): (d: Decl)
    ensures d.identity == Context.Rn(c, ["net", "gcp", "fwd", proxyName])
    ensures d.spec.GlobalForwardingRule? && d.spec.name == Context.Srn(c, [proxyName, "fwd"])
    ensures d.spec.loadBalancingScheme == ExternalManaged
    ensures d.spec.target == Output(proxyId, "id") && d.spec.ipAddress == Output(ip, "id")
    ensures d.spec.portRange == port
    ensures Needs(d) == {proxyId, ip}
    ensures d.spec.description == Description.ManagedByDescription(c)
    ensures d.options == NoOptions
  {
    Decl(Context.Rn(c, ["net", "gcp", "fwd", proxyName]),
         GlobalForwardingRule(Context.Srn(c, [proxyName, "fwd"]), Description.ManagedByDescription(c), ExternalManaged,
                              Output(proxyId, "id"), Output(ip, "id"), port),
         NoOptions)
  }

  /** The record, certificate and map entry of every host, in host order. */
  function HostDeclarations(c: Context.Ctx, certMapName: string, ipAlias: string, hs: seq<Host>): (ds: seq<HostDecls>)
    ensures |ds| == |hs|
    ensures forall k :: 0 <= k < |hs| ==> ds[k] == UseHost(c, certMapName, ipAlias, hs[k])
  {
    Seqs.Map((h: Host) => UseHost(c, certMapName, ipAlias, h), hs)
  }

  /** Everything `useLoadBalancer` declares, by role. */
  datatype Endpoint = Endpoint(certMap: Decl, hosts: seq<HostDecls>, urlMap: Decl,
                               httpsProxy: Decl, httpsForwarding: Decl,
                               httpUrlMap: Decl, httpProxy: Decl, httpForwarding: Decl)

  /**
    `useLoadBalancer`, with `id` defaulting to `primary` and the redirects to none: the
    certificate map, one record, certificate and map entry per host (services, then
    redirects), the URL map, the HTTPS proxy and its rule on port 443, and the HTTP URL map,
    proxy and rule on port 80, both rules on the same address.
   */
  function UseLoadBalancer(c: Context.Ctx, args: Args): (e: Endpoint)
    ensures var id := args.id.GetOr(PrimaryId);
            && e.certMap == CertMapDecl(c, id)
            && e.urlMap == UrlMapDecl(c, id, args.services, args.redirects.GetOr([]), args.defaultDomain)
            && e.httpsProxy == HttpsProxyDecl(c, id, e.urlMap.identity, e.certMap.identity)
            && e.httpsForwarding == ForwardingDecl(c, ProxyName(id, "https"), e.httpsProxy.identity, args.ip, "443")
            && e.httpUrlMap == HttpUrlMapDecl(c, id)
            && e.httpProxy == HttpProxyDecl(c, id, e.httpUrlMap.identity)
            && e.httpForwarding == ForwardingDecl(c, ProxyName(id, "http"), e.httpProxy.identity, args.ip, "80")
    ensures e.hosts == HostDeclarations(c, args.id.GetOr(PrimaryId), args.ipAlias,
                                        Hosts(c.env, args.services, args.redirects.GetOr([])))
  {
    var id := args.id.GetOr(PrimaryId);
    var hs := Hosts(c.env, args.services, args.redirects.GetOr([]));
    var certMap := CertMapDecl(c, id);
    var urlMap := UrlMapDecl(c, id, args.services, args.redirects.GetOr([]), args.defaultDomain);
    var proxy := HttpsProxyDecl(c, id, urlMap.identity, certMap.identity);
    var httpUrlMap := HttpUrlMapDecl(c, id);
    var httpProxy := HttpProxyDecl(c, id, httpUrlMap.identity);
    Endpoint(certMap, HostDeclarations(c, id, args.ipAlias, hs), urlMap,
             proxy, ForwardingDecl(c, ProxyName(id, "https"), proxy.identity, args.ip, "443"),
             httpUrlMap, httpProxy, ForwardingDecl(c, ProxyName(id, "http"), httpProxy.identity, args.ip, "80"))
  }

  /** Both forwarding rules listen on the same address, HTTPS on 443 and HTTP on 80. */
  lemma ForwardingRulesShareAddress(c: Context.Ctx, args: Args)
    ensures var e := UseLoadBalancer(c, args);
            && e.httpsForwarding.spec.ipAddress == e.httpForwarding.spec.ipAddress == Output(args.ip, "id")
            && e.httpsForwarding.spec.portRange == "443" && e.httpForwarding.spec.portRange == "80"
            && e.httpsForwarding.spec.target == Output(e.httpsProxy.identity, "id")
            && e.httpForwarding.spec.target == Output(e.httpProxy.identity, "id")
  {
  }

  /** The per-host declarations in order: record, certificate, entry for each host. */
  function HostSequence(hs: seq<HostDecls>): (ds: seq<Decl>)
    decreases |hs|
  {
    if |hs| == 0 then [] else [hs[0].dns, hs[0].certificate, hs[0].entry] + HostSequence(hs[1..])
  }

  /** The declarations of an endpoint in the order the source creates them. */
  function Declarations(e: Endpoint): seq<Decl> {
    Head(e) + RoutingOf(e)
  }

  /** The certificate map, then the record, certificate and map entry of each host. */
  function Head(e: Endpoint): seq<Decl> {
    [e.certMap] + HostSequence(e.hosts)
  }

  /** The routing resources of an endpoint: the HTTPS chain, then the HTTP chain. */
  function RoutingOf(e: Endpoint): seq<Decl> {
    [e.urlMap, e.httpsProxy, e.httpsForwarding] + [e.httpUrlMap, e.httpProxy, e.httpForwarding]
  }

  lemma {:induction false} HostSequenceAt(hs: seq<HostDecls>)
    ensures |HostSequence(hs)| == 3 * |hs|
    ensures forall k :: 0 <= k < |hs| ==>
              HostSequence(hs)[3 * k] == hs[k].dns
              && HostSequence(hs)[3 * k + 1] == hs[k].certificate
              && HostSequence(hs)[3 * k + 2] == hs[k].entry
    decreases |hs|
  {
    if |hs| > 0 {
      HostSequenceAt(hs[1..]);
      var ds := HostSequence(hs);
      forall k | 1 <= k < |hs|
        ensures ds[3 * k] == hs[k].dns && ds[3 * k + 1] == hs[k].certificate && ds[3 * k + 2] == hs[k].entry
      {
        assert hs[1..][k - 1] == hs[k];
        assert ds[3 * k] == HostSequence(hs[1..])[3 * (k - 1)];
        assert ds[3 * k + 1] == HostSequence(hs[1..])[3 * (k - 1) + 1];
        assert ds[3 * k + 2] == HostSequence(hs[1..])[3 * (k - 1) + 2];
      }
    }
  }

  /**
    Creation order: the certificate map first, then for host `k` its record, certificate
    and map entry at positions `3k+1`, `3k+2`, `3k+3`, then the six routing resources.
   */
  lemma DeclarationOrder(e: Endpoint)
    ensures var ds := Declarations(e);
            && |ds| == 7 + 3 * |e.hosts|
            && ds[0] == e.certMap
            && (forall k :: 0 <= k < |e.hosts| ==>
                  ds[3 * k + 1] == e.hosts[k].dns && ds[3 * k + 2] == e.hosts[k].certificate
                  && ds[3 * k + 3] == e.hosts[k].entry)
            && ds[|ds| - 6..] == [e.urlMap, e.httpsProxy, e.httpsForwarding, e.httpUrlMap, e.httpProxy, e.httpForwarding]
  {
    HostSequenceAt(e.hosts);
    var ds := Declarations(e);
    var mid := HostSequence(e.hosts);
    forall k | 0 <= k < |e.hosts|
      ensures ds[3 * k + 1] == e.hosts[k].dns && ds[3 * k + 2] == e.hosts[k].certificate
              && ds[3 * k + 3] == e.hosts[k].entry
    {
      assert ds[3 * k + 1] == mid[3 * k];
      assert ds[3 * k + 2] == mid[3 * k + 1];
      assert ds[3 * k + 3] == mid[3 * k + 2];
    }
  }

  /** The backends the services route to. */
  function Backends(services: seq<Service>): set<string> {
    set k | 0 <= k < |services| :: services[k].backend
  }

  lemma {:induction false} MatchersReadBackends(ms: seq<PathMatcher>, backends: set<string>)
    requires forall k :: 0 <= k < |ms| ==> ActionOwners(ms[k].action) <= backends
    ensures MatchersOwners(ms) <= backends
    decreases |ms|
  {
    if |ms| > 0 {
      MatchersReadBackends(ms[1..], backends);
    }
  }

  /** Each host's path matcher reads at most its service's backend; redirects read nothing. */
  lemma HostsReadBackends(env: string, services: seq<Service>, redirects: seq<Redirect>)
    ensures var ms := PathMatchers(Hosts(env, services, redirects));
            forall k :: 0 <= k < |ms| ==> ActionOwners(ms[k].action) <= Backends(services)
  {
    var ms := PathMatchers(Hosts(env, services, redirects));
    forall k | 0 <= k < |ms|
      ensures ActionOwners(ms[k].action) <= Backends(services)
    {
      if k < |services| {
        assert services[k].backend in Backends(services);
      } else {
        assert ms[k].action == RedirectTo(UrlRedirect(redirects[k - |services|].target, false, SeeOther));
      }
    }
  }

  /** The URL map reads only the services' backends. */
  lemma UrlMapReadsBackends(c: Context.Ctx, id: string, services: seq<Service>, redirects: seq<Redirect>,
                            defaultDomain: string)
    ensures Needs(UrlMapDecl(c, id, services, redirects, defaultDomain)) <= Backends(services)
  {
    var ms := PathMatchers(Hosts(c.env, services, redirects));
    HostsReadBackends(c.env, services, redirects);
    MatchersReadBackends(ms, Backends(services));
  }

  /** The certificate map entry comes after the certificate it reads. */
  lemma CertificateWellOrdered(c: Context.Ctx, domainName: string, certMapName: string, scope: set<string>)
    ensures var r := UseCertificateWithLoadBalancer(c, domainName, certMapName);
            WellOrdered([r.certificate, r.entry], scope)
  {
    var r := UseCertificateWithLoadBalancer(c, domainName, certMapName);
    assert Needs(r.entry) == {r.certificate.identity} by {
      assert ValuesOwners(r.entry.spec.certificates[1..]) == {};
    }
    WellOrderedCons(r.entry, [], scope + {r.certificate.identity});
    WellOrderedCons(r.certificate, [r.entry], scope);
  }

  /** The three declarations of one host: the entry reads the certificate declared just before it. */
  lemma HostDeclsWellOrdered(c: Context.Ctx, certMapName: string, ipAlias: string, h: Host, scope: set<string>)
    ensures var d := UseHost(c, certMapName, ipAlias, h);
            WellOrdered([d.dns, d.certificate, d.entry], scope)
  {
    var d := UseHost(c, certMapName, ipAlias, h);
    assert Needs(d.entry) == {d.certificate.identity} by {
      assert ValuesOwners(d.entry.spec.certificates[1..]) == {};
    }
    var s1 := scope + {d.dns.identity};
    var s2 := s1 + {d.certificate.identity};
    WellOrderedCons(d.entry, [], s2);
    WellOrderedCons(d.certificate, [d.entry], s1);
    WellOrderedCons(d.dns, [d.certificate, d.entry], scope);
  }

  lemma {:induction false} HostSequenceWellOrdered(hs: seq<HostDecls>, c: Context.Ctx, certMapName: string,
                                                   ipAlias: string, hosts: seq<Host>, scope: set<string>)
    requires |hs| == |hosts|
    requires forall k :: 0 <= k < |hs| ==> hs[k] == UseHost(c, certMapName, ipAlias, hosts[k])
    ensures WellOrdered(HostSequence(hs), scope)
    decreases |hs|
  {
    if |hs| > 0 {
      var three := [hs[0].dns, hs[0].certificate, hs[0].entry];
      HostDeclsWellOrdered(c, certMapName, ipAlias, hosts[0], scope);
      HostSequenceWellOrdered(hs[1..], c, certMapName, ipAlias, hosts[1..], scope + Identities(three));
      WellOrderedAppend(three, HostSequence(hs[1..]), scope);
    }
  }

  /** The URL map, the HTTPS proxy and its forwarding rule on port 443, as built for endpoint `id`. */
  function HttpsRouting(c: Context.Ctx, id: string, services: seq<Service>, redirects: seq<Redirect>,
                        defaultDomain: string, ip: string): seq<Decl>
  {
    var urlMap := UrlMapDecl(c, id, services, redirects, defaultDomain);
    var proxy := HttpsProxyDecl(c, id, urlMap.identity, CertMapDecl(c, id).identity);
    [urlMap, proxy, ForwardingDecl(c, ProxyName(id, "https"), proxy.identity, ip, "443")]
  }

  /** The HTTP URL map, proxy and forwarding rule on port 80, as built for endpoint `id`. */
  function HttpRouting(c: Context.Ctx, id: string, ip: string): seq<Decl>
  {
    var httpUrlMap := HttpUrlMapDecl(c, id);
    var httpProxy := HttpProxyDecl(c, id, httpUrlMap.identity);
    [httpUrlMap, httpProxy, ForwardingDecl(c, ProxyName(id, "http"), httpProxy.identity, ip, "80")]
  }

  /**
    Once the certificate map, the address and the backends are in scope, the URL map, the
    HTTPS proxy and its rule each read only those and the ones before them.
   */
  lemma HttpsRoutingWellOrdered(c: Context.Ctx, id: string, services: seq<Service>, redirects: seq<Redirect>,
                                defaultDomain: string, ip: string, scope: set<string>)
    requires ip in scope && Backends(services) <= scope && CertMapDecl(c, id).identity in scope
    ensures WellOrdered(HttpsRouting(c, id, services, redirects, defaultDomain, ip), scope)
  {
    var r := HttpsRouting(c, id, services, redirects, defaultDomain, ip);
    UrlMapReadsBackends(c, id, services, redirects, defaultDomain);
    WellOrderedTriple(r[0], r[1], r[2], scope);
  }

  /** The HTTP chain needs only the address from outside. */
  lemma HttpRoutingWellOrdered(c: Context.Ctx, id: string, ip: string, scope: set<string>)
    requires ip in scope
    ensures WellOrdered(HttpRouting(c, id, ip), scope)
  {
    var r := HttpRouting(c, id, ip);
    WellOrderedTriple(r[0], r[1], r[2], scope);
  }

  /** The endpoint's routing resources are the two chains built for its id. */
  lemma EndpointRouting(c: Context.Ctx, args: Args)
    ensures var id := args.id.GetOr(PrimaryId);
            RoutingOf(UseLoadBalancer(c, args))
            == HttpsRouting(c, id, args.services, args.redirects.GetOr([]), args.defaultDomain, args.ip)
               + HttpRouting(c, id, args.ip)
  {
  }

  /**
    Every resource the load balancer declares reads only the address, the service backends,
    or resources declared before it: the certificate map precedes the proxy that uses it,
    each certificate precedes its map entry, the URL maps precede their proxies, and the
    proxies precede their forwarding rules.
   */
  lemma UseLoadBalancerWellOrdered(c: Context.Ctx, args: Args)
    ensures WellOrdered(Declarations(UseLoadBalancer(c, args)), {args.ip} + Backends(args.services))
  {
    var scope := {args.ip} + Backends(args.services);
    HeadWellOrdered(c, args, scope);
    EndpointRoutingWellOrdered(c, args, scope + Identities(Head(UseLoadBalancer(c, args))));
    EndpointWellOrdered(UseLoadBalancer(c, args), scope);
  }

  /** An endpoint whose head and routing are each well ordered is well ordered as a whole. */
  lemma EndpointWellOrdered(e: Endpoint, scope: set<string>)
    requires WellOrdered(Head(e), scope)
    requires WellOrdered(RoutingOf(e), scope + Identities(Head(e)))
    ensures WellOrdered(Declarations(e), scope)
  {
    WellOrderedAppend(Head(e), RoutingOf(e), scope);
  }

  /** The certificate map and the per-host declarations, with the map's identity then in scope. */
  lemma HeadWellOrdered(c: Context.Ctx, args: Args, scope: set<string>)
    ensures var e := UseLoadBalancer(c, args);
            WellOrdered(Head(e), scope) && e.certMap.identity in scope + Identities(Head(e))
  {
    var e := UseLoadBalancer(c, args);
    var id := args.id.GetOr(PrimaryId);
    var hs := Hosts(c.env, args.services, args.redirects.GetOr([]));
    var head := [e.certMap] + HostSequence(e.hosts);
    HostSequenceWellOrdered(e.hosts, c, id, args.ipAlias, hs, scope + {e.certMap.identity});
    WellOrderedCons(e.certMap, HostSequence(e.hosts), scope);
    assert head[0] == e.certMap;
  }

  /** The endpoint's routing resources, once the address, backends and certificate map are in scope. */
  lemma EndpointRoutingWellOrdered(c: Context.Ctx, args: Args, s0: set<string>)
    requires args.ip in s0 && Backends(args.services) <= s0
    requires CertMapDecl(c, args.id.GetOr(PrimaryId)).identity in s0
    ensures WellOrdered(RoutingOf(UseLoadBalancer(c, args)), s0)
  {
    var id := args.id.GetOr(PrimaryId);
    var https := HttpsRouting(c, id, args.services, args.redirects.GetOr([]), args.defaultDomain, args.ip);
    HttpsRoutingWellOrdered(c, id, args.services, args.redirects.GetOr([]), args.defaultDomain, args.ip, s0);
    HttpRoutingWellOrdered(c, id, args.ip, s0 + Identities(https));
    WellOrderedAppend(https, HttpRouting(c, id, args.ip), s0);
    EndpointRouting(c, args);
  }
}

=== FILE: project.dfy ===
/**
  Google Cloud projects (src/gcp/project.ts): the project with its enabled APIs, user role
  grants by e-mail, and the per-project user grants read from `gcp.yml`.
 */
module GcpProject {
  import opened Wrappers
  import opened Resources
  import Seqs
  import Strings
  import Context
  import ResourceNames
  import Errors
  import Iam
  import ServiceAccount

  /** `parentFolder` is the identity of a folder declared elsewhere; the project reads its name. */
  datatype Args = Args(id: string, name: string, billingAccountId: string, services: Option<seq<string>>,
                       parentOrg: Option<string>, parentFolder: Option<string>)

  /** The project and one service declaration per API, in the order given. */
  datatype ProjectDecls = ProjectDecls(project: Decl, services: seq<Decl>)

  const ApiDomain: string := ".googleapis.com"

  function ProjectIdentity(c: Context.Ctx, id: string): string {
    Context.Rn(c, ["root", "gcp", "project", id])
  }

  /** The folder id the project reads: the parent folder's `name` output, when there is a parent folder. */
  function FolderId(parentFolder: Option<string>): (v: Option<Value>)
    ensures v.Some? <==> parentFolder.Some?
    ensures v.Some? ==> v.value == Output(parentFolder.value, "name")
  {
    if parentFolder.Some? then Some(Output(parentFolder.value, "name")) else None
  }

  /** One enabled API: `<service>.googleapis.com`, disabling dependants with it, after the project. */
  function ServiceDecl(c: Context.Ctx, id: string, service: string): (d: Decl)
    ensures d.identity == Context.Rn(c, ["root", "gcp", "project", id, "service", service])
    ensures d.spec == ProjectService(id, service + ApiDomain, true)
    ensures d.options == DependsOn([ProjectIdentity(c, id)])
    ensures Needs(d) == {ProjectIdentity(c, id)}
  {
    var d := Decl(Context.Rn(c, ["root", "gcp", "project", id, "service", service]),
                  ProjectService(id, service + ApiDomain, true), DependsOn([ProjectIdentity(c, id)]));
    assert d.options.dependsOn[0] == ProjectIdentity(c, id);
    d
  }

  /**
    `useProject`: the project (under its folder or organisation, ignoring later organisation
    changes) and, for each service given (none by default), the API enabled on it.
   */
  function UseProject(c: Context.Ctx, args: Args): (r: ProjectDecls)
    ensures r.project.identity == ProjectIdentity(c, args.id)
    ensures r.project.spec == Project(args.id, args.name, args.billingAccountId, FolderId(args.parentFolder), args.parentOrg)
    ensures r.project.options == Ignoring(["orgId"])
    ensures |r.services| == |args.services.GetOr([])|
    ensures forall k :: 0 <= k < |r.services| ==> r.services[k] == ServiceDecl(c, args.id, args.services.GetOr([])[k])
  {
    ProjectDecls(
      Decl(ProjectIdentity(c, args.id),
           Project(args.id, args.name, args.billingAccountId, FolderId(args.parentFolder), args.parentOrg),
           Ignoring(["orgId"])),
      Seqs.Map((s: string) => ServiceDecl(c, args.id, s), args.services.GetOr([])))
  }

  /** The parent folder, if any, is the only thing outside the project that it needs. */
  function ParentScope(args: Args): set<string> {
    if args.parentFolder.Some? then {args.parentFolder.value} else {}
  }

  /** The project needs only its parent folder, and every API is enabled after the project. */
  lemma ProjectWellOrdered(c: Context.Ctx, args: Args)
    ensures var r := UseProject(c, args); WellOrdered([r.project] + r.services, ParentScope(args))
  {
    var r := UseProject(c, args);
    var scope := ParentScope(args);
    var id := ProjectIdentity(c, args.id);
    assert Needs(r.project) == scope;
    forall k | 0 <= k < |r.services|
      ensures Needs(r.services[k]) <= scope + {id}
    {
    }
    Resources.WellOrderedWhenScoped(r.services, scope + {id});
    WellOrderedCons(r.project, r.services, scope);
  }

  /** The API name gives the service back: strip the domain. */
  lemma ServiceNameRecoverable(c: Context.Ctx, id: string, service: string)
    ensures var api := ServiceDecl(c, id, service).spec.service;
      |api| >= |ApiDomain| && api[..|api| - |ApiDomain|] == service && api[|api| - |ApiDomain|..] == ApiDomain
  {
  }

  /** Distinct services free of `/` on one project get distinct identities. */
  lemma ServiceIdentitiesDistinct(c: Context.Ctx, id: string, s1: string, s2: string)
    requires '/' !in id && '/' !in s1 && '/' !in s2
    ensures ServiceDecl(c, id, s1).identity == ServiceDecl(c, id, s2).identity <==> s1 == s2
  {
    var p1 := ["root", "gcp", "project", id, "service", s1];
    var p2 := ["root", "gcp", "project", id, "service", s2];
    if Context.Rn(c, p1) == Context.Rn(c, p2) {
      assert forall k :: 0 <= k < |p1| ==> '/' !in p1[k];
      assert forall k :: 0 <= k < |p2| ==> '/' !in p2[k];
      ResourceNames.HierarchicalInjective(c.env, p1, p2);
      assert p1[5] == p2[5];
    }
  }

  // ---------------------------------------------------------------------------------------
  // grantUserRoles

  datatype GrantArgs = GrantArgs(roles: seq<string>, userEmail: string, project: string)

  /** `userEmail.split('@')[0]`: the local part of the address. */
  function LocalPart(email: string): (n: string)
    ensures n <= email && '@' !in n
  {
    Strings.FirstSegment(email, '@')
  }

  /** The local part of `name@domain` is `name`. */
  lemma LocalPartOf(name: string, domain: string)
    requires '@' !in name
    ensures LocalPart(name + "@" + domain) == name
  {
    Strings.FirstSegmentOf(name, domain, '@');
  }

  function UserRoleDecl(c: Context.Ctx, args: GrantArgs, role: string): (d: Decl)
    ensures d.identity == Context.Rn(c, ["iam", "gcp", "sa", args.project, LocalPart(args.userEmail), "role", role])
    ensures d.spec == ProjectIamMember(args.project, "roles/" + role, Lit("user:" + args.userEmail))
    ensures d.options == NoOptions && Needs(d) == {}
  {
    Decl(Context.Rn(c, ["iam", "gcp", "sa", args.project, LocalPart(args.userEmail), "role", role]),
         ProjectIamMember(args.project, "roles/" + role, Lit("user:" + args.userEmail)), NoOptions)
  }

  /** `grantUserRoles`: one project role binding per role, in order, for the user's address. */
  function GrantUserRoles(c: Context.Ctx, args: GrantArgs): (r: seq<Decl>)
    ensures |r| == |args.roles|
    ensures forall k :: 0 <= k < |r| ==> r[k] == UserRoleDecl(c, args, args.roles[k])
  {
    Seqs.Map((role: string) => UserRoleDecl(c, args, role), args.roles)
  }

  /**
    Grants for two addresses with the same local part share identities: `a@x.com` and
    `a@y.com` get the same role binding identities on one project.
   */
  lemma GrantsKeyedByLocalPart(c: Context.Ctx, args: GrantArgs, name: string, d1: string, d2: string)
    requires '@' !in name
    ensures var g1 := GrantUserRoles(c, args.(userEmail := name + "@" + d1));
            var g2 := GrantUserRoles(c, args.(userEmail := name + "@" + d2));
            forall k :: 0 <= k < |args.roles| ==> g1[k].identity == g2[k].identity
  {
    LocalPartOf(name, d1);
    LocalPartOf(name, d2);
  }

  /**
    A user grant is keyed like a service account's own role binding: the user `name@domain`
    and the account `name` in one project share the identity of each role's binding.
   */
  lemma UserGrantSharesAccountRoleIdentity(c: Context.Ctx, args: GrantArgs, name: string, domain: string, role: string)
    requires '@' !in name
    ensures UserRoleDecl(c, args.(userEmail := name + "@" + domain), role).identity
         == ServiceAccount.RoleIdentity(c, args.project, name, role)
  {
    LocalPartOf(name, domain);
  }

  /** Grants need nothing declared before them. */
  lemma GrantUserRolesWellOrdered(c: Context.Ctx, args: GrantArgs)
    ensures WellOrdered(GrantUserRoles(c, args), {})
  {
    Resources.WellOrderedWhenScoped(GrantUserRoles(c, args), {});
  }

  // ---------------------------------------------------------------------------------------
  // useProjectIam

  datatype UserSpec = UserSpec(id: string, roles: seq<string>)
  datatype Access = Access(users: Option<seq<UserSpec>>)

  /** One entry of `gcp.yml`. */
  datatype ProjectSpec = ProjectSpec(id: string, access: Option<Access>)

  /** `projectSpec.access?.users ?? []`. */
  function ProjectUsers(p: ProjectSpec): seq<UserSpec> {
    if p.access.Some? && p.access.value.users.Some? then p.access.value.users.value else []
  }

  /** `user?.email` is truthy: the user exists and has a non-empty address. */
  predicate HasEmail(users: seq<Iam.User>, id: string) {
    var u := Iam.GetUserById(users, id);
    u.Some? && u.value.email != ""
  }

  function MemberDecl(c: Context.Ctx, projectId: string, user: Iam.User, role: string): (d: Decl)
    ensures d.identity == Context.Rn(c, ["iam", "gcp", "u", projectId, user.id, "role", role])
    ensures d.spec == ProjectIamMember(projectId, "roles/" + role, Lit("user:" + user.email))
    ensures d.options == NoOptions
    ensures Needs(d) == {}
  {
    Decl(Context.Rn(c, ["iam", "gcp", "u", projectId, user.id, "role", role]),
         ProjectIamMember(projectId, "roles/" + role, Lit("user:" + user.email)), NoOptions)
  }

  /** The grants of one user entry: one per role, or the error when the user has no address. */
  function UserGrants(c: Context.Ctx, users: seq<Iam.User>, projectId: string, us: UserSpec): (r: Result<seq<Decl>, Errors.Error>)
    ensures r.Ok? <==> HasEmail(users, us.id)
    ensures r.Err? ==> r.error == Errors.UserWithoutEmail(us.id)
    ensures r.Ok? ==> |r.value| == |us.roles|
    ensures r.Ok? ==> forall k :: 0 <= k < |us.roles| ==>
              r.value[k] == MemberDecl(c, projectId, Iam.GetUserById(users, us.id).value, us.roles[k])
  {
    if !HasEmail(users, us.id) then Err(Errors.UserWithoutEmail(us.id))
    else
      var user := Iam.GetUserById(users, us.id).value;
      Ok(Seqs.Map((role: string) => MemberDecl(c, projectId, user, role), us.roles))
  }

  /** Every listed user of the entry has an address. */
  predicate AllHaveEmail(users: seq<Iam.User>, p: ProjectSpec) {
    forall k :: 0 <= k < |ProjectUsers(p)| ==> HasEmail(users, ProjectUsers(p)[k].id)
  }

  /** User entry `k` is the first of the project's entries whose user has no address. */
  predicate FirstMissingIn(users: seq<Iam.User>, p: ProjectSpec, k: int) {
    && 0 <= k < |ProjectUsers(p)|
    && !HasEmail(users, ProjectUsers(p)[k].id)
    && (forall k' :: 0 <= k' < k ==> HasEmail(users, ProjectUsers(p)[k'].id))
  }

  /** The grants of one project entry, user after user; the first user without an address stops it. */
  function ProjectGrants(c: Context.Ctx, users: seq<Iam.User>, p: ProjectSpec): (r: Result<seq<Decl>, Errors.Error>)
    ensures r.Ok? <==> AllHaveEmail(users, p)
    ensures r.Err? ==> exists k :: FirstMissingIn(users, p, k) && r.error == Errors.UserWithoutEmail(ProjectUsers(p)[k].id)
  {
    var parts := Seqs.MapResult(ProjectUsers(p), (us: UserSpec) => UserGrants(c, users, p.id, us));
    if parts.Err? then Err(parts.error) else Ok(Seqs.Flatten(parts.value))
  }

  /** Project `i`, user entry `k` is the first one, in file order, whose user has no address. */
  predicate FirstWithoutEmail(users: seq<Iam.User>, specs: seq<ProjectSpec>, i: int, k: int) {
    && 0 <= i < |specs|
    && FirstMissingIn(users, specs[i], k)
    && (forall i' :: 0 <= i' < i ==> AllHaveEmail(users, specs[i']))
  }

  /** The first project entry whose grants fail names the first user without an address. */
  lemma FirstFailure(c: Context.Ctx, users: seq<Iam.User>, specs: seq<ProjectSpec>, i: int)
    requires 0 <= i < |specs| && !AllHaveEmail(users, specs[i])
    requires forall j :: 0 <= j < i ==> AllHaveEmail(users, specs[j])
    ensures exists k :: && FirstWithoutEmail(users, specs, i, k)
                        && ProjectGrants(c, users, specs[i]).error == Errors.UserWithoutEmail(ProjectUsers(specs[i])[k].id)
  {
    var e := ProjectGrants(c, users, specs[i]).error;
    var k :| FirstMissingIn(users, specs[i], k) && e == Errors.UserWithoutEmail(ProjectUsers(specs[i])[k].id);
    assert FirstWithoutEmail(users, specs, i, k);
  }

  /**
    `useProjectIam` over the parsed `gcp.yml`: every listed user gets each of their roles on
    the project, as the user with that id and its address; it fails, with the first such
    user's id, exactly when some listed user is unknown or has no address.
   */
  function UseProjectIam(c: Context.Ctx, users: seq<Iam.User>, specs: seq<ProjectSpec>): (r: Result<seq<Decl>, Errors.Error>)
    ensures r.Ok? <==> forall i :: 0 <= i < |specs| ==> AllHaveEmail(users, specs[i])
    ensures r.Err? ==> exists i, k :: FirstWithoutEmail(users, specs, i, k)
                                   && r.error == Errors.UserWithoutEmail(ProjectUsers(specs[i])[k].id)
  {
    var f := (p: ProjectSpec) => ProjectGrants(c, users, p);
    var parts := Seqs.MapResult(specs, f);
    if parts.Err? then
      var i :| 0 <= i < |specs| && f(specs[i]) == Err(parts.error) && forall j :: 0 <= j < i ==> f(specs[j]).Ok?;
      FirstFailure(c, users, specs, i);
      Err(parts.error)
    else Ok(Seqs.Flatten(parts.value))
  }
  /** `d` is the grant of one of the entry's roles to the user the entry names. */
  predicate GrantedTo(c: Context.Ctx, users: seq<Iam.User>, projectId: string, us: UserSpec, d: Decl) {
    && HasEmail(users, us.id)
    && exists j :: 0 <= j < |us.roles| && d == MemberDecl(c, projectId, Iam.GetUserById(users, us.id).value, us.roles[j])
  }

  /** `d` is the grant of one of the project's roles to one of its listed users. */
  predicate GrantedIn(c: Context.Ctx, users: seq<Iam.User>, p: ProjectSpec, d: Decl) {
    exists k :: 0 <= k < |ProjectUsers(p)| && GrantedTo(c, users, p.id, ProjectUsers(p)[k], d)
  }

  lemma UserGrantsContent(c: Context.Ctx, users: seq<Iam.User>, projectId: string, us: UserSpec, d: Decl)
    requires UserGrants(c, users, projectId, us).Ok?
    ensures d in UserGrants(c, users, projectId, us).value <==> GrantedTo(c, users, projectId, us, d)
  {
    var g := UserGrants(c, users, projectId, us).value;
    if d in g {
      var j :| 0 <= j < |g| && g[j] == d;
    }
  }

  /** A project entry's grants are exactly its users' role grants. */
  lemma ProjectGrantsContent(c: Context.Ctx, users: seq<Iam.User>, p: ProjectSpec, d: Decl)
    requires AllHaveEmail(users, p)
    ensures d in ProjectGrants(c, users, p).value <==> GrantedIn(c, users, p, d)
  {
    var us := ProjectUsers(p);
    var f := (u: UserSpec) => UserGrants(c, users, p.id, u);
    var parts := Seqs.MapResult(us, f);
    assert ProjectGrants(c, users, p).value == Seqs.Flatten(parts.value);
    Seqs.FlattenMember(parts.value, d);
    forall k | 0 <= k < |us|
      ensures d in parts.value[k] <==> GrantedTo(c, users, p.id, us[k], d)
    {
      assert parts.value[k] == f(us[k]).value;
      UserGrantsContent(c, users, p.id, us[k], d);
    }
  }

  /**
    On success the declarations are exactly the grants of every listed user's roles on every
    listed project, each to the user with that id and its address.
   */
  lemma UseProjectIamContent(c: Context.Ctx, users: seq<Iam.User>, specs: seq<ProjectSpec>, d: Decl)
    requires UseProjectIam(c, users, specs).Ok?
    ensures d in UseProjectIam(c, users, specs).value <==> exists i :: 0 <= i < |specs| && GrantedIn(c, users, specs[i], d)
  {
    var f := (p: ProjectSpec) => ProjectGrants(c, users, p);
    var parts := Seqs.MapResult(specs, f);
    assert UseProjectIam(c, users, specs).value == Seqs.Flatten(parts.value);
    Seqs.FlattenMember(parts.value, d);
    forall i | 0 <= i < |specs|
      ensures d in parts.value[i] <==> GrantedIn(c, users, specs[i], d)
    {
      ProjectGrantsContent(c, users, specs[i], d);
    }
  }

  /** On success the grants need nothing declared before them. */
  lemma UseProjectIamWellOrdered(c: Context.Ctx, users: seq<Iam.User>, specs: seq<ProjectSpec>)
    requires forall i :: 0 <= i < |specs| ==> AllHaveEmail(users, specs[i])
    ensures WellOrdered(UseProjectIam(c, users, specs).value, {})
  {
    var ds := UseProjectIam(c, users, specs).value;
    forall n | 0 <= n < |ds|
      ensures Needs(ds[n]) <= {}
    {
      UseProjectIamContent(c, users, specs, ds[n]);
      var i :| 0 <= i < |specs| && GrantedIn(c, users, specs[i], ds[n]);
      var k :| 0 <= k < |ProjectUsers(specs[i])| && GrantedTo(c, users, specs[i].id, ProjectUsers(specs[i])[k], ds[n]);
      var us := ProjectUsers(specs[i])[k];
      var j :| 0 <= j < |us.roles| && ds[n] == MemberDecl(c, specs[i].id, Iam.GetUserById(users, us.id).value, us.roles[j]);
    }
    WellOrderedWhenScoped(ds, {});
  }
}

=== FILE: public_ip.dfy ===
/**
  A global IP address with a DNS alias in the technical zone (`usePublicIp` in
  src/gcp/public-ip.ts).
 */
module PublicIp {
  import opened Wrappers
  import opened Resources
  import Strings
  import Context
  import ResourceNames
  import Zone

  /** The address id used when none is given. */
  const DefaultId: string := "primary"

  /** Properties of the address the provider fills in, which are left alone. */
  const AddressIgnores: seq<string> := ["address", "labelFingerprint"]

  datatype Args = Args(id: Option<string>, technicalZone: Zone.CloudflareZone)

  /** The address, the `A` record pointing at it, and the full DNS name the source returns. */
  datatype PublicIp = PublicIp(ip: Decl, record: Decl, alias: string)

  function AddressIdentity(c: Context.Ctx, id: string): string {
    Context.Rn(c, ["net", "gcp", "ip", id])
  }

  /** `<id>.<project>.gcloud`: the record name inside the technical zone. */
  function Alias(id: string, project: string): (a: string)
    ensures |a| > |id| && a[|id|] == '.' && a[..|id|] == id
  {
    id + "." + project + ".gcloud"
  }

  /** The alias always contains a dot, so it never names the zone apex. */
  lemma AliasIsNotApex(id: string, project: string)
    ensures Alias(id, project) != Zone.Apex
  {
    assert Alias(id, project)[|id|] == '.';
  }

  /**
    `usePublicIp`: a global address (`primary` unless an id is given), replaced by deleting
    first and ignoring the provider-filled properties, and an unproxied `A` record in the
    technical zone, keyed by the alias, whose value is the address output; the returned alias
    is the record's full DNS name.
   */
  function UsePublicIp(c: Context.Ctx, args: Args): (r: PublicIp)
    ensures var id := args.id.GetOr(DefaultId);
      && r.ip.identity == AddressIdentity(c, id)
      && r.ip.spec == GlobalAddress(Context.Srn(c, ["ip", id]))
      && r.ip.options == Options([], AddressIgnores, true)
      && r.record == Zone.UseDnsRecord(c, args.technicalZone, "A", Alias(id, c.gcp.project), Output(r.ip.identity, "address"), None)
      && r.record.identity == Context.Rn(c, ["zone", args.technicalZone.name, "cf", "A", Alias(id, c.gcp.project)])
      && !r.record.spec.proxied
      && r.record.spec.DnsRecord?
      && r.record.spec.recordType == "A"
      && r.record.spec.zoneId == args.technicalZone.zoneId
      && r.record.spec.value == Output(r.ip.identity, "address")
      && r.record.spec.name == r.alias
      && r.alias == Alias(id, c.gcp.project) + "." + args.technicalZone.name
  {
    var id := args.id.GetOr(DefaultId);
    var ip := Decl(AddressIdentity(c, id), GlobalAddress(Context.Srn(c, ["ip", id])),
                   Options([], AddressIgnores, true));
    var alias := Alias(id, c.gcp.project);
    AliasIsNotApex(id, c.gcp.project);
    PublicIp(ip, Zone.UseDnsRecord(c, args.technicalZone, "A", alias, Output(ip.identity, "address"), None),
             alias + "." + args.technicalZone.name)
  }

  /** The returned alias resolves: it is exactly the full name the zone gives the record. */
  lemma AliasResolvesToRecord(c: Context.Ctx, args: Args)
    ensures var r := UsePublicIp(c, args);
      r.alias == Zone.RecordFullName(args.technicalZone.name, Alias(args.id.GetOr(DefaultId), c.gcp.project))
  {
    AliasIsNotApex(args.id.GetOr(DefaultId), c.gcp.project);
  }

  /** The record is declared after the address whose output it reads. */
  lemma PublicIpWellOrdered(c: Context.Ctx, args: Args)
    ensures var r := UsePublicIp(c, args); WellOrdered([r.ip, r.record], {})
  {
    var r := UsePublicIp(c, args);
    assert Needs(r.ip) == {};
    assert Needs(r.record) == {r.ip.identity};
    WellOrderedCons(r.record, [], {r.ip.identity});
    WellOrderedCons(r.ip, [r.record], {});
  }

  /** Addresses with different ids free of `/` get different identities. */
  lemma AddressIdentitiesDistinct(c: Context.Ctx, id1: string, id2: string)
    requires '/' !in id1 && '/' !in id2
    ensures AddressIdentity(c, id1) == AddressIdentity(c, id2) <==> id1 == id2
  {
    var p1 := ["net", "gcp", "ip", id1];
    var p2 := ["net", "gcp", "ip", id2];
    if AddressIdentity(c, id1) == AddressIdentity(c, id2) {
      assert forall k :: 0 <= k < |p1| ==> '/' !in p1[k];
      assert forall k :: 0 <= k < |p2| ==> '/' !in p2[k];
      ResourceNames.HierarchicalInjective(c.env, p1, p2);
      assert p1[3] == p2[3];
    }
  }
}

=== FILE: resource_names.dfy ===
/**
  Resource identities (`useResourceNameFactory`) and dash-case conversion (`toDashCase`),
  src/helpers/resource-names.ts.

  A name is either a single string, used verbatim, or an array of segments. The hierarchical
  (unsafe) form joins segments with `/` and appends `:env`; the flat (safe) form joins with `-`
  and appends `-env`. Production gets no suffix at all.
 */
module ResourceNames {
  import opened Strings
  import Env

  /** The `string | Array<string>` argument of a name factory. */
  datatype Name = Plain(text: string) | Segments(parts: seq<string>)

  function NameSeparator(isSafe: bool): string {
    if isSafe then "-" else "/"
  }

  function EnvSeparator(isSafe: bool): string {
    if isSafe then "-" else ":"
  }

  /** The name before any suffix: a plain string verbatim, segments joined with `sep`. */
  function Base(name: Name, sep: string): string {
    match name
    case Plain(text) => text
    case Segments(parts) => Join(parts, sep)
  }

  /**
    The identity produced by the factory for `env` and `isSafe`: the base name, then, outside
    production, the environment separator and the environment once, at the very end.
   */
  function ResourceName(env: string, isSafe: bool, name: Name): (r: string)
    ensures Base(name, NameSeparator(isSafe)) <= r
    ensures env == Env.Prod ==> r == Base(name, NameSeparator(isSafe))
    ensures env != Env.Prod ==> r == Base(name, NameSeparator(isSafe)) + EnvSeparator(isSafe) + env
  {
    var computed := Base(name, NameSeparator(isSafe));
    if env != Env.Prod then computed + EnvSeparator(isSafe) + env else computed
  }

  /** The factory's own suffix rule agrees with `useEnvSuffix` (default `skipStage`). */
  lemma SuffixAgreesWithEnvSuffix(env: string, isSafe: bool, name: Name)
    ensures ResourceName(env, isSafe, name)
         == Base(name, NameSeparator(isSafe)) + Env.Suffix(env, EnvSeparator(isSafe), false)
  {
  }

  /** A plain string behaves as a one-segment array. */
  lemma PlainIsOneSegment(env: string, isSafe: bool, text: string)
    ensures ResourceName(env, isSafe, Plain(text)) == ResourceName(env, isSafe, Segments([text]))
  {
  }

  /** Cancelling a common suffix. */
  lemma CancelSuffix(a: string, b: string, s: string)
    requires a + s == b + s
    ensures a == b
  {
    assert |a| == |b|;
    assert a == (a + s)[..|a|];
    assert b == (b + s)[..|b|];
  }

  /**
    Hierarchical identities are collision-free: two non-empty segment lists none of whose
    segments contains `/` give the same identity in one environment only if they are equal.
   */
  lemma HierarchicalInjective(env: string, p1: seq<string>, p2: seq<string>)
    requires |p1| >= 1 && |p2| >= 1
    requires forall k :: 0 <= k < |p1| ==> '/' !in p1[k]
    requires forall k :: 0 <= k < |p2| ==> '/' !in p2[k]
    requires ResourceName(env, false, Segments(p1)) == ResourceName(env, false, Segments(p2))
    ensures p1 == p2
  {
    var j1 := Join(p1, "/");
    var j2 := Join(p2, "/");
    var s := if env != Env.Prod then ":" + env else "";
    assert j1 + s == j2 + s;
    CancelSuffix(j1, j2, s);
    SplitJoin(p1, '/');
    SplitJoin(p2, '/');
  }

  /**
    The flat form contains neither `/` nor `:` when its segments and the environment do not:
    it is the form to use where those characters are forbidden.
   */
  lemma FlatFormHasNoHierarchyCharacters(env: string, parts: seq<string>)
    requires forall k :: 0 <= k < |parts| ==> '/' !in parts[k] && ':' !in parts[k]
    requires '/' !in env && ':' !in env
    ensures '/' !in ResourceName(env, true, Segments(parts))
    ensures ':' !in ResourceName(env, true, Segments(parts))
  {
    JoinFree(parts, "-", '/');
    JoinFree(parts, "-", ':');
  }

  /** The flat form is not injective: a dash inside a segment looks like a separator. */
  lemma FlatFormMayCollide(env: string)
    ensures ResourceName(env, true, Segments(["a-b"])) == ResourceName(env, true, Segments(["a", "b"]))
  {
    assert Join(["a", "b"], "-") == "a" + "-" + Join(["b"], "-");
  }

  /**
    In production nothing is appended; the doc comment on `rn` in src/context.ts shows
    `my-resource:prod`, but the code yields `my-resource`.
   */
  lemma ProdNamesHaveNoSuffix()
    ensures ResourceName(Env.Prod, false, Plain("my-resource")) == "my-resource"
    ensures ResourceName(Env.Prod, false, Plain("my-resource")) != "my-resource:prod"
    ensures ResourceName(Env.Prod, false, Segments(["my", "resource"])) == "my/resource"
  {
    assert Join(["my", "resource"], "/") == "my" + "/" + Join(["resource"], "/");
  }

  // ---------------------------------------------------------------------------------------
  // toDashCase
  // ---------------------------------------------------------------------------------------

  /**
    `.replace(/([a-z])([A-Z])/g, '$1-$2')`: the global regex scans left to right and each match
    consumes the two letters it joins.
   */
  function DashCaseBoundaries(s: string): (r: string)
    decreases |s|
  {
    if |s| < 2 then s
    else if IsLower(s[0]) && IsUpper(s[1]) then [s[0], '-', s[1]] + DashCaseBoundaries(s[2..])
    else [s[0]] + DashCaseBoundaries(s[1..])
  }

  /** Reference: every character, followed by `-` when it is lower-case and the next is upper-case. */
  function DashBetweenCasePairs(s: string): string
    decreases |s|
  {
    if |s| < 2 then s
    else [s[0]] + (if IsLower(s[0]) && IsUpper(s[1]) then "-" else "") + DashBetweenCasePairs(s[1..])
  }

  /**
    The regex scan misses no boundary: matches cannot overlap, because the second letter of a
    match is upper-case and so cannot start another one.
   */
  lemma {:induction false} BoundariesAtEveryCasePair(s: string)
    ensures DashCaseBoundaries(s) == DashBetweenCasePairs(s)
    decreases |s|
  {
    if |s| >= 2 {
      if IsLower(s[0]) && IsUpper(s[1]) {
        BoundariesAtEveryCasePair(s[2..]);
        if |s| > 2 {
          assert s[1..][1..] == s[2..];
          assert DashBetweenCasePairs(s[1..]) == [s[1]] + DashBetweenCasePairs(s[2..]);
        }
      } else {
        BoundariesAtEveryCasePair(s[1..]);
      }
    }
  }

  /** Without upper-case letters there is no boundary to mark. */
  lemma {:induction false} BoundariesWithoutUpper(s: string)
    requires NoUpper(s)
    ensures DashCaseBoundaries(s) == s
    decreases |s|
  {
    if |s| >= 2 {
      assert !IsUpper(s[1]);
      BoundariesWithoutUpper(s[1..]);
    }
  }

  /** Boundary marking adds only dashes, so it introduces no whitespace. */
  lemma {:induction false} BoundariesKeepNoSpace(s: string)
    requires NoSpace(s)
    ensures NoSpace(DashCaseBoundaries(s))
    decreases |s|
  {
    if |s| >= 2 {
      if IsLower(s[0]) && IsUpper(s[1]) {
        BoundariesKeepNoSpace(s[2..]);
      } else {
        BoundariesKeepNoSpace(s[1..]);
      }
    }
  }

  /** `s` with its leading whitespace removed. */
  function DropSpaces(s: string): (r: string)
    ensures |r| <= |s|
    decreases |s|
  {
    if |s| > 0 && IsSpace(s[0]) then DropSpaces(s[1..]) else s
  }

  /** What `DropSpaces` removes is whitespace, and what it keeps does not start with whitespace. */
  lemma {:induction false} DropSpacesShape(s: string)
    ensures DropSpaces(s) == s[|s| - |DropSpaces(s)|..]
    ensures forall i :: 0 <= i < |s| - |DropSpaces(s)| ==> IsSpace(s[i])
    ensures |DropSpaces(s)| == 0 || !IsSpace(DropSpaces(s)[0])
    decreases |s|
  {
    if |s| > 0 && IsSpace(s[0]) {
      DropSpacesShape(s[1..]);
    }
  }

  /** `.replace(/\s+/g, '-')`: each maximal run of whitespace becomes one dash. */
  function CollapseSpaces(s: string): (r: string)
    ensures |r| <= |s|
    decreases |s|
  {
    if |s| == 0 then ""
    else if IsSpace(s[0]) then "-" + CollapseSpaces(DropSpaces(s[1..]))
    else [s[0]] + CollapseSpaces(s[1..])
  }

  /** Collapsing leaves no whitespace behind. */
  lemma {:induction false} CollapseLeavesNoSpace(s: string)
    ensures NoSpace(CollapseSpaces(s))
    decreases |s|
  {
    if |s| > 0 {
      if IsSpace(s[0]) {
        CollapseLeavesNoSpace(DropSpaces(s[1..]));
      } else {
        CollapseLeavesNoSpace(s[1..]);
      }
    }
  }

  /** Text without whitespace is left alone. */
  lemma {:induction false} CollapseWithoutSpace(s: string)
    requires NoSpace(s)
    ensures CollapseSpaces(s) == s
    decreases |s|
  {
    if |s| > 0 {
      CollapseWithoutSpace(s[1..]);
    }
  }

  lemma {:induction false} DropSpacesRun(w: string, b: string)
    requires forall i :: 0 <= i < |w| ==> IsSpace(w[i])
    requires |b| == 0 || !IsSpace(b[0])
    ensures DropSpaces(w + b) == b
    decreases |w|
  {
    if |w| == 0 {
      assert w + b == b;
    } else {
      assert (w + b)[1..] == w[1..] + b;
      DropSpacesRun(w[1..], b);
    }
  }

  lemma {:induction false} DropSpacesPrefix(a: string, rest: string)
    requires |a| > 0 && !IsSpace(a[|a| - 1])
    ensures DropSpaces(a + rest) == DropSpaces(a) + rest
    decreases |a|
  {
    if IsSpace(a[0]) {
      assert (a + rest)[1..] == a[1..] + rest;
      DropSpacesPrefix(a[1..], rest);
    }
  }

  /**
    A maximal whitespace run collapses to exactly one dash, whatever surrounds it: the text
    before and after the run are collapsed on their own.
   */
  lemma {:induction false} CollapseRun(a: string, w: string, b: string)
    requires |w| > 0 && forall i :: 0 <= i < |w| ==> IsSpace(w[i])
    requires |a| == 0 || !IsSpace(a[|a| - 1])
    requires |b| == 0 || !IsSpace(b[0])
    ensures CollapseSpaces(a + w + b) == CollapseSpaces(a) + "-" + CollapseSpaces(b)
    decreases |a|
  {
    if |a| == 0 {
      CollapseRunAlone(w, b);
      assert a + w + b == w + b;
    } else if IsSpace(a[0]) {
      DropSpacesKeepsLast(a[1..]);
      CollapseRun(DropSpaces(a[1..]), w, b);
      CollapseRunSpaceStep(a, w, b);
    } else {
      CollapseRun(a[1..], w, b);
      CollapseRunLetterStep(a, w, b);
    }
  }

  lemma CollapseRunSpaceStep(a: string, w: string, b: string)
    requires |a| > 0 && IsSpace(a[0]) && !IsSpace(a[|a| - 1])
    requires CollapseSpaces(DropSpaces(a[1..]) + w + b) == CollapseSpaces(DropSpaces(a[1..])) + "-" + CollapseSpaces(b)
    ensures CollapseSpaces(a + w + b) == CollapseSpaces(a) + "-" + CollapseSpaces(b)
  {
    var rest := w + b;
    var d := DropSpaces(a[1..]);
    assert a + w + b == a + rest;
    assert d + w + b == d + rest;
    DropSpacesPrefix(a[1..], rest);
    CollapseRunAfterSpace(a, d, rest, CollapseSpaces(d), CollapseSpaces(b));
  }

  lemma CollapseRunLetterStep(a: string, w: string, b: string)
    requires |a| > 0 && !IsSpace(a[0])
    requires CollapseSpaces(a[1..] + w + b) == CollapseSpaces(a[1..]) + "-" + CollapseSpaces(b)
    ensures CollapseSpaces(a + w + b) == CollapseSpaces(a) + "-" + CollapseSpaces(b)
  {
    var rest := w + b;
    assert a + w + b == a + rest;
    assert a[1..] + w + b == a[1..] + rest;
    CollapseRunAfterLetter(a, rest, CollapseSpaces(a[1..]), CollapseSpaces(b));
  }

  lemma CollapseRunAfterLetter(a: string, rest: string, x: string, y: string)
    requires |a| > 0 && !IsSpace(a[0])
    requires CollapseSpaces(a[1..] + rest) == x + "-" + y
    requires CollapseSpaces(a[1..]) == x
    ensures CollapseSpaces(a + rest) == CollapseSpaces(a) + "-" + y
  {
    assert (a + rest)[0] == a[0];
    assert (a + rest)[1..] == a[1..] + rest;
    assert [a[0]] + (x + "-" + y) == ([a[0]] + x) + "-" + y;
  }

  lemma CollapseRunAlone(w: string, b: string)
    requires |w| > 0 && forall i :: 0 <= i < |w| ==> IsSpace(w[i])
    requires |b| == 0 || !IsSpace(b[0])
    ensures CollapseSpaces(w + b) == "-" + CollapseSpaces(b)
  {
    assert (w + b)[0] == w[0];
    assert (w + b)[1..] == w[1..] + b;
    DropSpacesRun(w[1..], b);
  }

  lemma CollapseRunAfterSpace(a: string, d: string, rest: string, x: string, y: string)
    requires |a| > 0 && IsSpace(a[0])
    requires d == DropSpaces(a[1..])
    requires DropSpaces(a[1..] + rest) == d + rest
    requires CollapseSpaces(d + rest) == x + "-" + y
    requires CollapseSpaces(d) == x
    ensures CollapseSpaces(a + rest) == CollapseSpaces(a) + "-" + y
  {
    CollapseAfterSpace(a, rest);
    CollapseAlone(a);
    assert "-" + (x + "-" + y) == ("-" + x) + "-" + y;
  }

  lemma CollapseAlone(a: string)
    requires |a| > 0 && IsSpace(a[0])
    ensures CollapseSpaces(a) == "-" + CollapseSpaces(DropSpaces(a[1..]))
  {
  }

  /** One unfolding of `CollapseSpaces` at a leading whitespace character. */
  lemma CollapseAfterSpace(a: string, rest: string)
    requires |a| > 0 && IsSpace(a[0])
    ensures CollapseSpaces(a + rest) == "-" + CollapseSpaces(DropSpaces(a[1..] + rest))
  {
    assert (a + rest)[0] == a[0];
    assert (a + rest)[1..] == a[1..] + rest;
  }

  lemma DropSpacesKeepsLast(s: string)
    requires |s| > 0 && !IsSpace(s[|s| - 1])
    ensures |DropSpaces(s)| > 0
    ensures DropSpaces(s)[|DropSpaces(s)| - 1] == s[|s| - 1]
    ensures |DropSpaces(s)| == 0 || !IsSpace(DropSpaces(s)[|DropSpaces(s)| - 1])
  {
    DropSpacesShape(s);
  }

  /** `toDashCase(str)`: mark case boundaries, collapse whitespace runs, lower-case. */
  function ToDashCase(s: string): (r: string)
    ensures NoUpper(r)
    ensures NoSpace(r)
  {
    var r := Lower(CollapseSpaces(DashCaseBoundaries(s)));
    assert forall i :: 0 <= i < |r| ==> !IsSpace(r[i]) by {
      var c := CollapseSpaces(DashCaseBoundaries(s));
      CollapseLeavesNoSpace(DashCaseBoundaries(s));
      forall i | 0 <= i < |r|
        ensures !IsSpace(r[i])
      {
        assert !IsSpace(c[i]);
      }
    }
    r
  }

  /** Lower-casing text without upper-case letters changes nothing. */
  lemma LowerWithoutUpper(s: string)
    requires NoUpper(s)
    ensures Lower(s) == s
  {
  }

  /**
    A string is its own dash-case exactly when it has no upper-case letter and no whitespace;
    in particular `toDashCase` is idempotent.
   */
  lemma DashCaseFixpoint(s: string)
    ensures ToDashCase(s) == s <==> NoUpper(s) && NoSpace(s)
    ensures ToDashCase(ToDashCase(s)) == ToDashCase(s)
  {
    if NoUpper(s) && NoSpace(s) {
      FixpointWhenClean(s);
    }
    FixpointWhenClean(ToDashCase(s));
  }

  lemma FixpointWhenClean(s: string)
    requires NoUpper(s) && NoSpace(s)
    ensures ToDashCase(s) == s
  {
    BoundariesWithoutUpper(s);
    CollapseWithoutSpace(s);
    LowerWithoutUpper(s);
  }
}

=== FILE: resources.dfy ===
/**
  Abstract resource declarations: what a builder asks Pulumi to create, under which identity
  (the first constructor argument, an `rn(...)` string), with which properties and options.

  A property that the source fills from another resource's output (`backend.id`,
  `bucket.name`, `serviceAccount.email.apply(...)`) is a `Value.Out` naming that resource's
  identity and output; everything else is literal text.
 */
module Resources {
  import opened Wrappers
  import Seqs

  /** Output `output` of the resource declared under identity `owner`. */
  datatype Ref = Ref(owner: string, output: string)

  /** A property value: literal text, or text derived from an output as `prefix + output + suffix`. */
  datatype Value = Lit(text: string) | Out(prefix: string, source: Ref, suffix: string)

  /** An output used as it is. */
  function Output(owner: string, output: string): (v: Value)
    ensures v.Out? && v.source == Ref(owner, output)
  {
    Out("", Ref(owner, output), "")
  }

  /**
    Text placed around a value, whether the value is plain or an output
    (`typeof x === 'string' ? ... : x.apply(...)` in the source).
   */
  function Wrap(prefix: string, v: Value, suffix: string): (w: Value)
    ensures w.Lit? <==> v.Lit?
    ensures v.Lit? ==> w.text == prefix + v.text + suffix
    ensures v.Out? ==> w.source == v.source && w.prefix == prefix + v.prefix && w.suffix == v.suffix + suffix
  {
    match v
    case Lit(t) => Lit(prefix + t + suffix)
    case Out(p, r, s) => Out(prefix + p, r, s + suffix)
  }

  /** Resource options: explicit dependencies (by identity), ignored properties, replacement order. */
  datatype Options = Options(dependsOn: seq<string>, ignoreChanges: seq<string>, deleteBeforeReplace: bool)

  const NoOptions: Options := Options([], [], false)

  function DependsOn(ids: seq<string>): Options {
    Options(ids, [], false)
  }

  function Ignoring(props: seq<string>): Options {
    Options([], props, false)
  }

  /** `{ hostRedirect, stripQuery, redirectResponseCode }` of a URL map. */
  datatype UrlRedirect = UrlRedirect(hostRedirect: string, stripQuery: bool, responseCode: string)

  /** What a path matcher does with a request: send it to a backend, or redirect it. */
  datatype RouteAction = ToBackend(backend: Value) | RedirectTo(redirect: UrlRedirect)

  datatype HostRule = HostRule(hosts: seq<string>, pathMatcher: string)

  datatype PathMatcher = PathMatcher(name: string, action: RouteAction)

  /** A key/value pair: HTTP headers and attribute mappings. */
  datatype Pair = Pair(key: string, value: string)

  /** How a scheduler job authenticates: fixed headers, or an OAuth token for a service account. */
  datatype JobAuth = Headers(headers: seq<Pair>) | OAuthToken(serviceAccountEmail: string)

  datatype HttpTarget = HttpTarget(httpMethod: string, uri: string, auth: JobAuth)

  datatype Cors = Cors(origins: seq<string>, methods: seq<string>, responseHeaders: seq<string>, maxAgeSeconds: int)

  /** The kind of resource and the properties the kit sets on it. */
  datatype Spec =
    // Cloudflare
    | DnsRecord(zoneId: string, name: string, value: Value, recordType: string, proxied: bool)
    // Certificate Manager
    | CertificateMap(name: string, description: string, location: string, certificateMapId: string)
    | Certificate(certificateId: string, location: string, name: string, description: string, managedDomains: seq<string>)
    | CertificateMapEntry(certificateMapEntryId: string, location: string, name: string, certificateMapId: string,
                          certificates: seq<Value>, hostname: string, description: string)
    // Compute: load balancing
    | UrlMap(name: string, description: string, defaultUrlRedirect: UrlRedirect,
             hostRules: seq<HostRule>, pathMatchers: seq<PathMatcher>)
    | HttpsRedirectUrlMap(name: string, description: string, httpsRedirect: bool, stripQuery: bool)
    | TargetHttpsProxy(name: string, description: string, urlMap: Value, certificateMap: Value)
    | TargetHttpProxy(name: string, description: string, urlMap: Value)
    | GlobalForwardingRule(name: string, description: string, loadBalancingScheme: string,
                           target: Value, ipAddress: Value, portRange: string)
    | GlobalAddress(name: string)
    | ServerlessNeg(name: string, description: string, region: string, networkEndpointType: string, cloudRunService: string)
    | BackendService(name: string, description: string, loadBalancingScheme: string, backends: seq<Value>,
                     customRequestHeaders: seq<string>, enableCdn: bool, compressionMode: Option<string>)
    | BackendBucket(name: string, description: string, bucketName: Value, enableCdn: bool, customResponseHeaders: seq<string>)
    // Cloud Scheduler
    | SchedulerJob(name: string, timeZone: string, schedule: string, description: string, httpTarget: HttpTarget)
    // Resource Manager and IAM
    | Folder(displayName: string, parent: Value)
    | Project(projectId: string, name: string, billingAccount: string, folderId: Option<Value>, orgId: Option<string>)
    | ProjectService(project: string, service: string, disableDependentServices: bool)
    | ProjectIamMember(project: string, role: string, member: Value)
    | ServiceAccount(accountId: string, description: string, displayName: string, project: string)
    | ServiceAccountIamMember(serviceAccountId: string, role: string, member: Value)
    | WorkloadIdentityPool(workloadIdentityPoolId: string, displayName: string, project: string)
    | WorkloadIdentityPoolProvider(pool: Value, providerId: string, displayName: string, project: string,
                                   issuerUri: string, attributeMapping: seq<Pair>, attributeCondition: string)
    // Cloud SQL
    | SqlInstance(name: string, databaseVersion: string, region: string, tier: string,
                  backupsEnabled: bool, pointInTimeRecoveryEnabled: bool, deletionProtectionEnabled: bool)
    | SqlDatabase(name: string, instance: Value)
    | SqlUser(name: string, instance: Value, password: string)
    // Cloud Storage
    | Bucket(name: string, location: string, cors: Option<Cors>, uniformBucketLevelAccess: bool,
             softDeleteRetentionSeconds: Option<int>)
    | BucketIamMember(bucket: Value, role: string, member: Value)
    // Artifact Registry
    | DockerRepository(name: string, repositoryId: string, format: string, location: string)
    | RegistryIamMember(location: string, member: Value, registry: Value, role: string)
    // GitHub
    | GithubTeam(name: string, privacy: string)
    | TeamMembership(teamId: Value, username: string, role: string)
    | OrgVariable(variableName: string, value: Value, visibility: string)
    | Repository(name: string, repoDescription: Option<string>, homepageUrl: Option<string>, visibility: string,
                 hasIssues: bool, allowMergeCommit: bool, allowRebaseMerge: bool, allowSquashMerge: bool,
                 vulnerabilityAlerts: bool, archived: bool)
    | RepositoryCollaborator(repository: string, username: string, permission: string)
    | TeamRepository(repository: string, teamId: Value, permission: string)
    | ActionsVariable(repository: string, variableName: string, value: Value)
    | ActionsSecret(repository: string, secretName: string, plaintextValue: string)
    | BranchProtection(repositoryId: string, pattern: string, dismissStaleReviews: bool, requiredApprovingReviewCount: int)
    | ActionsRepositoryPermissions(repository: string, allowedActions: string)

  /** One `new Resource(identity, spec, options)`. */
  datatype Decl = Decl(identity: string, spec: Spec, options: Options)

  /** The identity a value reads from, if it reads from one. */
  function ValueOwners(v: Value): set<string> {
    if v.Out? then {v.source.owner} else {}
  }

  function ValuesOwners(vs: seq<Value>): set<string>
    decreases |vs|
  {
    if |vs| == 0 then {} else ValueOwners(vs[0]) + ValuesOwners(vs[1..])
  }

  function ActionOwners(a: RouteAction): set<string> {
    if a.ToBackend? then ValueOwners(a.backend) else {}
  }

  function MatchersOwners(ms: seq<PathMatcher>): set<string>
    decreases |ms|
  {
    if |ms| == 0 then {} else ActionOwners(ms[0].action) + MatchersOwners(ms[1..])
  }

  /** Every identity whose outputs the properties of `s` read. */
  function SpecOwners(s: Spec): set<string> {
    match s
    case DnsRecord(_, _, value, _, _) => ValueOwners(value)
    case CertificateMapEntry(_, _, _, _, certificates, _, _) => ValuesOwners(certificates)
    case UrlMap(_, _, _, _, pathMatchers) => MatchersOwners(pathMatchers)
    case TargetHttpsProxy(_, _, urlMap, certificateMap) => ValueOwners(urlMap) + ValueOwners(certificateMap)
    case TargetHttpProxy(_, _, urlMap) => ValueOwners(urlMap)
    case GlobalForwardingRule(_, _, _, target, ipAddress, _) => ValueOwners(target) + ValueOwners(ipAddress)
    case BackendService(_, _, _, backends, _, _, _) => ValuesOwners(backends)
    case BackendBucket(_, _, bucketName, _, _) => ValueOwners(bucketName)
    case Folder(_, parent) => ValueOwners(parent)
    case Project(_, _, _, folderId, _) => if folderId.Some? then ValueOwners(folderId.value) else {}
    case ProjectIamMember(_, _, member) => ValueOwners(member)
    case ServiceAccountIamMember(_, _, member) => ValueOwners(member)
    case WorkloadIdentityPoolProvider(pool, _, _, _, _, _, _) => ValueOwners(pool)
    case SqlDatabase(_, instance) => ValueOwners(instance)
    case SqlUser(_, instance, _) => ValueOwners(instance)
    case BucketIamMember(bucket, _, member) => ValueOwners(bucket) + ValueOwners(member)
    case RegistryIamMember(_, member, registry, _) => ValueOwners(member) + ValueOwners(registry)
    case TeamMembership(teamId, _, _) => ValueOwners(teamId)
    case OrgVariable(_, value, _) => ValueOwners(value)
    case TeamRepository(_, teamId, _) => ValueOwners(teamId)
    case ActionsVariable(_, _, value) => ValueOwners(value)
    case _ => {}
  }

  /** Everything a declaration needs to exist first: the outputs it reads and its explicit dependencies. */
  function Needs(d: Decl): set<string> {
    SpecOwners(d.spec) + (set k | 0 <= k < |d.options.dependsOn| :: d.options.dependsOn[k])
  }

  function Identities(ds: seq<Decl>): set<string>
    decreases |ds|
  {
    if |ds| == 0 then {} else {ds[0].identity} + Identities(ds[1..])
  }

  /**
    Every declaration needs only identities in `scope` (resources that exist outside the
    builder) or declared before it.
   */
  predicate WellOrdered(ds: seq<Decl>, scope: set<string>)
    decreases |ds|
  {
    |ds| == 0 || (Needs(ds[0]) <= scope && WellOrdered(ds[1..], scope + {ds[0].identity}))
  }

  /** Well-ordered sequences compose: the second part may use everything the first declares. */
  lemma {:induction false} WellOrderedAppend(a: seq<Decl>, b: seq<Decl>, scope: set<string>)
    ensures WellOrdered(a + b, scope) <==> WellOrdered(a, scope) && WellOrdered(b, scope + Identities(a))
    decreases |a|
  {
    if |a| == 0 {
      assert a + b == b;
      assert scope + Identities(a) == scope;
    } else {
      assert (a + b)[0] == a[0];
      assert (a + b)[1..] == a[1..] + b;
      WellOrderedAppend(a[1..], b, scope + {a[0].identity});
      assert scope + {a[0].identity} + Identities(a[1..]) == scope + Identities(a);
    }
  }

  /** A larger scope keeps a sequence well ordered. */
  lemma {:induction false} WellOrderedWider(ds: seq<Decl>, scope: set<string>, wider: set<string>)
    requires scope <= wider
    requires WellOrdered(ds, scope)
    ensures WellOrdered(ds, wider)
    decreases |ds|
  {
    if |ds| > 0 {
      WellOrderedWider(ds[1..], scope + {ds[0].identity}, wider + {ds[0].identity});
    }
  }

  /**
    The converse of the index-based reading: a sequence is well ordered when everything
    each declaration needs is in scope or declared by the declarations before it.
   */
  lemma {:induction false} WellOrderedFromPrefixes(ds: seq<Decl>, scope: set<string>)
    requires forall i :: 0 <= i < |ds| ==> Needs(ds[i]) <= scope + Identities(ds[..i])
    ensures WellOrdered(ds, scope)
    decreases |ds|
  {
    if |ds| > 0 {
      assert ds[..0] == [];
      var rest := ds[1..];
      forall i | 0 <= i < |rest|
        ensures Needs(rest[i]) <= scope + {ds[0].identity} + Identities(rest[..i])
      {
        assert ds[..i + 1] == [ds[0]] + rest[..i];
        assert ([ds[0]] + rest[..i])[1..] == rest[..i];
        assert Identities(ds[..i + 1]) == {ds[0].identity} + Identities(rest[..i]);
      }
      WellOrderedFromPrefixes(rest, scope + {ds[0].identity});
    }
  }

  /** One step of `WellOrdered`: a declaration whose needs are in scope, before a sequence that may use it. */
  lemma WellOrderedCons(d: Decl, ds: seq<Decl>, scope: set<string>)
    requires Needs(d) <= scope
    requires WellOrdered(ds, scope + {d.identity})
    ensures WellOrdered([d] + ds, scope)
  {
    assert ([d] + ds)[1..] == ds;
  }

  /** Three declarations in a row, each reading the scope and the ones before it. */
  lemma WellOrderedTriple(a: Decl, b: Decl, f: Decl, scope: set<string>)
    requires Needs(a) <= scope
    requires Needs(b) <= scope + {a.identity}
    requires Needs(f) <= scope + {a.identity} + {b.identity}
    ensures WellOrdered([a, b, f], scope)
  {
    WellOrderedCons(f, [], scope + {a.identity} + {b.identity});
    WellOrderedCons(b, [f], scope + {a.identity});
    WellOrderedCons(a, [b, f], scope);
  }

  /**
    The index-based reading of `WellOrdered`: everything declaration `i` needs is in scope or
    is the identity of an earlier declaration.
   */
  lemma {:induction false} WellOrderedAt(ds: seq<Decl>, scope: set<string>, i: int, x: string)
    requires WellOrdered(ds, scope)
    requires 0 <= i < |ds| && x in Needs(ds[i])
    ensures x in scope || exists j :: 0 <= j < i && ds[j].identity == x
    decreases |ds|
  {
    if i > 0 {
      WellOrderedAt(ds[1..], scope + {ds[0].identity}, i - 1, x);
      if x !in scope && x != ds[0].identity {
        var j :| 0 <= j < i - 1 && ds[1..][j].identity == x;
        assert ds[j + 1].identity == x;
      }
    }
  }

  /** Declarations that each need only what is already in scope are well ordered in any order. */
  lemma {:induction false} WellOrderedWhenScoped(ds: seq<Decl>, scope: set<string>)
    requires forall i :: 0 <= i < |ds| ==> Needs(ds[i]) <= scope
    ensures WellOrdered(ds, scope)
    decreases |ds|
  {
    if |ds| > 0 {
      WellOrderedWhenScoped(ds[1..], scope);
      WellOrderedWider(ds[1..], scope, scope + {ds[0].identity});
    }
  }

  /** Blocks that are each well ordered on their own are well ordered one after another. */
  lemma {:induction false} WellOrderedBlocks(blocks: seq<seq<Decl>>, scope: set<string>)
    requires forall i :: 0 <= i < |blocks| ==> WellOrdered(blocks[i], scope)
    ensures WellOrdered(Seqs.Flatten(blocks), scope)
    decreases |blocks|
  {
    if |blocks| > 0 {
      WellOrderedBlocks(blocks[1..], scope);
      WellOrderedWider(Seqs.Flatten(blocks[1..]), scope, scope + Identities(blocks[0]));
      WellOrderedAppend(blocks[0], Seqs.Flatten(blocks[1..]), scope);
    }
  }
}

=== FILE: seqs.dfy ===
/**
  Sequence searches and filters: `Array.prototype.find` and the `continue`-guarded loops
  of the source.
 */
module Seqs {
  import opened Wrappers

  /** Index of the first element satisfying `p`, or `None` when there is none. */
  function FindIndex<T>(xs: seq<T>, p: T -> bool): (r: Option<nat>)
    ensures r.Some? ==> r.value < |xs| && p(xs[r.value])
    ensures r.Some? ==> forall j :: 0 <= j < r.value ==> !p(xs[j])
    ensures r.None? <==> forall j :: 0 <= j < |xs| ==> !p(xs[j])
    decreases |xs|
  {
    if |xs| == 0 then None
    else if p(xs[0]) then Some(0)
    else
      match FindIndex(xs[1..], p)
      case None => None
      case Some(i) => Some(i + 1)
  }

  /** `xs.find(p)`: the first element satisfying `p`. */
  function Find<T>(xs: seq<T>, p: T -> bool): (r: Option<T>)
    ensures r.Some? ==> r.value in xs && p(r.value)
    ensures r.Some? ==> exists i :: 0 <= i < |xs| && xs[i] == r.value && forall j :: 0 <= j < i ==> !p(xs[j])
    ensures r.None? <==> forall j :: 0 <= j < |xs| ==> !p(xs[j])
  {
    match FindIndex(xs, p)
    case None => None
    case Some(i) => Some(xs[i])
  }

  /** The elements of `xs` satisfying `p`, in their original order. */
  function Filter<T>(xs: seq<T>, p: T -> bool): (r: seq<T>)
    ensures |r| <= |xs|
    ensures forall i :: 0 <= i < |r| ==> r[i] in xs && p(r[i])
    ensures forall i :: 0 <= i < |xs| && p(xs[i]) ==> xs[i] in r
    decreases |xs|
  {
    if |xs| == 0 then []
    else if p(xs[0]) then [xs[0]] + Filter(xs[1..], p)
    else Filter(xs[1..], p)
  }

  /** Filtering distributes over concatenation, so the kept elements keep their input order. */
  lemma {:induction false} FilterAppend<T>(a: seq<T>, b: seq<T>, p: T -> bool)
    ensures Filter(a + b, p) == Filter(a, p) + Filter(b, p)
    decreases |a|
  {
    if |a| == 0 {
      assert a + b == b;
    } else {
      assert (a + b)[1..] == a[1..] + b;
      FilterAppend(a[1..], b, p);
    }
  }

  /** A filter every element passes keeps the whole sequence. */
  lemma {:induction false} FilterAll<T>(xs: seq<T>, p: T -> bool)
    requires forall i :: 0 <= i < |xs| ==> p(xs[i])
    ensures Filter(xs, p) == xs
    decreases |xs|
  {
    if |xs| > 0 {
      FilterAll(xs[1..], p);
    }
  }

  /** Mapping the kept elements yields exactly the images of the elements that pass the filter. */
  lemma MapFilterMember<T, U>(f: T -> U, xs: seq<T>, p: T -> bool)
    ensures forall y :: y in Map(f, Filter(xs, p)) <==> exists k :: 0 <= k < |xs| && p(xs[k]) && y == f(xs[k])
  {
    var r := Filter(xs, p);
    var m := Map(f, r);
    forall y | y in m
      ensures exists k :: 0 <= k < |xs| && p(xs[k]) && y == f(xs[k])
    {
      var i :| 0 <= i < |m| && m[i] == y;
      assert r[i] in xs && p(r[i]);
      var k :| 0 <= k < |xs| && xs[k] == r[i];
    }
    forall k | 0 <= k < |xs| && p(xs[k])
      ensures f(xs[k]) in m
    {
      var i :| 0 <= i < |r| && r[i] == xs[k];
      assert m[i] == f(xs[k]);
    }
  }

  /** `xs.map(f)`. */
  function Map<T, U>(f: T -> U, xs: seq<T>): (r: seq<U>)
    ensures |r| == |xs|
    ensures forall i :: 0 <= i < |xs| ==> r[i] == f(xs[i])
  {
    seq(|xs|, i requires 0 <= i < |xs| => f(xs[i]))
  }

  /** Mapping distributes over concatenation. */
  lemma MapAppend<T, U>(f: T -> U, a: seq<T>, b: seq<T>)
    ensures Map(f, a + b) == Map(f, a) + Map(f, b)
  {
  }

  /**
    Applying a step that may fail to every element in order: all the results, or the error of
    the first element whose step fails.
   */
  function MapResult<T, U, E>(xs: seq<T>, f: T -> Result<U, E>): (r: Result<seq<U>, E>)
    ensures r.Ok? <==> forall i :: 0 <= i < |xs| ==> f(xs[i]).Ok?
    ensures r.Ok? ==> |r.value| == |xs| && forall i :: 0 <= i < |xs| ==> r.value[i] == f(xs[i]).value
    ensures r.Err? ==> exists i :: 0 <= i < |xs| && f(xs[i]) == Err(r.error) && forall j :: 0 <= j < i ==> f(xs[j]).Ok?
    decreases |xs|
  {
    if |xs| == 0 then Ok([])
    else
      match f(xs[0])
      case Err(e) => Err(e)
      case Ok(y) =>
        match MapResult(xs[1..], f)
        case Err(e) =>
          assert forall i :: 0 <= i < |xs| - 1 ==> xs[1..][i] == xs[i + 1];
          Err(e)
        case Ok(ys) => Ok([y] + ys)
  }

  /** Concatenation of a sequence of sequences. */
  function Flatten<T>(xss: seq<seq<T>>): (r: seq<T>)
    decreases |xss|
  {
    if |xss| == 0 then [] else xss[0] + Flatten(xss[1..])
  }

  /** Flattening distributes over concatenation. */
  lemma {:induction false} FlattenAppend<T>(a: seq<seq<T>>, b: seq<seq<T>>)
    ensures Flatten(a + b) == Flatten(a) + Flatten(b)
    decreases |a|
  {
    if |a| == 0 {
      assert a + b == b;
    } else {
      assert (a + b)[1..] == a[1..] + b;
      FlattenAppend(a[1..], b);
    }
  }

  /** Flattening one-element blocks gives the elements. */
  lemma {:induction false} FlattenSingletons<T>(xss: seq<seq<T>>, xs: seq<T>)
    requires |xss| == |xs| && forall i :: 0 <= i < |xs| ==> xss[i] == [xs[i]]
    ensures Flatten(xss) == xs
    decreases |xs|
  {
    if |xs| > 0 {
      FlattenSingletons(xss[1..], xs[1..]);
    }
  }
  /** An element of a flattening comes from one of the blocks, and every block's elements are in it. */
  lemma {:induction false} FlattenMember<T>(xss: seq<seq<T>>, x: T)
    ensures x in Flatten(xss) <==> exists i :: 0 <= i < |xss| && x in xss[i]
    decreases |xss|
  {
    if |xss| > 0 {
      FlattenMember(xss[1..], x);
      if x in Flatten(xss[1..]) {
        var i :| 0 <= i < |xss[1..]| && x in xss[1..][i];
        assert x in xss[i + 1];
      }
      if exists i :: 0 <= i < |xss| && x in xss[i] {
        var i :| 0 <= i < |xss| && x in xss[i];
        if i > 0 {
          assert x in xss[1..][i - 1];
        }
      }
    }
  }
}

=== FILE: service_account.dfy ===
/**
  Service accounts (src/gcp/service-account.ts): an account with project roles, and roles
  granted to an existing account by email.
 */
module ServiceAccount {
  import opened Wrappers
  import opened Resources
  import Strings
  import Seqs
  import Context
  import Description

  datatype Args = Args(name: string, displayName: Option<string>, project: string, roles: seq<string>)

  function AccountIdentity(c: Context.Ctx, project: string, name: string): string {
    Context.Rn(c, ["iam", "gcp", "sa", project, name])
  }

  function RoleIdentity(c: Context.Ctx, project: string, name: string, role: string): string {
    Context.Rn(c, ["iam", "gcp", "sa", project, name, "role", role])
  }

  /** The default display name: the name in title case with spaces, then ` Service`. */
  function DefaultDisplayName(name: string): (n: string)
    ensures |n| == |name| + |" Service"| && n[|name|..] == " Service"
    ensures '-' !in n
  {
    Description.DashToCamelWithSpaces(name) + " Service"
  }

  /** The example of the documentation: `web-app` is shown as `Web App Service`. */
  lemma DefaultDisplayNameExample()
    ensures DefaultDisplayName("web-app") == "Web App Service"
  {
    Description.WebAppExample();
  }

  /** A project role held by the account, read through its email. */
  function AccountRoleDecl(c: Context.Ctx, args: Args, role: string): (d: Decl)
    ensures d.identity == RoleIdentity(c, args.project, args.name, role)
    ensures d.spec == ProjectIamMember(args.project, "roles/" + role,
                                       Out("serviceAccount:", Ref(AccountIdentity(c, args.project, args.name), "email"), ""))
    ensures Needs(d) == {AccountIdentity(c, args.project, args.name)}
    ensures d.options == NoOptions
  {
    Decl(RoleIdentity(c, args.project, args.name, role),
         ProjectIamMember(args.project, "roles/" + role,
                          Out("serviceAccount:", Ref(AccountIdentity(c, args.project, args.name), "email"), "")),
         NoOptions)
  }

  datatype Account = Account(account: Decl, roles: seq<Decl>)

  /**
    `useServiceAccount`: the account (display name defaulted from its name), depending on
    `deps`, and one project role binding per role, in order, for the account's email.
   */
  function UseServiceAccount(c: Context.Ctx, args: Args, deps: seq<string>): (r: Account)
    ensures r.account.identity == AccountIdentity(c, args.project, args.name)
    ensures r.account.spec == Resources.ServiceAccount(args.name, Description.ManagedByDescription(c),
                                                       args.displayName.GetOr(DefaultDisplayName(args.name)), args.project)
    ensures r.account.options == DependsOn(deps)
    ensures |r.roles| == |args.roles|
    ensures forall k :: 0 <= k < |args.roles| ==> r.roles[k] == AccountRoleDecl(c, args, args.roles[k])
  {
    Account(
      Decl(AccountIdentity(c, args.project, args.name),
           Resources.ServiceAccount(args.name, Description.ManagedByDescription(c),
                                    args.displayName.GetOr(DefaultDisplayName(args.name)), args.project),
           DependsOn(deps)),
      Seqs.Map((role: string) => AccountRoleDecl(c, args, role), args.roles))
  }

  /** Every role binding reads the account declared before it; the account needs only its dependencies. */
  lemma ServiceAccountWellOrdered(c: Context.Ctx, args: Args, deps: seq<string>)
    ensures var r := UseServiceAccount(c, args, deps);
            WellOrdered([r.account] + r.roles, set k | 0 <= k < |deps| :: deps[k])
  {
    var r := UseServiceAccount(c, args, deps);
    var scope := set k | 0 <= k < |deps| :: deps[k];
    var id := AccountIdentity(c, args.project, args.name);
    forall k | 0 <= k < |r.roles|
      ensures Needs(r.roles[k]) <= scope + {id}
    {
    }
    WellOrderedWhenScoped(r.roles, scope + {id});
    assert Needs(r.account) == scope;
    WellOrderedCons(r.account, r.roles, scope);
  }

  /** The account name `grantServiceAccountRoles` uses: the custom name when non-empty, else the email's local part. */
  function GrantName(serviceAccountEmail: string, customResourceName: Option<string>): (name: string)
    ensures Truthy(customResourceName) ==> name == customResourceName.value
    ensures !Truthy(customResourceName) ==> name <= serviceAccountEmail && '@' !in name
    ensures !Truthy(customResourceName) && |name| < |serviceAccountEmail| ==> serviceAccountEmail[|name|] == '@'
  {
    if Truthy(customResourceName) then customResourceName.value else Strings.FirstSegment(serviceAccountEmail, '@')
  }

  function GrantRoleDecl(c: Context.Ctx, project: string, name: string, email: string, role: string): (d: Decl)
    ensures d.identity == RoleIdentity(c, project, name, role)
    ensures d.spec == ProjectIamMember(project, "roles/" + role, Lit("serviceAccount:" + email))
    ensures Needs(d) == {}
    ensures d.options == NoOptions
  {
    Decl(RoleIdentity(c, project, name, role), ProjectIamMember(project, "roles/" + role, Lit("serviceAccount:" + email)), NoOptions)
  }

  /** `grantServiceAccountRoles`: one binding per role, in order, for the given email. */
  function GrantServiceAccountRoles(c: Context.Ctx, roles: seq<string>, serviceAccountEmail: string, project: string,
                                    customResourceName: Option<string>): (ds: seq<Decl>)
    ensures |ds| == |roles|
    ensures forall k :: 0 <= k < |roles| ==>
              ds[k] == GrantRoleDecl(c, project, GrantName(serviceAccountEmail, customResourceName), serviceAccountEmail, roles[k])
  {
    Seqs.Map((role: string) => GrantRoleDecl(c, project, GrantName(serviceAccountEmail, customResourceName),
                                             serviceAccountEmail, role), roles)
  }

  /**
    Granting roles by email to an account named `name` in `project` uses the identities
    `useServiceAccount` gives its own bindings: the two must not grant the same role.
   */
  lemma GrantSharesIdentities(c: Context.Ctx, args: Args, domain: string)
    requires '@' !in args.name
    ensures var ds := GrantServiceAccountRoles(c, args.roles, args.name + "@" + domain, args.project, None);
            forall k :: 0 <= k < |args.roles| ==> ds[k].identity == UseServiceAccount(c, args, []).roles[k].identity
  {
    var email := args.name + "@" + domain;
    Strings.SplitAround(args.name, domain, '@');
    assert email == args.name + ['@'] + domain;
    assert GrantName(email, None) == args.name;
  }

  /** The role bindings of `grantServiceAccountRoles` need nothing declared before them. */
  lemma GrantServiceAccountRolesWellOrdered(c: Context.Ctx, roles: seq<string>, serviceAccountEmail: string, project: string,
                                            customResourceName: Option<string>)
    ensures WellOrdered(GrantServiceAccountRoles(c, roles, serviceAccountEmail, project, customResourceName), {})
  {
    WellOrderedWhenScoped(GrantServiceAccountRoles(c, roles, serviceAccountEmail, project, customResourceName), {});
  }
}

=== FILE: services.dfy ===
/**
  Service lookup and service endpoint hostnames, src/helpers/services.ts.
 */
module Services {
  import opened Wrappers
  import opened Strings
  import Seqs
  import Env

  /** One entry of the context's service list (`ServiceConfig` in src/context.ts). */
  datatype ServiceConfig = ServiceConfig(name: string, prefix: string, dbPassword: Option<string>)

  /** `getServiceByName`: the first service whose name equals `name`, if any. */
  function GetServiceByName(name: string, services: seq<ServiceConfig>): (r: Option<ServiceConfig>)
    ensures r.Some? ==> r.value in services && r.value.name == name
    ensures r.Some? ==> exists i :: 0 <= i < |services| && services[i] == r.value
                                    && forall j :: 0 <= j < i ==> services[j].name != name
    ensures r.None? <==> forall j :: 0 <= j < |services| ==> services[j].name != name
  {
    Seqs.Find(services, (s: ServiceConfig) => s.name == name)
  }

  /** The labels of an endpoint: the name, the environment outside production, the domain. */
  function EndpointLabels(name: string, env: string, domain: string): seq<string> {
    [name] + (if env != Env.Prod then [env] else []) + [domain]
  }

  /** `buildServiceEndpoint`: the labels joined with dots. */
  function BuildServiceEndpoint(name: string, env: string, domain: string): (r: string)
    ensures env == Env.Prod ==> r == name + "." + domain
    ensures env != Env.Prod ==> r == name + "." + env + "." + domain
  {
    var labels := EndpointLabels(name, env, domain);
    if env == Env.Prod then
      JoinCons(name, [domain], ".");
      Join(labels, ".")
    else
      JoinCons(env, [domain], ".");
      JoinCons(name, [env, domain], ".");
      assert labels == [name] + [env, domain];
      assert name + "." + (env + "." + domain) == name + "." + env + "." + domain;
      Join(labels, ".")
  }

  /** The endpoint is the name, then the environment suffix `useEnvSuffix(env, '.')`, then the domain. */
  lemma EndpointUsesEnvSuffix(name: string, env: string, domain: string)
    ensures BuildServiceEndpoint(name, env, domain) == name + Env.Suffix(env, ".", false) + "." + domain
  {
  }

  /** The endpoint always starts with the name and a dot, and ends with a dot and the domain. */
  lemma EndpointFrame(name: string, env: string, domain: string)
    ensures name + "." <= BuildServiceEndpoint(name, env, domain)
    ensures var r := BuildServiceEndpoint(name, env, domain);
            |r| >= |domain| + 1 && r[|r| - |domain| - 1..] == "." + domain
  {
    var r := BuildServiceEndpoint(name, env, domain);
    EndpointUsesEnvSuffix(name, env, domain);
    assert r == (name + Env.Suffix(env, ".", false)) + ("." + domain);
  }

  /**
    A dot-free service name is recovered from its endpoint as the first label, and the first
    label of a production endpoint is followed directly by the domain.
   */
  lemma EndpointFirstLabel(name: string, env: string, domain: string)
    requires '.' !in name
    ensures FirstSegment(BuildServiceEndpoint(name, env, domain), '.') == name
  {
    var r := BuildServiceEndpoint(name, env, domain);
    var rest := if env == Env.Prod then domain else env + "." + domain;
    assert r == name + ['.'] + rest;
    SplitAround(name, rest, '.');
  }
}

=== FILE: storage_bucket.dfy ===
/**
  Storage buckets (src/gcp/storage-bucket.ts): a bucket with uniform access, optional CORS
  and soft delete, optional public read access, and an optional CDN backend for the load
  balancer.
 */
module StorageBucket {
  import opened Wrappers
  import opened Resources
  import Strings
  import Env
  import Context
  import Description

  /** Seven days. */
  const SoftDeleteSeconds: int := 604800

  /** Any origin and method, the `Content-Type` header, cached for an hour. */
  const OpenCors: Cors := Cors(["*"], ["*"], ["Content-Type"], 3600)

  const ObjectViewer: string := "roles/storage.objectViewer"
  const AllUsers: string := "allUsers"
  const CacheStatusHeader: string := "Cache-Status: {cdn_cache_status}"

  datatype Args = Args(name: string, prefix: string, location: Option<string>, isPublic: Option<bool>,
                       isCorsEnabled: Option<bool>, isSoftDeleteEnabled: Option<bool>, isCdnEnabled: Option<bool>,
                       shouldCreateBackend: Option<bool>, customName: Option<string>)

  function BucketIdentity(c: Context.Ctx, args: Args): string {
    Context.Rn(c, ["storage", "gcp", "bucket", args.prefix, args.name])
  }

  /**
    The bucket: the custom name when given (even empty), otherwise the flat `prefix-name`;
    the location upper-cased, defaulting to the context's region.
   */
  function BucketDecl(c: Context.Ctx, args: Args): (d: Decl)
    ensures d.identity == BucketIdentity(c, args)
    ensures d.spec.Bucket?
    ensures args.customName.Some? ==> d.spec.name == args.customName.value
    ensures args.customName.None? ==> d.spec.name == Context.Srn(c, [args.prefix, args.name])
    ensures d.spec.location == Strings.Upper(args.location.GetOr(c.gcp.region))
    ensures Strings.NoLower(d.spec.location)
    ensures d.spec.cors.Some? <==> IsTrue(args.isCorsEnabled)
    ensures d.spec.cors.Some? ==> d.spec.cors.value == OpenCors
    ensures d.spec.uniformBucketLevelAccess
    ensures d.spec.softDeleteRetentionSeconds.Some? <==> IsTrue(args.isSoftDeleteEnabled)
    ensures d.spec.softDeleteRetentionSeconds.Some? ==> d.spec.softDeleteRetentionSeconds.value == SoftDeleteSeconds
    ensures Needs(d) == {}
    ensures d.options == NoOptions
  {
    Decl(BucketIdentity(c, args),
         Bucket(args.customName.GetOr(Context.Srn(c, [args.prefix, args.name])),
                Strings.Upper(args.location.GetOr(c.gcp.region)),
                if IsTrue(args.isCorsEnabled) then Some(OpenCors) else None,
                true,
                if IsTrue(args.isSoftDeleteEnabled) then Some(SoftDeleteSeconds) else None),
         NoOptions)
  }

  /** Public read access to the objects, for everyone. */
  function PublicAccessDecl(c: Context.Ctx, args: Args): (d: Decl)
    ensures d.identity == Context.Rn(c, ["storage", "gcp", "bucket", args.prefix, args.name, "public-access"])
    ensures d.spec == BucketIamMember(Output(BucketIdentity(c, args), "name"), ObjectViewer, Lit(AllUsers))
    ensures d.options == DependsOn([BucketIdentity(c, args)])
    ensures Needs(d) == {BucketIdentity(c, args)}
  {
    assert [BucketIdentity(c, args)][0] == BucketIdentity(c, args);
    Decl(Context.Rn(c, ["storage", "gcp", "bucket", args.prefix, args.name, "public-access"]),
         BucketIamMember(Output(BucketIdentity(c, args), "name"), ObjectViewer, Lit(AllUsers)),
         DependsOn([BucketIdentity(c, args)]))
  }

  /** The backend bucket: named after the bucket name without the prefix, CDN always on in production. */
  function BackendDecl(c: Context.Ctx, args: Args): (d: Decl)
    ensures d.identity == Context.Rn(c, ["storage", "gcp", "bucket", args.prefix, args.name, "backend"])
    ensures d.spec.BackendBucket? && d.spec.name == Context.Srn(c, ["bucket", args.name])
    ensures d.spec.bucketName == Output(BucketIdentity(c, args), "name")
    ensures d.spec.enableCdn <==> c.env == Env.Prod || IsTrue(args.isCdnEnabled)
    ensures d.spec.customResponseHeaders == [CacheStatusHeader]
    ensures d.options == DependsOn([BucketIdentity(c, args)])
    ensures Needs(d) == {BucketIdentity(c, args)}
    ensures d.spec.description == Description.ManagedByDescription(c)
  {
    assert [BucketIdentity(c, args)][0] == BucketIdentity(c, args);
    Decl(Context.Rn(c, ["storage", "gcp", "bucket", args.prefix, args.name, "backend"]),
         BackendBucket(Context.Srn(c, ["bucket", args.name]), Description.ManagedByDescription(c),
                       Output(BucketIdentity(c, args), "name"), c.env == Env.Prod || IsTrue(args.isCdnEnabled),
                       [CacheStatusHeader]),
         DependsOn([BucketIdentity(c, args)]))
  }

  datatype StorageBucket = StorageBucket(bucket: Decl, publicAccess: Option<Decl>, backend: Option<Decl>)

  /** `useStorageBucket`: the bucket, public access exactly when asked, a backend exactly when asked. */
  function UseStorageBucket(c: Context.Ctx, args: Args): (r: StorageBucket)
    ensures r.bucket == BucketDecl(c, args)
    ensures r.publicAccess.Some? <==> IsTrue(args.isPublic)
    ensures r.publicAccess.Some? ==> r.publicAccess.value == PublicAccessDecl(c, args)
    ensures r.backend.Some? <==> IsTrue(args.shouldCreateBackend)
    ensures r.backend.Some? ==> r.backend.value == BackendDecl(c, args)
  {
    StorageBucket(BucketDecl(c, args),
                  if IsTrue(args.isPublic) then Some(PublicAccessDecl(c, args)) else None,
                  if IsTrue(args.shouldCreateBackend) then Some(BackendDecl(c, args)) else None)
  }

  /** The declarations in the order the source makes them. */
  function Declarations(r: StorageBucket): seq<Decl> {
    [r.bucket] + (if r.publicAccess.Some? then [r.publicAccess.value] else [])
      + (if r.backend.Some? then [r.backend.value] else [])
  }

  /** Both optional resources read the bucket's name and depend on it, so they follow it. */
  lemma StorageBucketWellOrdered(c: Context.Ctx, args: Args, scope: set<string>)
    ensures WellOrdered(Declarations(UseStorageBucket(c, args)), scope)
  {
    var r := UseStorageBucket(c, args);
    var id := BucketIdentity(c, args);
    var s1 := scope + {id};
    var backend := if r.backend.Some? then [r.backend.value] else [];
    var public := if r.publicAccess.Some? then [r.publicAccess.value] else [];
    WellOrderedWhenScoped(backend, s1);
    if r.publicAccess.Some? {
      WellOrderedWider(backend, s1, s1 + {r.publicAccess.value.identity});
      WellOrderedCons(r.publicAccess.value, backend, s1);
    }
    assert WellOrdered(public + backend, s1);
    WellOrderedCons(r.bucket, public + backend, scope);
    assert Declarations(r) == [r.bucket] + (public + backend);
  }

  /** Without a custom name, buckets of different prefixes may share a name: `a-b` + `c` and `a` + `b-c`. */
  lemma DefaultNamesMayCollide(c: Context.Ctx)
    requires c.env == Env.Prod
    ensures Context.Srn(c, ["a-b", "c"]) == Context.Srn(c, ["a", "b-c"])
  {
    assert Strings.Join(["a-b", "c"], "-") == "a-b-c";
    assert Strings.Join(["a", "b-c"], "-") == "a-b-c";
  }
}

=== FILE: strings.dfy ===
/**
  The string primitives the source relies on, with JavaScript semantics restricted to ASCII:
  `toLowerCase`, `toUpperCase`, `split` on one character, `join`, `replaceAll` of one
  character, and the `\s` character class.
 */
module Strings {

  predicate IsLower(c: char) {
    'a' <= c <= 'z'
  }

  predicate IsUpper(c: char) {
    'A' <= c <= 'Z'
  }

  /** The ASCII members of the JavaScript `\s` class. */
  predicate IsSpace(c: char) {
    c == ' ' || c == '\t' || c == '\n' || c == '\U{000B}' || c == '\U{000C}' || c == '\r'
  }

  /** `c.toLowerCase()` for ASCII: upper-case letters move down, everything else stays. */
  function LowerChar(c: char): (d: char)
    ensures !IsUpper(d)
    ensures IsUpper(c) ==> IsLower(d) && UpperChar(d) == c
    ensures !IsUpper(c) ==> d == c
  {
    if IsUpper(c) then (c as int + 32) as char else c
  }

  /** `c.toUpperCase()` for ASCII: lower-case letters move up, everything else stays. */
  function UpperChar(c: char): (d: char)
    ensures !IsLower(d)
    ensures IsLower(c) ==> IsUpper(d)
    ensures !IsLower(c) ==> d == c
  {
    if IsLower(c) then (c as int - 32) as char else c
  }

  /** `s.toLowerCase()`. */
  function Lower(s: string): (r: string)
    ensures |r| == |s|
    ensures forall i :: 0 <= i < |s| ==> r[i] == LowerChar(s[i])
  {
    seq(|s|, i requires 0 <= i < |s| => LowerChar(s[i]))
  }

  /** `s.toUpperCase()`. */
  function Upper(s: string): (r: string)
    ensures |r| == |s|
    ensures forall i :: 0 <= i < |s| ==> r[i] == UpperChar(s[i])
  {
    seq(|s|, i requires 0 <= i < |s| => UpperChar(s[i]))
  }

  predicate NoUpper(s: string) {
    forall i :: 0 <= i < |s| ==> !IsUpper(s[i])
  }

  predicate NoLower(s: string) {
    forall i :: 0 <= i < |s| ==> !IsLower(s[i])
  }

  predicate NoSpace(s: string) {
    forall i :: 0 <= i < |s| ==> !IsSpace(s[i])
  }

  /** Number of occurrences of `c` in `s`. */
  function Count(s: string, c: char): nat
    decreases |s|
  {
    if |s| == 0 then 0 else (if s[0] == c then 1 else 0) + Count(s[1..], c)
  }

  /** `s.replaceAll(a, b)` (or `s.replace(/a/g, b)`) for single characters `a` and `b`. */
  function ReplaceChar(s: string, a: char, b: char): (r: string)
    ensures |r| == |s|
    ensures forall i :: 0 <= i < |s| ==> r[i] == (if s[i] == a then b else s[i])
  {
    seq(|s|, i requires 0 <= i < |s| => if s[i] == a then b else s[i])
  }

  /** `parts.join(sep)`: the empty array gives the empty string. */
  function Join(parts: seq<string>, sep: string): string
    decreases |parts|
  {
    if |parts| == 0 then ""
    else if |parts| == 1 then parts[0]
    else parts[0] + sep + Join(parts[1..], sep)
  }

  /** `s.split(c)`: always at least one piece; the empty string gives `[""]`. */
  function Split(s: string, c: char): (r: seq<string>)
    ensures |r| >= 1
    decreases |s|
  {
    if |s| == 0 then [""]
    else if s[0] == c then [""] + Split(s[1..], c)
    else
      var rest := Split(s[1..], c);
      [[s[0]] + rest[0]] + rest[1..]
  }

  /** `s.split(c)[0]`: the longest prefix of `s` free of `c`, the whole of `s` when `c` is absent. */
  function FirstSegment(s: string, c: char): (h: string)
    ensures h <= s
    ensures c !in h
    ensures |h| < |s| ==> s[|h|] == c
    ensures c !in s ==> h == s
  {
    SplitHead(s, c);
    Split(s, c)[0]
  }

  lemma {:induction false} SplitHead(s: string, c: char)
    ensures Split(s, c)[0] <= s
    ensures c !in Split(s, c)[0]
    ensures |Split(s, c)[0]| < |s| ==> s[|Split(s, c)[0]|] == c
    decreases |s|
  {
    if |s| != 0 && s[0] != c {
      SplitHead(s[1..], c);
    }
  }

  /** The first segment of `a`, the separator, then anything, is `a`. */
  lemma FirstSegmentOf(a: string, b: string, c: char)
    requires c !in a
    ensures FirstSegment(a + [c] + b, c) == a
  {
    SplitAround(a, b, c);
  }

  /** A string free of the separator splits into itself. */
  lemma {:induction false} SplitNoSeparator(a: string, c: char)
    requires c !in a
    ensures Split(a, c) == [a]
    decreases |a|
  {
    if |a| != 0 {
      assert a[0] in a;
      SplitNoSeparator(a[1..], c);
      assert [a[0]] + a[1..] == a;
    }
  }

  /** Splitting peels off a separator-free first piece. */
  lemma {:induction false} SplitAround(a: string, b: string, c: char)
    requires c !in a
    ensures Split(a + [c] + b, c) == [a] + Split(b, c)
    decreases |a|
  {
    var s := a + [c] + b;
    if |a| == 0 {
      assert s[1..] == b;
    } else {
      assert s[1..] == a[1..] + [c] + b;
      SplitAround(a[1..], b, c);
      assert [a[0]] + a[1..] == a;
    }
  }

  /** `join` then `split` on the same separator gives the pieces back when none contains it. */
  lemma {:induction false} SplitJoin(parts: seq<string>, c: char)
    requires |parts| >= 1
    requires forall k :: 0 <= k < |parts| ==> c !in parts[k]
    ensures Split(Join(parts, [c]), c) == parts
    decreases |parts|
  {
    if |parts| == 1 {
      SplitNoSeparator(parts[0], c);
    } else {
      SplitJoin(parts[1..], c);
      SplitAround(parts[0], Join(parts[1..], [c]), c);
      assert [parts[0]] + parts[1..] == parts;
    }
  }

  /** Re-joining the pieces of a split with another separator replaces that character. */
  lemma {:induction false} JoinSplitReplace(s: string, a: char, b: char)
    ensures Join(Split(s, a), [b]) == ReplaceChar(s, a, b)
    decreases |s|
  {
    if |s| != 0 {
      var rest := Split(s[1..], a);
      JoinSplitReplace(s[1..], a, b);
      if s[0] == a {
        assert Split(s, a) == [""] + rest;
        assert ([""] + rest)[1..] == rest;
        assert ReplaceChar(s, a, b) == [b] + ReplaceChar(s[1..], a, b);
      } else {
        var parts := [[s[0]] + rest[0]] + rest[1..];
        assert Split(s, a) == parts;
        assert ReplaceChar(s, a, b) == [s[0]] + ReplaceChar(s[1..], a, b);
        if |rest| > 1 {
          assert parts[1..] == rest[1..];
        }
      }
    }
  }

  /** `join` undoes `split` on the same separator. */
  lemma JoinSplit(s: string, c: char)
    ensures Join(Split(s, c), [c]) == s
  {
    JoinSplitReplace(s, c, c);
    assert ReplaceChar(s, c, c) == s;
  }

  /** No piece of a split contains the separator. */
  lemma {:induction false} SplitPiecesFree(s: string, c: char)
    ensures forall k :: 0 <= k < |Split(s, c)| ==> c !in Split(s, c)[k]
    decreases |s|
  {
    if |s| != 0 {
      SplitPiecesFree(s[1..], c);
    }
  }

  /** A split has one more piece than the string has separators. */
  lemma {:induction false} SplitCount(s: string, c: char)
    ensures |Split(s, c)| == Count(s, c) + 1
    decreases |s|
  {
    if |s| != 0 {
      SplitCount(s[1..], c);
    }
  }

  /** A character absent from every piece and from the separator is absent from the join. */
  lemma {:induction false} JoinFree(parts: seq<string>, sep: string, x: char)
    requires x !in sep
    requires forall k :: 0 <= k < |parts| ==> x !in parts[k]
    ensures x !in Join(parts, sep)
    decreases |parts|
  {
    if |parts| > 1 {
      JoinFree(parts[1..], sep, x);
    }
  }

  /** Joining peels off the first piece and a separator. */
  lemma JoinCons(x: string, rest: seq<string>, sep: string)
    requires |rest| >= 1
    ensures Join([x] + rest, sep) == x + sep + Join(rest, sep)
  {
    assert ([x] + rest)[1..] == rest;
  }

  /** A character prepended to the first piece comes out first. */
  lemma JoinPrepend(c: char, w: string, rest: seq<string>, sep: string)
    ensures Join([[c] + w] + rest, sep) == [c] + Join([w] + rest, sep)
  {
    if |rest| > 0 {
      JoinCons([c] + w, rest, sep);
      JoinCons(w, rest, sep);
    }
  }

  /** Joining a one-piece list gives the piece. */
  lemma JoinSingle(x: string, sep: string)
    ensures Join([x], sep) == x
  {
  }

  /** `ReplaceChar` is undone by the reverse replacement when the target was absent. */
  lemma ReplaceCharInverse(s: string, a: char, b: char)
    requires b !in s
    ensures ReplaceChar(ReplaceChar(s, a, b), b, a) == s
  {
    var r := ReplaceChar(ReplaceChar(s, a, b), b, a);
    forall i | 0 <= i < |s|
      ensures r[i] == s[i]
    {
      assert s[i] != b;
    }
  }

  /** Occurrences of `c` in a concatenation add up. */
  lemma {:induction false} CountAppend(a: string, b: string, c: char)
    ensures Count(a + b, c) == Count(a, c) + Count(b, c)
    decreases |a|
  {
    if |a| != 0 {
      assert (a + b)[1..] == a[1..] + b;
      assert (a + b)[0] == a[0];
      CountAppend(a[1..], b, c);
    } else {
      assert a + b == b;
    }
  }

  /**
    Two equally long strings where `a` has `c` exactly at the positions where `b` has `d` or
    `e` count the same.
   */
  lemma {:induction false} CountMatches(a: string, b: string, c: char, d: char, e: char)
    requires |a| == |b| && d != e
    requires forall i :: 0 <= i < |a| ==> (a[i] == c <==> b[i] == d || b[i] == e)
    ensures Count(a, c) == Count(b, d) + Count(b, e)
    decreases |a|
  {
    if |a| > 0 {
      assert forall i :: 0 <= i < |a| - 1 ==> a[1..][i] == a[i + 1] && b[1..][i] == b[i + 1];
      CountMatches(a[1..], b[1..], c, d, e);
    }
  }

  /** A character is counted iff it occurs. */
  lemma {:induction false} CountZero(s: string, c: char)
    ensures Count(s, c) == 0 <==> c !in s
    decreases |s|
  {
    if |s| != 0 {
      CountZero(s[1..], c);
      assert s == [s[0]] + s[1..];
    }
  }
}

=== FILE: workload_identity_pool.dfy ===
/**
  Workload identity federation for GitHub Actions (src/gcp/workload-identity-pool.ts): one
  pool, one service account, and per GitHub organisation an OIDC provider restricted to that
  organisation and the right to impersonate the account.
 */
module WorkloadIdentityPool {
  import opened Wrappers
  import opened Resources
  import Seqs
  import Strings
  import Context
  import ResourceNames
  import SA = ServiceAccount

  const PoolId: string := "github"
  const PoolDisplayName: string := "GitHub Pool"
  const AccountName: string := "github-wip"
  const AccountDisplayName: string := "GitHub Workload Identity"

  /** Roles of the account: the Artifact Registry writer and the Cloud Storage object admin. */
  const AccountRoles: seq<string> := ["artifactregistry.writer", "storage.objectAdmin"]

  const IssuerUri: string := "https://token.actions.githubusercontent.com"

  const AttributeMapping: seq<Pair> := [
    Pair("google.subject", "assertion.sub"),
    Pair("attribute.repository_owner", "assertion.repository_owner"),
    Pair("attribute.repository", "assertion.repository")
  ]

  /**
    `role` is the role the bindings grant; the source names an enum member that the roles
    enum does not define, so the model takes it as given.
   */
  datatype Args = Args(projectId: string, projectNumber: string, githubOrganizations: Option<seq<string>>, role: string)

  /** The provider and the impersonation binding of one organisation. */
  datatype OrgAccess = OrgAccess(provider: Decl, binding: Decl)

  /** Everything the builder declares, in order. */
  datatype GithubPool = GithubPool(pool: Decl, account: SA.Account, orgs: seq<OrgAccess>)

  function PoolIdentity(c: Context.Ctx): string {
    Context.Rn(c, ["iam", "gcp", "wip", PoolId])
  }

  function PoolDecl(c: Context.Ctx, projectId: string): (d: Decl)
    ensures d.identity == PoolIdentity(c)
    ensures d.spec == WorkloadIdentityPool(PoolId, PoolDisplayName, projectId)
    ensures Needs(d) == {}
    ensures d.options == NoOptions
  {
    Decl(PoolIdentity(c), WorkloadIdentityPool(PoolId, PoolDisplayName, projectId), NoOptions)
  }

  function AccountArgs(projectId: string): SA.Args {
    SA.Args(AccountName, Some(AccountDisplayName), projectId, AccountRoles)
  }

  /** `assertion.repository_owner == '<org>'`: only tokens of repositories the organisation owns. */
  function OwnerCondition(org: string): string {
    "assertion.repository_owner == '" + org + "'"
  }

  /** The provider of one organisation, keyed by its lower-cased login, after the pool. */
  function ProviderDecl(c: Context.Ctx, projectId: string, org: string): (d: Decl)
    ensures d.identity == Context.Rn(c, ["iam", "gcp", "wip", PoolId, Strings.Lower(org)])
    ensures d.spec.WorkloadIdentityPoolProvider?
    ensures d.spec.pool == Output(PoolIdentity(c), "workloadIdentityPoolId")
    ensures d.spec.providerId == "github-" + Strings.Lower(org) && d.spec.displayName == "GitHub Org: " + org
    ensures d.spec.project == projectId && d.spec.issuerUri == IssuerUri
    ensures d.spec.attributeMapping == AttributeMapping && d.spec.attributeCondition == OwnerCondition(org)
    ensures d.options == DependsOn([PoolIdentity(c)])
    ensures Needs(d) == {PoolIdentity(c)}
  {
    var lower := Strings.Lower(org);
    var d := Decl(Context.Rn(c, ["iam", "gcp", "wip", PoolId, lower]),
                  WorkloadIdentityPoolProvider(Output(PoolIdentity(c), "workloadIdentityPoolId"), "github-" + lower,
                                               "GitHub Org: " + org, projectId, IssuerUri, AttributeMapping, OwnerCondition(org)),
                  DependsOn([PoolIdentity(c)]));
    assert d.options.dependsOn[0] == PoolIdentity(c);
    d
  }

  /** The account's resource path, built from the account name and the project. */
  function AccountPath(projectId: string): string {
    "projects/" + projectId + "/serviceAccounts/" + AccountName + "@" + projectId + ".iam.gserviceaccount.com"
  }

  /** Every identity from the pool whose repository owner is `org`. */
  function PrincipalSet(projectNumber: string, org: string): string {
    "principalSet://iam.googleapis.com/projects/" + projectNumber
      + "/locations/global/workloadIdentityPools/" + PoolId + "/attribute.repository_owner/" + org
  }

  /** The binding of one organisation: its principals may use the account; after the pool and the account. */
  function BindingDecl(c: Context.Ctx, args: Args, org: string): (d: Decl)
    ensures d.identity == Context.Rn(c, ["iam", "gcp", "wip", PoolId, "sa", Strings.Lower(org)])
    ensures d.spec == ServiceAccountIamMember(AccountPath(args.projectId), "roles/" + args.role,
                                              Lit(PrincipalSet(args.projectNumber, org)))
    ensures d.options == DependsOn([PoolIdentity(c), SA.AccountIdentity(c, args.projectId, AccountName)])
    ensures Needs(d) == {PoolIdentity(c), SA.AccountIdentity(c, args.projectId, AccountName)}
  {
    var deps := [PoolIdentity(c), SA.AccountIdentity(c, args.projectId, AccountName)];
    var d := Decl(Context.Rn(c, ["iam", "gcp", "wip", PoolId, "sa", Strings.Lower(org)]),
                  ServiceAccountIamMember(AccountPath(args.projectId), "roles/" + args.role,
                                          Lit(PrincipalSet(args.projectNumber, org))),
                  DependsOn(deps));
    assert (set k | 0 <= k < |deps| :: deps[k]) == {deps[0], deps[1]};
    d
  }

  /**
    `useWorkloadIdentityPoolForGithub`: the pool, the account with its two roles, and for each
    organisation given (none by default) its provider and binding, in order.
   */
  function UseWorkloadIdentityPoolForGithub(c: Context.Ctx, args: Args): (r: GithubPool)
    ensures r.pool == PoolDecl(c, args.projectId)
    ensures r.account == SA.UseServiceAccount(c, AccountArgs(args.projectId), [])
    ensures |r.orgs| == |args.githubOrganizations.GetOr([])|
    ensures forall k :: 0 <= k < |r.orgs| ==>
              var org := args.githubOrganizations.GetOr([])[k];
              r.orgs[k] == OrgAccess(ProviderDecl(c, args.projectId, org), BindingDecl(c, args, org))
  {
    GithubPool(PoolDecl(c, args.projectId), SA.UseServiceAccount(c, AccountArgs(args.projectId), []),
               Seqs.Map((org: string) => OrgAccess(ProviderDecl(c, args.projectId, org), BindingDecl(c, args, org)),
                        args.githubOrganizations.GetOr([])))
  }

  /** The declarations of a pool, in the order the source makes them. */
  function Declarations(r: GithubPool): seq<Decl> {
    Head(r) + Seqs.Flatten(OrgBlocks(r.orgs))
  }

  /** The pool, then the account and its role bindings. */
  function Head(r: GithubPool): seq<Decl> {
    [r.pool, r.account.account] + r.account.roles
  }

  /** Each organisation's provider and binding, in organisation order. */
  function OrgBlocks(orgs: seq<OrgAccess>): seq<seq<Decl>> {
    Seqs.Map((o: OrgAccess) => [o.provider, o.binding], orgs)
  }

  /**
    The binding impersonates the account the builder creates: its resource path names that
    account's id in the same project.
   */
  lemma BindingTargetsAccount(c: Context.Ctx, args: Args, k: int)
    requires 0 <= k < |args.githubOrganizations.GetOr([])|
    ensures var r := UseWorkloadIdentityPoolForGithub(c, args);
      var a := r.account.account.spec;
      && a.ServiceAccount?
      && r.orgs[k].binding.spec.serviceAccountId
         == "projects/" + a.project + "/serviceAccounts/" + a.accountId + "@" + a.project + ".iam.gserviceaccount.com"
  {
  }

  /** The provider accepts exactly the organisation whose principals the binding admits. */
  lemma ProviderAndBindingAgree(c: Context.Ctx, args: Args, k: int)
    requires 0 <= k < |args.githubOrganizations.GetOr([])|
    ensures var o := UseWorkloadIdentityPoolForGithub(c, args).orgs[k];
      var org := args.githubOrganizations.GetOr([])[k];
      o.provider.spec.attributeCondition == OwnerCondition(org)
      && o.binding.spec.member == Lit(PrincipalSet(args.projectNumber, org))
  {
  }

  /**
    For logins free of `/`, two organisations share a provider identity exactly when their
    logins agree up to letter case: a second organisation differing only in case collides
    with the first.
   */
  lemma ProviderIdentitiesIff(c: Context.Ctx, projectId: string, o1: string, o2: string)
    requires '/' !in o1 && '/' !in o2
    ensures ProviderDecl(c, projectId, o1).identity == ProviderDecl(c, projectId, o2).identity
        <==> Strings.Lower(o1) == Strings.Lower(o2)
  {
    var l1 := Strings.Lower(o1);
    var l2 := Strings.Lower(o2);
    assert '/' !in l1 by {
      forall i | 0 <= i < |l1| ensures l1[i] != '/' { assert o1[i] != '/'; }
    }
    assert '/' !in l2 by {
      forall i | 0 <= i < |l2| ensures l2[i] != '/' { assert o2[i] != '/'; }
    }
    var p1 := ["iam", "gcp", "wip", PoolId, l1];
    var p2 := ["iam", "gcp", "wip", PoolId, l2];
    if Context.Rn(c, p1) == Context.Rn(c, p2) {
      assert forall k :: 0 <= k < |p1| ==> '/' !in p1[k];
      assert forall k :: 0 <= k < |p2| ==> '/' !in p2[k];
      ResourceNames.HierarchicalInjective(c.env, p1, p2);
      assert p1[4] == p2[4];
    }
  }

  /** One organisation's pair is well ordered once the pool and the account exist. */
  lemma OrgAccessWellOrdered(c: Context.Ctx, args: Args, org: string)
    ensures WellOrdered([ProviderDecl(c, args.projectId, org), BindingDecl(c, args, org)],
                        {PoolIdentity(c), SA.AccountIdentity(c, args.projectId, AccountName)})
  {
    var scope := {PoolIdentity(c), SA.AccountIdentity(c, args.projectId, AccountName)};
    var p := ProviderDecl(c, args.projectId, org);
    var b := BindingDecl(c, args, org);
    WellOrderedCons(b, [], scope + {p.identity});
    WellOrderedCons(p, [b], scope);
  }

  /** A declaration that needs nothing, before a well-ordered sequence, declares both heads. */
  lemma TwoHeads(p: Decl, a: Decl, rest: seq<Decl>)
    requires Needs(p) == {} && WellOrdered([a] + rest, {})
    ensures WellOrdered([p, a] + rest, {})
    ensures {p.identity, a.identity} <= Resources.Identities([p, a] + rest)
  {
    var head := [p, a] + rest;
    assert head == [p] + ([a] + rest);
    var none: set<string> := {};
    Resources.WellOrderedWider([a] + rest, none, none + {p.identity});
    WellOrderedCons(p, [a] + rest, {});
    assert head[1..] == [a] + rest;
    assert ([a] + rest)[0] == a;
  }

  /** The pool, then the account and its roles: they need nothing, and they declare the pool and the account. */
  lemma HeadWellOrdered(c: Context.Ctx, args: Args)
    ensures var r := UseWorkloadIdentityPoolForGithub(c, args);
      && WellOrdered(Head(r), {})
      && {PoolIdentity(c), SA.AccountIdentity(c, args.projectId, AccountName)} <= Resources.Identities(Head(r))
  {
    var r := UseWorkloadIdentityPoolForGithub(c, args);
    SA.ServiceAccountWellOrdered(c, AccountArgs(args.projectId), []);
    var noDeps: seq<string> := [];
    assert (set k | 0 <= k < |noDeps| :: noDeps[k]) == {};
    TwoHeads(r.pool, r.account.account, r.account.roles);
  }

  /** The organisations' pairs are well ordered once the pool and the account exist. */
  lemma OrgsWellOrdered(c: Context.Ctx, args: Args)
    ensures var r := UseWorkloadIdentityPoolForGithub(c, args);
      WellOrdered(Seqs.Flatten(OrgBlocks(r.orgs)), {PoolIdentity(c), SA.AccountIdentity(c, args.projectId, AccountName)})
  {
    var r := UseWorkloadIdentityPoolForGithub(c, args);
    var scope := {PoolIdentity(c), SA.AccountIdentity(c, args.projectId, AccountName)};
    var blocks := OrgBlocks(r.orgs);
    forall i | 0 <= i < |blocks|
      ensures WellOrdered(blocks[i], scope)
    {
      OrgAccessWellOrdered(c, args, args.githubOrganizations.GetOr([])[i]);
    }
    Resources.WellOrderedBlocks(blocks, scope);
  }

  /** A pool whose head declares everything its organisation pairs read is well ordered. */
  lemma PoolWellOrdered(r: GithubPool, scope: set<string>)
    requires WellOrdered(Head(r), {}) && scope <= Resources.Identities(Head(r))
    requires WellOrdered(Seqs.Flatten(OrgBlocks(r.orgs)), scope)
    ensures WellOrdered(Declarations(r), {})
  {
    var none: set<string> := {};
    Resources.WellOrderedWider(Seqs.Flatten(OrgBlocks(r.orgs)), scope, none + Resources.Identities(Head(r)));
    Resources.WellOrderedAppend(Head(r), Seqs.Flatten(OrgBlocks(r.orgs)), {});
  }

  /** The pool and the account come first; every provider and binding reads only them. */
  lemma WorkloadIdentityPoolWellOrdered(c: Context.Ctx, args: Args)
    ensures WellOrdered(Declarations(UseWorkloadIdentityPoolForGithub(c, args)), {})
  {
    HeadWellOrdered(c, args);
    OrgsWellOrdered(c, args);
    PoolWellOrdered(UseWorkloadIdentityPoolForGithub(c, args),
                    {PoolIdentity(c), SA.AccountIdentity(c, args.projectId, AccountName)});
  }
}

=== FILE: wrappers.dfy ===
/**
  Failure-compatible wrappers: `Option` for the source's `undefined`-able values and
  `Result` for code paths that end in `throw new Error(...)`.
 */
module Wrappers {

  /** A value that may be absent (`undefined` in the source). */
  datatype Option<+T> = None | Some(value: T) {

    predicate IsFailure() {
      None?
    }

    function PropagateFailure<U>(): Option<U>
      requires None?
    {
      None
    }

    function Extract(): T
      requires Some?
    {
      value
    }

    /** The value, or `default` when absent: the `??` operator and destructuring defaults. */
    function GetOr(default: T): T {
      match this
      case Some(v) => v
      case None => default
    }
  }

  /** Either a computed value or the error the source would have thrown. */
  datatype Result<+T, +E> = Ok(value: T) | Err(error: E) {

    predicate IsFailure() {
      Err?
    }

    function PropagateFailure<U>(): Result<U, E>
      requires Err?
    {
      Err(error)
    }

    function Extract(): T
      requires Ok?
    {
      value
    }
  }

  /** JavaScript truthiness of an optional string: present and non-empty. */
  predicate Truthy(s: Option<string>) {
    s.Some? && s.value != ""
  }

  /** JavaScript truthiness of an optional boolean: present and true. */
  predicate IsTrue(b: Option<bool>) {
    b == Some(true)
  }
}

=== FILE: zone.dfy ===
/**
  Cloudflare DNS records, `useDnsRecord` in src/cloudflare/zone.ts.
 */
module Zone {
  import opened Wrappers
  import opened Strings
  import opened Resources
  import Context
  import ResourceNames

  /** The parts of a `CloudflareZone` the records use. */
  datatype CloudflareZone = CloudflareZone(name: string, zoneId: string, accountId: string)

  /** The record name that stands for the zone apex. */
  const Apex: string := "@"

  /** The identity segment of a record: `_root` for the apex, otherwise the name. */
  function RecordSegment(name: string): (seg: string)
    ensures name == Apex ==> seg == "_root"
    ensures name != Apex ==> seg == name
  {
    if name == Apex then "_root" else name
  }

  /** Only the apex and a record literally named `_root` share a segment. */
  lemma RecordSegmentCollisions(n1: string, n2: string)
    ensures RecordSegment(n1) == RecordSegment(n2)
        <==> n1 == n2 || (n1 == Apex && n2 == "_root") || (n1 == "_root" && n2 == Apex)
  {
  }

  /** The full DNS name: the zone itself for the apex, `name.zone` otherwise. */
  function RecordFullName(zone: string, name: string): (fqdn: string)
    ensures name == Apex ==> fqdn == zone
    ensures name != Apex ==> fqdn == name + "." + zone
  {
    if name == Apex then zone else name + "." + zone
  }

  /** The full name is the zone exactly for the apex, and it always ends with the zone. */
  lemma FullNameIsZoneIff(zone: string, name: string)
    ensures RecordFullName(zone, name) == zone <==> name == Apex
    ensures var f := RecordFullName(zone, name); |f| >= |zone| && f[|f| - |zone|..] == zone
  {
    if name != Apex {
      assert |RecordFullName(zone, name)| > |zone|;
    }
  }

  /**
    `useDnsRecord`: the identity `zone/<zone>/cf/<type>/<segment>`, the zone's id, the full
    name, value and type as given, and `proxied` false unless given.
   */
  function UseDnsRecord(c: Context.Ctx, zone: CloudflareZone, recordType: string, name: string,
                        value: Value, proxied: Option<bool>): (d: Decl)
    ensures d.identity == Context.Rn(c, ["zone", zone.name, "cf", recordType, RecordSegment(name)])
    ensures d.spec.DnsRecord? && d.spec.zoneId == zone.zoneId && d.spec.value == value
    ensures d.spec.recordType == recordType && d.spec.name == RecordFullName(zone.name, name)
    ensures d.spec.proxied <==> proxied == Some(true)
    ensures d.options == NoOptions
  {
    Decl(Context.Rn(c, ["zone", zone.name, "cf", recordType, RecordSegment(name)]),
         DnsRecord(zone.zoneId, RecordFullName(zone.name, name), value, recordType, proxied.GetOr(false)),
         NoOptions)
  }

  /** A record only reads the output its value comes from. */
  lemma DnsRecordWellOrdered(c: Context.Ctx, zone: CloudflareZone, recordType: string, name: string,
                             value: Value, proxied: Option<bool>)
    ensures WellOrdered([UseDnsRecord(c, zone, recordType, name, value, proxied)], ValueOwners(value))
  {
    var d := UseDnsRecord(c, zone, recordType, name, value, proxied);
    assert [d][1..] == [];
  }

  /**
    Records of one zone and type whose names have distinct segments get distinct identities
    when no part contains `/`; the apex and a record named `_root` get the same one.
   */
  lemma RecordIdentities(c: Context.Ctx, zone: CloudflareZone, recordType: string, n1: string, n2: string)
    requires '/' !in zone.name && '/' !in recordType && '/' !in n1 && '/' !in n2
    ensures UseDnsRecord(c, zone, recordType, n1, Lit(""), None).identity
         == UseDnsRecord(c, zone, recordType, n2, Lit(""), None).identity
        <==> RecordSegment(n1) == RecordSegment(n2)
  {
    var p1 := ["zone", zone.name, "cf", recordType, RecordSegment(n1)];
    var p2 := ["zone", zone.name, "cf", recordType, RecordSegment(n2)];
    if Context.Rn(c, p1) == Context.Rn(c, p2) {
      assert forall k :: 0 <= k < |p1| ==> '/' !in p1[k];
      assert forall k :: 0 <= k < |p2| ==> '/' !in p2[k];
      ResourceNames.HierarchicalInjective(c.env, p1, p2);
      assert p1[4] == p2[4];
    }
  }
}
